=== FILE: README.md ===
# Fika profile sync, modelled in Dafny

FikaSync keeps the single-player profiles of an SPT/Fika installation in a GitHub repository.

- **At startup** it downloads the repository archive and extracts it into `temp`. Every `*.json` file at any depth of the extracted repository, wherever it sits, is then compared with the local profile of the same base name:
  - equal SHA-256 digests mean **Synced**;
  - a strictly newer local progress timestamp means **Local Newer**, and the name is remembered as pending;
  - anything else means **Update**: the local file is backed up, then overwritten.

  Every local profile no remote file named becomes **New Local** and is also pending.
- **When the game starts**, it records every profile's timestamp.
- **When the game ends**, it uploads every profile whose timestamp advanced. A pending profile that did not advance is uploaded only when the remote copy is absent or older; otherwise the sync reports a conflict.

This project models the engine of that program and proves what it promises. It also models the smaller pieces around the engine:

- the file-system helpers (extraction, root selection, recursive copy, profile search);
- the translator with its English fallback;
- the `.env` configuration and path detection;
- the repository-URL parser;
- the Python launcher's port/ip extraction and config-file precedence.

The modules follow the program's files:

- `base.dfy`: `Option`, `Result` and bytes.
- `text.dfy`: the .NET string operations the code relies on (`Trim`, `TrimEnd`, ordinal `Replace`, `Split`, `IsNullOrWhiteSpace`), and `StartsWith` as an ordinal prefix test.
- `fingerprint.dfy`: `long` and the lower-case hex hash.
  - SHA-256 and the JSON accessor are not modelled inside. They are the two fields of a `Fingerprinter` value the engine is built with.
  - `GetTimestamp` falls back to 0.
- `sync_rules.dfy`: the engine's decisions as pure folds:
  - `Classify` and `StartupStep`;
  - `RemotePass` / `LocalPass` / `Startup`;
  - `SessionSnapshot`;
  - `ShutdownStep` / `ShutdownPass`.

  The lemmas about them live here too.
- `profile_sync.dfy`: the `ProfileSync` class. Its fields are `_pendingUploads`, `_sessionStartTimestamps` and the backups taken. Each method is proved against the fold it implements.
- `file_manager.dfy`: a `FileSystem` class (files by path, directories as a set) with the operations of `FileManager.cs`.
- `localization.dfy`: the culture switch, the lookup with fallback, and `string.Format` for `{n}` items.
- `config.dfy`: a `Config` class:
  - path detection, environment loading and the `.env` update (proved against a list function);
  - the prompts' validators;
  - `EnsureConfiguration`.
- `github_client.dfy`: `ExtractRepoInfo` and its round trip.
- `game_launcher.dfy`:
  - the two regular expressions of `_extract_values_from_text`, as leftmost-match functions;
  - `0.0.0.0` normalisation;
  - a `GameLauncher` class whose `LoadServerConfig` follows the file precedence.

I/O results are parameters of the operations that perform them. These include:

- whether the download succeeded;
- what the archive decodes to;
- which backups and copies fail;
- what the remote store returns;
- whether a delete or a `.env` write throws;
- the user's successive prompt answers;
- which configuration files exist and read.

Directory listings come in an order the model leaves open. The methods return the order they used, and the folds take it as an argument.

## Model

| member | source | states |
|---|---|---|
| SyncRules.ClassifyAsInSource | ProfileSync.cs:152-179 | The per-file decision by digest equals the source's decision by hex-hash strings, where a missing local file has hash "" and timestamp 0. |
| SyncRules.ClassifyMissingLocal | ProfileSync.cs:152-159 | A missing local file has no separate branch. It is Updated, or LocalNewer when the remote timestamp is negative. |
| SyncRules.StartupStepEffect | ProfileSync.cs:143-179 | Equal digests: nothing is written and pending is unchanged. Otherwise a strictly newer local timestamp keeps the bytes and adds the name to pending. Otherwise an existing local file is backed up unless the backup fails, the remote bytes replace it unless the copy fails, and pending is unchanged. |
| SyncRules.RemotePassSnoc | ProfileSync.cs:143-180 | One more remote file is one more step of the remote loop. |
| SyncRules.RemotePassRows | ProfileSync.cs:143-180 | The remote loop adds one row per remote file, in order, named after the file's base name, and never NewLocal. |
| SyncRules.RemotePassRowAt | ProfileSync.cs:143-147 | The k-th remote file is classified against the local profiles as the earlier remote files left them. Files sharing a base name see each other's writes. |
| SyncRules.RemotePassFrame | ProfileSync.cs:143-180 | A name no remote file has keeps its bytes, its pending status and its processed status through the remote loop. |
| SyncRules.RemotePassProcessed | ProfileSync.cs:141-146 | `processedFiles` ends as exactly the base names of the remote files. |
| SyncRules.RemotePassPending | ProfileSync.cs:169-173 | Pending only grows in the remote loop. It gains exactly the names of the LocalNewer rows. |
| SyncRules.LocalPassEffect | ProfileSync.cs:182-191 | The local loop adds to pending exactly the listed names not processed, with one NewLocal row each. It touches nothing else. |
| SyncRules.StartupPending | ProfileSync.cs:141-191 | After the startup pass a name is pending iff it was pending before or has a LocalNewer or NewLocal row. Nothing is ever removed. NewLocal goes to exactly the listed local names no remote file had. |
| SyncRules.StartupLeavesUnmatched | ProfileSync.cs:143-191 | A local profile whose name no remote file has keeps its presence and its bytes. |
| SyncRules.SessionSnapshot | ProfileSync.cs:53-62 | The snapshot is empty without the profile directory. Otherwise it maps exactly the local `*.json` names to their timestamps. |
| SyncRules.IsSafeToUploadPending | ProfileSync.cs:213-229 | No remote copy means safe. Otherwise it is safe iff the local timestamp is strictly greater than the remote one. |
| SyncRules.RemotePathInjective | ProfileSync.cs:116-118 | Upload and re-check use `profiles/<name>`, and distinct names give distinct paths. |
| SyncRules.ShutdownStepEffect | ProfileSync.cs:84-127 | A file is uploaded as New Progress iff its timestamp passed the start value (0 if absent). Otherwise a pending file is re-read, then uploaded as Pending if safe, or given a Conflict row with no upload and no activity. Otherwise there is no row and no I/O. |
| SyncRules.ShutdownActivity | ProfileSync.cs:79-131 | `hasActivity` holds iff some upload was attempted. A conflict alone is not activity. |
| SyncRules.ShutdownRequests | ProfileSync.cs:98-118 | Every upload sends a listed file's current bytes to `profiles/<name>`. Every remote read re-checks a listed pending file that did not advance. |
| SyncRules.ShutdownQuiet | ProfileSync.cs:88-110 | A file that neither advanced nor is pending gets no row and no remote I/O. |
| SyncRules.UpdatedAndUntouchedIsQuiet | Program.cs:50-69 | A file Updated at startup, with the snapshot taken after the startup sync and the file left untouched, is not pending and causes no shutdown row or I/O. |
| SyncRules.RemotePassSuffixKeeps | ProfileSync.cs:143-180 | Once a name is processed and not pending, later remote files with other names keep it so. |
| Fingerprint.GetFileHash | ProfileSync.cs:247-253 | The hash is "" iff the file is missing, and 64 hex digits otherwise. |
| Fingerprint.HexLower | ProfileSync.cs:252 | Two lower-case hex digits per digest byte. |
| Fingerprint.HexLowerInjective | ProfileSync.cs:252 | Distinct digests render as distinct hex strings. |
| Fingerprint.HashEqualIffSameDigest | ProfileSync.cs:247-253 | Two hashes are equal iff both files are missing, or both are present with equal digests. |
| Fingerprint.GetTimestamp | ProfileSync.cs:236-245 | Total. Empty content or an absent/unparsable/mistyped field gives 0. Otherwise the result is the field's value. |
| Fingerprint.TimestampOf | ProfileSync.cs:152-157 | A missing local file has timestamp 0. |
| ProfileSync.ListJsonFiles | ProfileSync.cs:182 | `GetFiles(dir, "*.json")` lists every `*.json` profile of the directory exactly once. |
| ProfileSync.RemoteFilesOf | ProfileSync.cs:143-149 | The remote files are read with the content their paths hold. |
| ProfileSync.ProfileSync.constructor | ProfileSync.cs:13-21 | Pending and the snapshot start empty. |
| ProfileSync.ProfileSync.ApplyUpdate | ProfileSync.cs:197-211 | An existing destination is backed up first, and a failed backup is ignored. A copy then overwrites the destination with the source bytes; a failed copy changes nothing. |
| ProfileSync.ProfileSync.ProcessRemoteFile | ProfileSync.cs:145-179 | The profiles, pending and backups end as `StartupStep` says. The row and the counter follow the decision. No file outside the profile directory changes. |
| ProfileSync.ProfileSync.ProcessRemoteFiles | ProfileSync.cs:143-180 | The loop ends in the state `RemotePass` gives for the remote files in order. |
| ProfileSync.ProfileSync.MarkNewLocalFiles | ProfileSync.cs:182-191 | The loop ends in the state `LocalPass` gives. |
| ProfileSync.ProfileSync.ProcessDownloadedFiles | ProfileSync.cs:134-195 | The profile directory is created if missing. The final state is the fold `Startup` over the remote files and the local listing. Nothing outside the profile directory changes. |
| ProfileSync.ProfileSync.CaptureSessionStartSnapshot | ProfileSync.cs:53-62 | The snapshot becomes `SessionSnapshot` of the current profiles. Pending and the backups are untouched. |
| ProfileSync.ProfileSync.IsSafeToUploadPending | ProfileSync.cs:213-229 | Safe iff the read of `profiles/<name>` is absent or older than the local timestamp. |
| ProfileSync.ProfileSync.ShutdownFile | ProfileSync.cs:84-127 | One file of the shutdown loop behaves as `ShutdownStep`. |
| ProfileSync.ProfileSync.PerformShutdownSync | ProfileSync.cs:65-132 | Without the profile directory, nothing happens. Otherwise the rows, I/O, `sentCount` and `hasActivity` are `ShutdownPass` over a listing of the local `*.json` files. Local state is unchanged. |
| ProfileSync.ExtractedFromArchive | ProfileSync.cs:25-36 | After the extraction, every file below `temp/extracted` that is not a locked survivor of the clearing is an archive entry with the entry's bytes. |
| ProfileSync.RemoteFilesOfListing | ProfileSync.cs:38 | Reading the paths the search listed gives exactly the `*.json` files below the searched directory, each with its bytes. |
| ProfileSync.SingleFolderContent | ProfileSync.cs:26-36 | A repository archive with one top-level folder `name`, extracted where nothing below `temp/extracted` is locked, has `temp/extracted/name` as its only possible content directory. |
| ProfileSync.ProfileSync.ExtractDownload | ProfileSync.cs:25-36 | The archive is saved as `temp/repo.zip` and extracted to `temp/extracted`. A content directory comes back iff the archive opens and no entry collides with a file the clearing left: the files outside `temp/extracted` and the locked files below it. Then the files are that extraction laid over the cleared tree. The content directory is one of `ContentDirs`: a top-level directory of `temp/extracted` after the extraction, or `temp/extracted` itself when there is none. Nothing outside `temp` changes, and `temp` exists afterwards. |
| ProfileSync.ProfileSync.FetchRemoteProfiles | ProfileSync.cs:25-38 | On a successful extraction, the content directory is one of `ContentDirs` of the archive. The remote files are exactly the `*.json` files at any depth below it in the extracted tree, each with the bytes the extraction wrote. A failed extraction gives none. Local profiles are unchanged, and `temp` exists afterwards. |
| ProfileSync.ProfileSync.SyncDownload | ProfileSync.cs:25-45 | The state is `Startup` over the remote files of the extraction, in listing order, and `temp` exists afterwards. |
| ProfileSync.ProfileSync.DeleteTemp | ProfileSync.cs:46-49 | `temp` keeps no file but locked ones, and is gone when none of its files is locked. A missing `temp` changes nothing. The local profiles are unchanged. |
| ProfileSync.ProfileSync.PerformStartupSync | ProfileSync.cs:23-51 | A failed download changes no profile, pending entry or backup. Otherwise the content directory is one of `ContentDirs` of the archive, which `SingleFolderContent` pins to `temp/extracted/<name>` for a repository archive with one top-level folder. The remote files are exactly the `*.json` files below it, with the extracted bytes, and the state is `Startup` over them. Afterwards `temp` holds no file but locked ones, whenever it existed, and it is gone when none of its files is locked. |
| FileManager.ChildOutside | ProfileSync.cs:25-49 | An entry of a directory whose children lie outside `temp` is never deleted or written by the `temp` work. |
| FileManager.Prefixes | FileManager.cs:78 | `CreateDirectory` makes the directory and all its ancestors exist. |
| FileManager.FileSystem.Subdirectories | FileManager.cs:30 | `GetDirectories` gives exactly the immediate subdirectories. |
| FileManager.FileSystem.FilesIn | FileManager.cs:62 | `GetFiles` gives exactly the files directly inside. |
| FileManager.FileSystem.CreateDirectory | FileManager.cs:47 | Adds the directory and its ancestors. Files are unchanged. |
| FileManager.ClearedFits | FileManager.cs:28-29 | When no named archive entry falls on a locked file, no entry collides with the cleared tree, so the extraction succeeds. |
| FileManager.ClearedOverlayBelow | FileManager.cs:28-29 | After clearing and extracting, every file below the target that is not a locked survivor is an archive entry with the entry's bytes. |
| FileManager.PlacedChildren | FileManager.cs:30 | After an extraction, the directories directly inside the target are the left-over ones and the archive's top-level directories. |
| FileManager.OverlayChildren | FileManager.cs:62 | After an extraction, the files directly inside the target are the left-over ones and the archive's top-level files. |
| FileManager.FreshExtraction | FileManager.cs:28-33 | When nothing below the target is locked and its tree hangs from it, the target's subdirectories and files after extraction are exactly the archive's top-level ones. |
| FileManager.SingleTopFolder | FileManager.cs:30-32 | An archive whose only top-level directory is `name` makes `target/name` the only possible answer. |
| FileManager.FileSystem.ForceDeleteDirectory | FileManager.cs:10-22 | Nothing happens when the directory does not exist. Otherwise every file below it is removed but the locked ones, and the directories left are `ClearedDirs`: every directory at or below it is removed but the ancestors of a survivor. No file is created or changed. The directory is gone when none of its files is locked. It never raises. |
| FileManager.FileSystem.WriteArchive | FileManager.cs:53-57 | Entries are written one at a time in an unknown order. Without overwrite, writing stops at the first entry whose file exists. With overwrite, it stops at the first entry whose file exists and is locked. It fails iff such an entry exists, and the entries written before it stay. Otherwise every entry lands at its relative path, and the directories are the old ones, the target's and the archive's. |
| FileManager.FileSystem.ExtractZip | FileManager.cs:24-40 | Clears the target and extracts. Succeeds iff the archive opens and no entry collides with a file the clearing left: the files outside the target and the locked files below it. On success the files are the archive laid over the cleared tree, and the directories are the cleared ones plus the target's and the archive's. So the target's subdirectories are the left-over ones plus the archive's top-level ones, and the result is one of them, or the target when there is none. Nothing outside the target changes, and no directory outside it is removed. |
| FileManager.FileSystem.Extract7z | FileManager.cs:42-71 | Clears the target and extracts with overwrite. Succeeds iff the archive opens and no entry lands on a locked file the clearing left; the files are then the archive laid over the cleared tree. On failure after opening, every cleared file stays and each changed file holds an archive entry; an unopenable archive leaves the cleared tree. On success the target's subdirectories and files are the left-over ones plus the archive's top-level ones. The result is the sole subdirectory when it is the only thing in the target, otherwise the target. |
| FileManager.FileSystem.WriteEntries | FileManager.cs:80-84 | Writing file by file, overwriting, stops at the first copy that fails. It succeeds iff no entry's target fails, and the files are the overlay of the entries written, all of them on success. |
| FileManager.FileSystem.CopyDirectory | FileManager.cs:73-91 | A missing source is the not-found error with nothing changed. Otherwise the copy stops at the first file copy that fails, keeping the files copied before it. It completes iff no copy fails, and then the destination holds every source file at its relative path and the source's subdirectories. |
| FileManager.CopiedPlacesSource | FileManager.cs:78-90 | Every file below the source ends up at the same relative path below the destination, with its content. |
| FileManager.CopiedKeepsOthers | FileManager.cs:78-90 | The copy only creates and overwrites. Other files keep their content, and nothing appears outside the destination. |
| FileManager.FileSystem.FindProfiles | FileManager.cs:93-105 | A missing root gives an empty list. Otherwise the list holds exactly the `*.json` files at any depth below the root, each once. |
| Localization.SelectLanguage | Localization.cs:333-340 | Lower-cased `ru` or `be` gives Russian, `uk` gives Ukrainian, anything else English. |
| Localization.SelectLanguageIgnoresCase | Localization.cs:333 | The switch ignores letter case. |
| Localization.StaticInit | Localization.cs:331-341 | `_currentStrings` is the selected table, with English behind it. |
| Localization.Translator.Template | Localization.cs:345 | The current table's entry, else the English one, else the key itself. |
| Localization.TrOutcome | Localization.cs:343-358 | Without arguments, Tr returns the template verbatim. Otherwise it returns the formatted text, or the template when formatting fails. A template without braces comes back unchanged. |
| Localization.UnknownKeyShowsItself | Localization.cs:345 | A key in no table shows as itself. |
| Localization.TrFillsItem | Localization.cs:350 | `{0}` is replaced by the argument. |
| Localization.TrMissingArgument | Localization.cs:348-355 | An item without an argument makes formatting fail, and Tr returns the raw template without throwing. |
| Localization.FormatBraceFree | Localization.cs:350 | Text without braces formats to itself. |
| Localization.FormatItem | Localization.cs:350 | `{i}` becomes argument i, and fails when there is none. |
| Localization.FormatEscapes | Localization.cs:350 | `{{` and `}}` stand for one brace, and a lone brace fails. |
| Localization.DigitRun | Localization.cs:350 | The index of a format item is its maximal run of digits. |
| Localization.RussianLacksActionPass | Localization.cs:120-197 | The Russian table has no `Action_Pass`. |
| Localization.UkrainianLacksActionPass | Localization.cs:225-300 | The Ukrainian table has no `Action_Pass`. |
| Localization.ActionPassFallsBackToEnglish | Localization.cs:345 | `Action_Pass` shows the English text in every culture. |
| Configuration.DetectedPaths | Config.cs:32-52 | The server, launcher and profile paths share one root: `BaseDir/SPT` when that folder exists, else `BaseDir`. The profiles path ends in `user/profiles`. |
| Configuration.ProfilesOutsideTemp | Config.cs:34-51 | The profile directory lies below `BaseDir`, ends in `user/profiles`, and its entries are outside `BaseDir/temp`. |
| Configuration.Config.DetectGamePaths | Config.cs:32-52 | The three paths become `DetectedPaths`, and nothing else changes. |
| Configuration.Config.LoadEnvironment | Config.cs:54-65 | An unset `GITHUB_PAT` or `REPO_URL` reads as "". |
| Configuration.Config.constructor | Config.cs:20-29 | Detects the paths, then loads the two settings. |
| Configuration.ReplaceFirstOrAppend | Config.cs:120-126 | The edited list has the same length or one more line, and it contains the new line. |
| Configuration.ReplacesFirstMatch | Config.cs:120-124 | With a match, exactly the first matching line is replaced, and every other line stays in place. |
| Configuration.AppendsWithoutMatch | Config.cs:113-126 | Without a match, the line is appended at the end. |
| Configuration.ReplaceFirstOrAppendIdempotent | Config.cs:120-126 | Writing the same setting twice gives the same file as writing it once. |
| Configuration.FirstMatchIsWritten | Config.cs:120-126 | After the update, the first `key=` line is `key=value`. |
| Configuration.FindIndex | Config.cs:120 | `FindIndex` returns -1 iff no line starts with `key=`, else the first such line. |
| Configuration.Config.UpdateEnvFile | Config.cs:108-135 | A missing `.env` counts as no lines. On success the file is rewritten by the list edit and the variable is set. When the I/O throws, the model changes nothing. |
| Configuration.AcceptedUrlNotBlank | Config.cs:93 | A URL the validator accepts is never blank, so the prompt keeps it. |
| Configuration.BlankTokenAccepted | Config.cs:78 | The token validator alone accepts an 11-space token. Only the prompt's own blank check rejects it. |
| Configuration.FirstAccepted | Config.cs:77-80 | The answer the prompt keeps is not blank and passes the validator. |
| Configuration.Prompt | Config.cs:74-95 | The prompt returns the first answer that is not blank and passes the validator, after rejecting every earlier one. |
| Configuration.Config.EnsureConfiguration | Config.cs:67-106 | Only blank settings are prompted for and saved, and `configChanged` iff one was. Afterwards the configuration is valid. |
| GitHubClient.CleanUrl | GitHubClient.cs:45 | Cleaning never lengthens the URL. |
| GitHubClient.ExtractRepoInfo | GitHubClient.cs:43-49 | Success iff the cleaned URL contains `/`. The result is its last two `/`-parts, which contain no `/`. Failure carries the URL. |
| GitHubClient.ExtractRoundTrip | GitHubClient.cs:43-49 | `https://github.com/<owner>/<repo>`, with an optional `.git` and trailing `/`, gives back (owner, repo), for names without `/` or `.` and a repository name not ending in white space. |
| GitHubClient.EmptySegmentAccepted | GitHubClient.cs:46-47 | `x//r` gives owner "" and repo `r`. |
| GitHubClient.GitRemovalExposesSlash | GitHubClient.cs:45 | `o/r/.git` gives (r, ""). The `/` exposed by removing `.git` stays. |
| GitHubClient.NoSlashFails | GitHubClient.cs:47-48 | A URL without `/` fails. |
| GitHubClient.PagesRepositoryMangled | GitHubClient.cs:45 | A repository named `<name>.github.io` comes back as `<name>hub.io`. |
| GitHubClient.ExtractRepoInfoSuffixOnly | GitHubClient.cs:43-49 | The corrected parser, which removes only a trailing `.git`. It has the same success condition and result shape. |
| GitHubClient.ExtractSuffixOnlyRoundTrip | GitHubClient.cs:43-49 | The corrected parser round-trips every repository name that does not itself end in `.git`. |
| GitHubClient.PagesRepositoryKept | GitHubClient.cs:45 | The corrected parser keeps `<name>.github.io`. |
| GameLauncher.RunEnd | utils/game_launcher.py:27-34 | A greedy `\s*`, `\d+` or `[^"]+` run stops at the first character outside its class. |
| GameLauncher.MatchAt | utils/game_launcher.py:27-34 | A match at a position captures a non-empty group: digits for the port, quote-free text for the ip. |
| GameLauncher.Leftmost | utils/game_launcher.py:27-34 | `re.search` finds nothing iff no position matches, and otherwise takes a match. |
| GameLauncher.LeftmostReachesFirst | utils/game_launcher.py:27-34 | The search returns the match at the first matching position. |
| GameLauncher.SearchFindsFirst | utils/game_launcher.py:27-34 | The search returns the leftmost match. |
| GameLauncher.PortMatched | utils/game_launcher.py:27 | `"port"`, spaces, `:`, spaces and a maximal digit run match, capturing the digits. |
| GameLauncher.IpMatched | utils/game_launcher.py:34 | `"ip"`, spaces, `:`, spaces and a quoted non-empty quote-free text match, capturing the text. |
| GameLauncher.LeftmostPortWins | utils/game_launcher.py:27-32 | The port is the decimal value of the leftmost match's digits. |
| GameLauncher.LeftmostIpWins | utils/game_launcher.py:34-36 | The ip is the leftmost match's text. |
| GameLauncher.AbsentWithoutMatch | utils/game_launcher.py:27-36 | Without a match, the field is absent. |
| GameLauncher.EmptyIpNotMatched | utils/game_launcher.py:34 | `"ip": ""` does not match. |
| GameLauncher.QuotedPortNotMatched | utils/game_launcher.py:27 | A quoted port does not match. |
| GameLauncher.LeadingZeroIgnored | utils/game_launcher.py:30 | `int()` ignores leading zeros. |
| GameLauncher.DecimalRoundTrip | utils/game_launcher.py:30 | `int()` of a number's decimal digits gives the number back. |
| GameLauncher.NormalizeIp | utils/game_launcher.py:53-54 | `0.0.0.0` becomes `127.0.0.1`, and any other ip is kept verbatim. |
| GameLauncher.NormalizeIpIdempotent | utils/game_launcher.py:53-54 | Normalising twice is normalising once. |
| GameLauncher.Applied | utils/game_launcher.py:51-54 | A provided port or ip replaces the current one. A missing one keeps it. |
| GameLauncher.AppliedNeverWildcard | utils/game_launcher.py:21-54 | Starting from the default, the stored ip is never `0.0.0.0`. |
| GameLauncher.FirstReadable | utils/game_launcher.py:65-77 | The index of the first readable candidate, or none. |
| GameLauncher.FirstReadableAt | utils/game_launcher.py:65-77 | The scan stops at the first readable candidate. |
| GameLauncher.GameLauncher.constructor | utils/game_launcher.py:15-22 | Defaults `127.0.0.1` and `6969`. |
| GameLauncher.GameLauncher.ApplyValues | utils/game_launcher.py:51-54 | The stored address becomes `Applied` to what the file provided. |
| GameLauncher.GameLauncher.LoadServerConfig | utils/game_launcher.py:40-79 | A readable Fika config is final, even when it provides nothing. Otherwise the first readable `http.json` (SPT_Data, then Aki_Data) is final. Otherwise the defaults stay. |

## Left out

- The HTTP client (`TestToken`, `DownloadRepository`, `UploadFile`, `DownloadFileContent`, `GetLatestReleaseInfo`) is network I/O.
  - The model keeps only what the engine sees: the download's success, and a `readRaw` that returns None both for "not found" and for any failure.
  - It also keeps an `accepts` answer for uploads.
- SHA-256 (FIPS 180-4) and JSON parsing (RFC 8259) are uninterpreted fields of a `Fingerprinter`. Only the hex formatting, the "" for a missing file and the 0 fallback are modelled.
- Zip and 7z decoding: an extraction is given the entries the archive decodes to, or None when it cannot be opened.
- Backup directory naming by the clock, and the last-write-time copy, are omitted.
  - A backup is recorded as (name, old bytes).
  - A failing `SetLastWriteTime` after a successful copy is not distinguished from success.
- Listing order of `Directory.GetFiles`/`GetDirectories` is left open. `ExtractZip`'s "first" subdirectory is any subdirectory.
- Windows paths are case-insensitive, but model paths and names compare exactly.
- `Path.GetFileName` is the last path component.
- CopyDirectory: writes the whole tree in one pass over a snapshot of the source, in an order left open. The source copies a directory's files before its subdirectories, recursing directory by directory; that order, and a destination inside the source, are not modelled. When a copy fails, the destination subdirectories created before it are not recorded, only the destination's own. A failing `Directory.CreateDirectory` at FileManager.cs:78 is not modelled.
- Extract7z: one `locked` set stands for the files that can be neither deleted nor opened for writing. A left-over file that the delete could not remove but the overwrite could open is not distinguished.
- ForceDeleteDirectory: only files can be locked. A directory that cannot be removed for itself (held open, or denied), and Unix rules where the delete stops at the first error, are not modelled.
- `IsSafeToUploadPending`'s catch returning false is omitted, because `GetTimestamp` never throws and UTF-8 decoding does not throw by default.
- Report tables, markup, `Logger` and Spectre.Console output are omitted. Rows are (name, outcome) tokens.
- The translation tables hold only the keys the sync reports use. The other entries are data of the same kind.
- `string.Format` is modelled only for `{n}` items with a decimal index, plus `{{`/`}}`. Alignment and format specifiers are not modelled.
- Culture-sensitive `ToLower` is modelled as ASCII lower-casing of the two-letter name.
- `Program.cs` orchestration, `Updater.cs`, `utils/updater.py`, `spt_sync.py`, `utils/logger.py` and `utils/file_manager.py` are not part of this model. `Program.cs`'s order of calls is used only as the hypothesis of `SyncRules.UpdatedAndUntouchedIsQuiet`.
- The launcher's process and socket code (`launch_and_monitor`, `_is_port_open`, `_terminate_process`, the poll loop, `input()`) is not part of this model.
- Game root discovery from the Python configuration is not part of this model. The Fika and `http.json` files arrive as Missing, Unreadable or Readable(text).
- `Env.Load`'s parsing of `.env` into the environment (DotNetEnv) is not part of this model. The environment is a map given to the constructor.
- `AppVersion` is not modelled.
- The `.env` file's encoding and byte-order mark are not modelled. It is a list of lines.
- The prompts' UI, secret masking and re-prompt messages are omitted. A prompt is the sequence of the user's answers.
- .NET `string.Length` counts UTF-16 code units, while the model counts characters. The token rule `Length > 10` differs only for text outside the Basic Multilingual Plane.
- Python's `\d`, `\s` and `int()` accept Unicode digits and spaces. The model takes ASCII digits, .NET white space and U+001C-U+001F.
- No code path removes a name from pending after an upload.
- There is no separate "missing local file, download it" branch. A missing local file counts as hash "" and timestamp 0.
- Read failures outside any `try` are not modelled. `File.ReadAllText` and `File.ReadAllBytesAsync` at ProfileSync.cs:60, 85, 115, 149 and 156 would abort the pass midway, after earlier overwrites or uploads, and the shutdown report would not be printed. The model treats every read as succeeding.
- The `except ValueError` at utils/game_launcher.py:29-32 is not modelled. Python's `int()` raises it for a digit run longer than its limit (4300 digits by default), and the port then stays absent. The model converts digit runs of any length.
- FindIndex: compares ordinally. The .NET `StartsWith(string)` at Config.cs:120 is culture-sensitive: it skips ignorable characters such as U+00AD, and a combining mark after `key=` defeats the match. The model does not capture either effect.
- Accepts: the URL rule's `StartsWith` at Config.cs:93 is likewise culture-sensitive, and the model compares ordinally.
- UpdateEnvFile: all-or-nothing in the model. `File.WriteAllLines` at Config.cs:128 can fail after writing part of the file, and the partial contents are not modelled.
- WriteArchive: writes entries in an order the model leaves open. Directories are created in one step: on failure only the target's directories are recorded, not those of the entries already written.
- Re-asking on white-space-only input is Spectre.Console's `TextPrompt` behaviour. The model states it as the `Takes` rule; the prompt library is not part of this model.

## Findings

| source | as written | input that shows it | evidently intended | confidence | as-written member | corrected member |
|---|---|---|---|---|---|---|
| GitHubClient.cs:45 | `Replace(".git", "")` removes every `.git`, anywhere in the URL | `https://github.com/alice/alice.github.io` gives repository `alicehub.io` | remove only a trailing `.git`, so GitHub Pages repositories keep their name | medium, not executed | GitHubClient.PagesRepositoryMangled | GitHubClient.ExtractSuffixOnlyRoundTrip |

=== FILE: base.dfy ===
/** Shared value types: optional values, results with an error, and raw bytes. */
module Base {

  /** A value that may be absent (the source's `null`). */
  datatype Option<+T> = None | Some(value: T) {
    function GetOr(default: T): T {
      match this
      case Some(v) => v
      case None => default
    }
  }

  /** The outcome of an operation that can throw in the source. */
  datatype Result<+T, +E> = Success(value: T) | Failure(error: E)

  /** An unsigned byte. */
  type byte = bv8

  /** Raw file content. */
  type Bytes = seq<byte>
}

=== FILE: config.dfy ===
/**
 * Config.cs: where the game lives, the two settings the tool needs (a GitHub token and the
 * repository URL), the prompts that ask for a missing one and the `.env` file that keeps them.
 * The `.env` file is its list of lines (None when it does not exist), the process environment a
 * map from variable names to values.
 */
module Configuration {
  import opened Base
  import opened Text
  import opened FileManager

  const TokenVariable: string := "GITHUB_PAT"
  const UrlVariable: string := "REPO_URL"

  // ---------------------------------------------------------------------------------------------
  // Game paths

  datatype GamePaths = GamePaths(server: Path, launcher: Path, profiles: Path)

  /**
   * DetectGamePaths: the server, the launcher and `user/profiles` share one root, `BaseDir/SPT`
   * when that folder exists (SPT 4) and `BaseDir` itself otherwise (SPT 3).
   */
  function DetectedPaths(baseDir: Path, sptDirExists: bool): (p: GamePaths)
    ensures |p.server| >= 1
    ensures var root := p.server[..|p.server| - 1];
            p.server == root + ["SPT.Server.exe"] && p.launcher == root + ["SPT.Launcher.exe"]
            && p.profiles == root + ["user", "profiles"]
            && root == (if sptDirExists then baseDir + ["SPT"] else baseDir)
  {
    var root := if sptDirExists then baseDir + ["SPT"] else baseDir;
    assert (root + ["SPT.Server.exe"])[..|root|] == root;
    GamePaths(root + ["SPT.Server.exe"], root + ["SPT.Launcher.exe"], root + ["user", "profiles"])
  }

  /**
   * Whichever layout is detected, the profiles directory lies below `BaseDir`, ends in
   * `user/profiles`, and neither it nor any file directly in it is inside `BaseDir/temp`, the
   * scratch folder the startup sync deletes.
   */
  lemma ProfilesOutsideTemp(baseDir: Path, sptDirExists: bool)
    ensures var profiles := DetectedPaths(baseDir, sptDirExists).profiles;
            IsBelow(profiles, baseDir) && profiles[|profiles| - 2..] == ["user", "profiles"]
            && ChildrenOutside(profiles, baseDir + ["temp"])
  {
    var profiles := DetectedPaths(baseDir, sptDirExists).profiles;
    var temp := baseDir + ["temp"];
    assert profiles[|baseDir|] != "temp";
    assert temp[|baseDir|] == "temp";
    assert profiles[..|baseDir|] == baseDir;
    if |temp| <= |profiles| {
      assert profiles[..|temp|][|baseDir|] != temp[|baseDir|];
    }
  }

  // ---------------------------------------------------------------------------------------------
  // The `.env` file

  /** The line UpdateEnvFile writes for a setting. */
  function EnvLine(key: string, value: string): string {
    key + "=" + value
  }

  /**
   * The reference for UpdateEnvFile's list edit: the first line starting with `prefix` becomes
   * `line`; when there is none, `line` is added at the end.
   */
  function ReplaceFirstOrAppend(lines: seq<string>, prefix: string, line: string): (r: seq<string>)
    ensures |r| == |lines| || |r| == |lines| + 1
    ensures line in r
  {
    if lines == [] then [line]
    else if StartsWith(lines[0], prefix) then [line] + lines[1..]
    else [lines[0]] + ReplaceFirstOrAppend(lines[1..], prefix, line)
  }

  /** `index` is the first line starting with `prefix`. */
  predicate IsFirstMatch(lines: seq<string>, prefix: string, index: int) {
    0 <= index < |lines| && StartsWith(lines[index], prefix)
    && forall j :: 0 <= j < index ==> !StartsWith(lines[j], prefix)
  }

  /** When some line starts with `prefix`, the first such line is replaced and nothing else moves. */
  lemma {:induction false} ReplacesFirstMatch(lines: seq<string>, prefix: string, line: string, index: int)
    requires IsFirstMatch(lines, prefix, index)
    ensures ReplaceFirstOrAppend(lines, prefix, line) == lines[index := line]
    decreases index
  {
    if index > 0 {
      assert !StartsWith(lines[0], prefix);
      assert IsFirstMatch(lines[1..], prefix, index - 1) by {
        forall j | 0 <= j < index - 1
          ensures !StartsWith(lines[1..][j], prefix)
        {
          assert lines[1..][j] == lines[j + 1];
        }
      }
      ReplacesFirstMatch(lines[1..], prefix, line, index - 1);
      assert [lines[0]] + lines[1..][index - 1 := line] == lines[index := line];
    }
  }

  /** When no line starts with `prefix`, the line is appended: one more line, the others unchanged. */
  lemma {:induction false} AppendsWithoutMatch(lines: seq<string>, prefix: string, line: string)
    requires forall j :: 0 <= j < |lines| ==> !StartsWith(lines[j], prefix)
    ensures ReplaceFirstOrAppend(lines, prefix, line) == lines + [line]
  {
    if lines != [] {
      assert !StartsWith(lines[0], prefix);
      assert forall j :: 0 <= j < |lines[1..]| ==> lines[1..][j] == lines[j + 1];
      AppendsWithoutMatch(lines[1..], prefix, line);
      assert [lines[0]] + (lines[1..] + [line]) == lines + [line];
    }
  }

  /**
   * Writing a setting twice is writing it once: after the first write the first `key=` line is
   * the new one, and the second write replaces it by itself.
   */
  lemma {:induction false} ReplaceFirstOrAppendIdempotent(lines: seq<string>, prefix: string, line: string)
    requires StartsWith(line, prefix)
    ensures var once := ReplaceFirstOrAppend(lines, prefix, line);
            ReplaceFirstOrAppend(once, prefix, line) == once
  {
    if lines != [] && !StartsWith(lines[0], prefix) {
      ReplaceFirstOrAppendIdempotent(lines[1..], prefix, line);
      var once := ReplaceFirstOrAppend(lines, prefix, line);
      assert once[0] == lines[0] && once[1..] == ReplaceFirstOrAppend(lines[1..], prefix, line);
    }
  }

  /** After a write, the first line that starts with `key=` is `key=value`. */
  lemma {:induction false} FirstMatchIsWritten(lines: seq<string>, key: string, value: string)
    ensures exists index :: IsFirstMatch(ReplaceFirstOrAppend(lines, key + "=", EnvLine(key, value)), key + "=", index)
                         && ReplaceFirstOrAppend(lines, key + "=", EnvLine(key, value))[index] == EnvLine(key, value)
  {
    var prefix := key + "=";
    var line := EnvLine(key, value);
    assert line[..|prefix|] == prefix;
    var r := ReplaceFirstOrAppend(lines, prefix, line);
    if lines == [] || StartsWith(lines[0], prefix) {
      assert r[0] == line;
      assert IsFirstMatch(r, prefix, 0) && r[0] == line;
    } else {
      FirstMatchIsWritten(lines[1..], key, value);
      var rest := ReplaceFirstOrAppend(lines[1..], prefix, line);
      var index :| IsFirstMatch(rest, prefix, index) && rest[index] == line;
      assert r == [lines[0]] + rest;
      assert r[0] == lines[0] && r[index + 1] == rest[index];
      assert IsFirstMatch(r, prefix, index + 1) by {
        forall j | 0 <= j < index + 1
          ensures !StartsWith(r[j], prefix)
        {
          if j > 0 {
            assert r[j] == rest[j - 1];
          }
        }
      }
      assert IsFirstMatch(r, prefix, index + 1) && r[index + 1] == line;
    }
  }

  /** File.ReadAllLines of a file that may be missing: a missing `.env` reads as no lines. */
  function LinesOf(file: Option<seq<string>>): seq<string> {
    if file.Some? then file.value else []
  }

  /** The `.env` file after UpdateEnvFile: rewritten when the I/O succeeds, untouched when it throws. */
  function SavedFile(file: Option<seq<string>>, key: string, value: string, ioSucceeds: bool): Option<seq<string>> {
    if ioSucceeds then Some(ReplaceFirstOrAppend(LinesOf(file), key + "=", EnvLine(key, value))) else file
  }

  /** The process environment after UpdateEnvFile: the variable is set only after a successful write. */
  function SavedEnvironment(env: map<string, string>, key: string, value: string, ioSucceeds: bool): map<string, string> {
    if ioSucceeds then env[key := value] else env
  }

  /** `Environment.GetEnvironmentVariable(name) ?? ""`. */
  function EnvValue(env: map<string, string>, name: string): string {
    if name in env then env[name] else ""
  }

  /** List.FindIndex with the `StartsWith(prefix)` predicate: the first matching line, or -1. */
  method FindIndex(lines: seq<string>, prefix: string) returns (index: int)
    ensures index == -1 <==> forall j :: 0 <= j < |lines| ==> !StartsWith(lines[j], prefix)
    ensures index != -1 ==> IsFirstMatch(lines, prefix, index)
  {
    var i := 0;
    while i < |lines|
      invariant 0 <= i <= |lines|
      invariant forall j :: 0 <= j < i ==> !StartsWith(lines[j], prefix)
    {
      if StartsWith(lines[i], prefix) {
        return i;
      }
      i := i + 1;
    }
    return -1;
  }

  // ---------------------------------------------------------------------------------------------
  // Prompts

  /** The two prompt validators of EnsureConfiguration. */
  datatype Validator = TokenRule | UrlRule

  /** The token must be longer than 10 characters; the URL must start with the GitHub web prefix. */
  predicate Accepts(rule: Validator, answer: string) {
    match rule
    case TokenRule => |answer| > 10
    case UrlRule => StartsWith(answer, "https://github.com/")
  }

  /**
   * What a validating prompt keeps: Spectre's TextPrompt, which does not allow empty answers, asks
   * again on white-space-only input without running the validator, so an answer is kept only when it
   * is not blank and the validator accepts it.
   */
  predicate Takes(rule: Validator, answer: string) {
    !IsBlank(answer) && Accepts(rule, answer)
  }

  /** A URL the validator accepts is never blank: for the URL the prompt's own blank check changes nothing. */
  lemma AcceptedUrlNotBlank(url: string)
    requires Accepts(UrlRule, url)
    ensures !IsBlank(url)
    ensures Takes(UrlRule, url)
  {
    assert url[0] == "https://github.com/"[0];
    assert !IsWhiteSpace(url[0]);
  }

  /**
   * The token validator only counts characters: eleven spaces pass it, yet they are blank, and only
   * the prompt's own blank check keeps them out.
   */
  lemma BlankTokenAccepted()
    ensures exists token :: Accepts(TokenRule, token) && IsBlank(token) && !Takes(TokenRule, token)
  {
    var token := seq(11, _ => ' ');
    assert token[0] == ' ';
    assert Accepts(TokenRule, token) && IsBlank(token);
  }

  /** What a validating prompt ends with when given `answers` in turn: the first one it keeps. */
  function FirstAccepted(rule: Validator, answers: seq<string>): (answer: string)
    requires exists i :: 0 <= i < |answers| && Takes(rule, answers[i])
    ensures Takes(rule, answer) && answer in answers
  {
    if Takes(rule, answers[0]) then answers[0]
    else
      assert exists i :: 0 <= i < |answers[1..]| && Takes(rule, answers[1..][i]) by {
        var i :| 0 <= i < |answers| && Takes(rule, answers[i]);
        assert answers[1..][i - 1] == answers[i];
      }
      FirstAccepted(rule, answers[1..])
  }

  /**
   * AnsiConsole.Prompt with a validator: asks again after every blank or rejected answer and returns
   * the first one it keeps; `attempts` is how many answers it read.
   */
  method Prompt(rule: Validator, answers: seq<string>) returns (answer: string, attempts: nat)
    requires exists i :: 0 <= i < |answers| && Takes(rule, answers[i])
    ensures 0 < attempts <= |answers| && answer == answers[attempts - 1]
    ensures Takes(rule, answer)
    ensures forall j :: 0 <= j < attempts - 1 ==> !Takes(rule, answers[j])
    ensures answer == FirstAccepted(rule, answers)
  {
    var i := 0;
    while !Takes(rule, answers[i])
      invariant 0 <= i < |answers|
      invariant exists k :: i <= k < |answers| && Takes(rule, answers[k])
      invariant forall j :: 0 <= j < i ==> !Takes(rule, answers[j])
      invariant FirstAccepted(rule, answers) == FirstAccepted(rule, answers[i..])
      decreases |answers| - i
    {
      assert answers[i..][0] == answers[i] && answers[i..][1..] == answers[i + 1..];
      i := i + 1;
    }
    assert answers[i..][0] == answers[i];
    answer, attempts := answers[i], i + 1;
  }

  // ---------------------------------------------------------------------------------------------
  // The configuration object

  class Config {
    var githubToken: string
    var repoUrl: string
    const baseDir: Path
    var sptServerPath: Path
    var sptLauncherPath: Path
    var gameProfilesPath: Path
    /** The `.env` file in `baseDir`, as its lines; None when it does not exist. */
    var envFile: Option<seq<string>>
    /** The process environment. */
    var environment: map<string, string>

    /** IsValid: both settings are present and not white space only. */
    predicate IsValid()
      reads this
    {
      !IsBlank(githubToken) && !IsBlank(repoUrl)
    }

    /**
     * The constructor: detects the game layout, then reads the two settings from the environment
     * (which already holds what `Env.Load` took from the `.env` file).
     */
    constructor (baseDir: Path, sptDirExists: bool, envFile: Option<seq<string>>, environment: map<string, string>)
      ensures this.baseDir == baseDir && this.envFile == envFile && this.environment == environment
      ensures GamePaths(sptServerPath, sptLauncherPath, gameProfilesPath) == DetectedPaths(baseDir, sptDirExists)
      ensures githubToken == EnvValue(environment, TokenVariable) && repoUrl == EnvValue(environment, UrlVariable)
    {
      this.baseDir := baseDir;
      this.envFile := envFile;
      this.environment := environment;
      githubToken, repoUrl := "", "";
      sptServerPath, sptLauncherPath, gameProfilesPath := [], [], [];
      new;
      DetectGamePaths(sptDirExists);
      LoadEnvironment();
    }

    /** DetectGamePaths (Config.cs:32-52): the three paths under `BaseDir/SPT` if it exists, else under `BaseDir`. */
    method DetectGamePaths(sptDirExists: bool)
      modifies this
      ensures GamePaths(sptServerPath, sptLauncherPath, gameProfilesPath) == DetectedPaths(baseDir, sptDirExists)
      ensures githubToken == old(githubToken) && repoUrl == old(repoUrl)
      ensures envFile == old(envFile) && environment == old(environment)
    {
      var sptDir := baseDir + ["SPT"];
      if sptDirExists {
        sptServerPath := sptDir + ["SPT.Server.exe"];
        sptLauncherPath := sptDir + ["SPT.Launcher.exe"];
        gameProfilesPath := sptDir + ["user", "profiles"];
      } else {
        sptServerPath := baseDir + ["SPT.Server.exe"];
        sptLauncherPath := baseDir + ["SPT.Launcher.exe"];
        gameProfilesPath := baseDir + ["user", "profiles"];
      }
    }

    /** LoadEnvironment (Config.cs:54-65): an unset variable reads as the empty string. */
    method LoadEnvironment()
      modifies this
      ensures githubToken == EnvValue(environment, TokenVariable) && repoUrl == EnvValue(environment, UrlVariable)
      ensures sptServerPath == old(sptServerPath) && sptLauncherPath == old(sptLauncherPath)
      ensures gameProfilesPath == old(gameProfilesPath)
      ensures envFile == old(envFile) && environment == old(environment)
    {
      githubToken := if TokenVariable in environment then environment[TokenVariable] else "";
      repoUrl := if UrlVariable in environment then environment[UrlVariable] else "";
    }

    /**
     * UpdateEnvFile (Config.cs:108-135): reads the `.env` lines (none when the file is missing),
     * replaces the first line starting with `key=` by `key=value` or appends it, writes the lines
     * back and sets the variable. Any I/O exception (`ioSucceeds` false) is logged and leaves the
     * file and the environment as they were.
     */
    method UpdateEnvFile(key: string, value: string, ioSucceeds: bool)
      modifies this
      ensures envFile == SavedFile(old(envFile), key, value, ioSucceeds)
      ensures environment == SavedEnvironment(old(environment), key, value, ioSucceeds)
      ensures githubToken == old(githubToken) && repoUrl == old(repoUrl)
      ensures sptServerPath == old(sptServerPath) && sptLauncherPath == old(sptLauncherPath)
      ensures gameProfilesPath == old(gameProfilesPath)
    {
      if !ioSucceeds {
        return;
      }
      var lines: seq<string> := [];
      if envFile.Some? {
        lines := envFile.value;
      }
      var prefix := key + "=";
      var index := FindIndex(lines, prefix);
      var newLine := key + "=" + value;
      if index != -1 {
        ReplacesFirstMatch(lines, prefix, newLine, index);
        lines := lines[index := newLine];
      } else {
        AppendsWithoutMatch(lines, prefix, newLine);
        lines := lines + [newLine];
      }
      envFile := Some(lines);
      environment := environment[key := value];
    }

    /**
     * EnsureConfiguration (Config.cs:67-106): prompts only for a setting that is blank, keeps the
     * answer even when saving it fails, and reports a change iff it prompted at all. The answers a
     * user would type are given in order; the save outcomes are parameters.
     */
    method EnsureConfiguration(tokenAnswers: seq<string>, urlAnswers: seq<string>, tokenSaved: bool, urlSaved: bool)
      returns (configChanged: bool)
      requires IsBlank(githubToken) ==> exists i :: 0 <= i < |tokenAnswers| && Takes(TokenRule, tokenAnswers[i])
      requires IsBlank(repoUrl) ==> exists i :: 0 <= i < |urlAnswers| && Takes(UrlRule, urlAnswers[i])
      modifies this
      ensures configChanged <==> old(IsBlank(githubToken)) || old(IsBlank(repoUrl))
      ensures githubToken == if old(IsBlank(githubToken)) then FirstAccepted(TokenRule, tokenAnswers) else old(githubToken)
      ensures repoUrl == if old(IsBlank(repoUrl)) then FirstAccepted(UrlRule, urlAnswers) else old(repoUrl)
      ensures var afterToken := if old(IsBlank(githubToken)) then SavedFile(old(envFile), TokenVariable, githubToken, tokenSaved) else old(envFile);
              envFile == if old(IsBlank(repoUrl)) then SavedFile(afterToken, UrlVariable, repoUrl, urlSaved) else afterToken
      ensures var afterToken := if old(IsBlank(githubToken)) then SavedEnvironment(old(environment), TokenVariable, githubToken, tokenSaved) else old(environment);
              environment == if old(IsBlank(repoUrl)) then SavedEnvironment(afterToken, UrlVariable, repoUrl, urlSaved) else afterToken
      ensures IsValid()
      ensures sptServerPath == old(sptServerPath) && sptLauncherPath == old(sptLauncherPath)
      ensures gameProfilesPath == old(gameProfilesPath)
    {
      configChanged := false;
      if IsBlank(githubToken) {
        var attempts;
        githubToken, attempts := Prompt(TokenRule, tokenAnswers);
        UpdateEnvFile(TokenVariable, githubToken, tokenSaved);
        configChanged := true;
      }
      if IsBlank(repoUrl) {
        var attempts;
        repoUrl, attempts := Prompt(UrlRule, urlAnswers);
        UpdateEnvFile(UrlVariable, repoUrl, urlSaved);
        configChanged := true;
      }
    }
  }
}

=== FILE: file_manager.dfy ===
/**
 * FileManager.cs over an abstract file system: a map from absolute paths to file contents and
 * the set of directories that exist. Archive decoding is not modelled inside: an extraction is
 * given what the archive decodes to (or None when the archive cannot be opened).
 */
module FileManager {
  import opened Base

  /** An absolute path as its components; `[]` is the root of the file system. */
  type Path = seq<string>

  /** `p` lies strictly below the directory `root`, at any depth. */
  predicate IsBelow(p: Path, root: Path) {
    |root| < |p| && p[..|root|] == root
  }

  /** `p` is the directory `root` itself or lies below it. */
  predicate IsAtOrBelow(p: Path, root: Path) {
    |root| <= |p| && p[..|root|] == root
  }

  /** `p` is a file or directory directly inside `dir`. */
  predicate IsChild(p: Path, dir: Path) {
    |p| == |dir| + 1 && p[..|dir|] == dir
  }

  /** No entry directly inside `dir` is `root` or lies below it. */
  predicate ChildrenOutside(dir: Path, root: Path) {
    !IsAtOrBelow(dir, root) && !IsChild(root, dir)
  }

  /** Entries directly inside a directory whose children are outside `root` are never at or below `root`. */
  lemma ChildOutside(p: Path, dir: Path, root: Path)
    requires ChildrenOutside(dir, root) && IsChild(p, dir)
    ensures !IsAtOrBelow(p, root)
  {
    if |root| <= |dir| {
      assert p[..|root|] == dir[..|root|];
    }
  }

  /** Being at or below a directory is transitive. */
  lemma AtOrBelowTrans(p: Path, q: Path, root: Path)
    requires IsAtOrBelow(p, q) && IsAtOrBelow(q, root)
    ensures IsAtOrBelow(p, root)
  {
    assert p[..|root|] == p[..|q|][..|root|];
  }

  /** The search pattern `*.json` applied to a file name. */
  predicate IsJsonName(name: string) {
    |name| >= 5 && name[|name| - 5..] == ".json"
  }

  /** `Path.GetFileName`: the last component. */
  function FileName(p: Path): string
    requires p != []
  {
    p[|p| - 1]
  }

  /** The directory and all its ancestors: what `Directory.CreateDirectory` makes exist. */
  function Prefixes(d: Path): (r: set<Path>)
    ensures d in r
    ensures forall q :: q in r ==> |q| <= |d| && q == d[..|q|]
  {
    assert d[..|d|] == d;
    set i | 0 <= i <= |d| :: d[..i]
  }

  /** `p` is where the entry at relative path `p[|root|..]` of `entries` lands below `root`. */
  predicate IsEntryTarget(root: Path, entries: map<Path, Bytes>, p: Path) {
    |root| <= |p| && p[..|root|] == root && p[|root|..] in entries
  }

  /** The files after writing `entries` below `root`, overwriting what is there. */
  function Overlay(files: map<Path, Bytes>, root: Path, entries: map<Path, Bytes>): map<Path, Bytes> {
    var targets := set rel | rel in entries :: root + rel;
    assert forall rel :: (root + rel)[|root|..] == rel;
    map p | p in files.Keys + targets :: if IsEntryTarget(root, entries, p) then entries[p[|root|..]] else files[p]
  }

  /** What `Overlay` holds at one path: the entry landing there if there is one, the old file otherwise. */
  lemma OverlayAt(files: map<Path, Bytes>, root: Path, entries: map<Path, Bytes>, p: Path)
    ensures p in Overlay(files, root, entries) <==> p in files || IsEntryTarget(root, entries, p)
    ensures IsEntryTarget(root, entries, p) ==> Overlay(files, root, entries)[p] == entries[p[|root|..]]
    ensures p in files && !IsEntryTarget(root, entries, p) ==> Overlay(files, root, entries)[p] == files[p]
  {
    if IsEntryTarget(root, entries, p) {
      assert p == root + p[|root|..];
    }
  }

  /** Writing no entry changes nothing. */
  lemma OverlayEmpty(files: map<Path, Bytes>, root: Path)
    ensures Overlay(files, root, map[]) == files
  {
    forall p ensures p in Overlay(files, root, map[]) <==> p in files {
      OverlayAt(files, root, map[], p);
    }
  }

  /** Writing one more entry changes exactly one more file. */
  lemma OverlayInsert(files: map<Path, Bytes>, root: Path, m: map<Path, Bytes>, rel: Path, v: Bytes)
    ensures Overlay(files, root, m[rel := v]) == Overlay(files, root, m)[root + rel := v]
  {
    var lhs, rhs := Overlay(files, root, m[rel := v]), Overlay(files, root, m)[root + rel := v];
    assert (root + rel)[|root|..] == rel;
    OverlayAt(files, root, m[rel := v], root + rel);
    forall p | p != root + rel
      ensures p in lhs <==> p in rhs
      ensures p in lhs ==> lhs[p] == rhs[p]
    {
      OverlayAt(files, root, m[rel := v], p);
      OverlayAt(files, root, m, p);
      if |root| <= |p| && p[..|root|] == root {
        assert p == root + p[|root|..];
      }
    }
  }

  /** The files below `root`, keyed by their path relative to `root` (never empty). */
  function Relative(files: map<Path, Bytes>, root: Path): (m: map<Path, Bytes>)
    ensures forall p :: p in files && IsBelow(p, root) ==> p[|root|..] in m && m[p[|root|..]] == files[p]
    ensures forall rel :: rel in m ==> rel != [] && root + rel in files && m[rel] == files[root + rel]
  {
    var rels := set p | p in files && IsBelow(p, root) :: p[|root|..];
    assert forall p :: IsBelow(p, root) ==> root + p[|root|..] == p;
    map rel | rel in rels :: files[root + rel]
  }

  /** The directories an archive creates, relative to the target: its own and those its files need. */
  function ArchiveDirs(a: Archive): set<Path> {
    a.dirs + set p, i | p in a.files && 0 < i < |p| :: p[..i]
  }

  /**
   * The files a recursive delete of `path` leaves: every file outside it, and below it only the
   * `locked` files the delete cannot remove; all of them when `path` is no directory.
   */
  function Cleared(files: map<Path, Bytes>, dirs: set<Path>, path: Path, locked: set<Path>): map<Path, Bytes> {
    if path in dirs then map p | p in files && (!IsBelow(p, path) || p in locked) :: files[p] else files
  }

  /** The directories strictly above some path of `ps`: those that must stay for the paths to exist. */
  function Ancestors(ps: set<Path>): set<Path> {
    set p, i | p in ps && 0 <= i < |p| :: p[..i]
  }

  /** No entry of `entries` lands on a file that already exists: an extraction without overwrite succeeds. */
  predicate Fits(files: map<Path, Bytes>, root: Path, entries: map<Path, Bytes>) {
    forall rel :: rel in entries ==> root + rel !in files
  }

  /**
   * Only a locked file can block the extraction after the clearing: when no entry lands on a locked
   * file, no entry with a name collides with a left-over file.
   */
  lemma ClearedFits(files: map<Path, Bytes>, dirs: set<Path>, root: Path, locked: set<Path>, entries: map<Path, Bytes>)
    requires root in dirs
    requires forall rel :: rel in entries ==> rel != [] && root + rel !in locked
    ensures Fits(Cleared(files, dirs, root, locked), root, entries)
  {
    forall rel | rel in entries
      ensures root + rel !in Cleared(files, dirs, root, locked)
    {
      assert (root + rel)[..|root|] == root;
    }
  }

  /**
   * After the clearing and the extraction, every file below the target that is not locked is an
   * archive entry, with the entry's content.
   */
  lemma ClearedOverlayBelow(files: map<Path, Bytes>, dirs: set<Path>, root: Path, locked: set<Path>,
                            entries: map<Path, Bytes>, p: Path)
    requires root in dirs
    requires p in Overlay(Cleared(files, dirs, root, locked), root, entries) && IsBelow(p, root) && p !in locked
    ensures p[|root|..] in entries
    ensures Overlay(Cleared(files, dirs, root, locked), root, entries)[p] == entries[p[|root|..]]
  {
    OverlayAt(Cleared(files, dirs, root, locked), root, entries, p);
  }

  /**
   * The directories a recursive delete of `path` leaves: every directory outside it, and at or below
   * it only those that still hold a locked file; all of them when `path` is no directory.
   */
  function ClearedDirs(files: map<Path, Bytes>, dirs: set<Path>, path: Path, locked: set<Path>): set<Path> {
    if path in dirs then
      set d | d in dirs && (!IsAtOrBelow(d, path) || d in Ancestors(set p | p in files && IsBelow(p, path) && p in locked))
    else dirs
  }

  /** No entry of `entries` lands on a file that exists and cannot be written: an extraction with overwrite succeeds. */
  predicate Writable(files: map<Path, Bytes>, root: Path, entries: map<Path, Bytes>, locked: set<Path>) {
    forall rel :: rel in entries ==> root + rel !in files || root + rel !in locked
  }

  /** The paths of `ps` directly inside `dir`. */
  function Children(ps: set<Path>, dir: Path): (r: set<Path>)
    ensures forall p :: p in r <==> p in ps && IsChild(p, dir)
  {
    set p | p in ps && IsChild(p, dir)
  }

  /** The relative paths `rels` placed below `root`. */
  function Placed(root: Path, rels: set<Path>): set<Path> {
    set rel | rel in rels :: root + rel
  }

  /** The one-component paths of `rels`: what lies at the top level. */
  function TopLevel(rels: set<Path>): set<Path> {
    set rel | rel in rels && |rel| == 1
  }

  /** The subdirectories of `target` after clearing it and extracting `a` into it: the left-over ones and the archive's top-level ones. */
  function ExtractedSubdirs(files: map<Path, Bytes>, dirs: set<Path>, target: Path, locked: set<Path>, a: Archive): set<Path> {
    Children(ClearedDirs(files, dirs, target, locked), target) + Placed(target, TopLevel(ArchiveDirs(a)))
  }

  /** The files directly in `target` after clearing it and extracting all of `a` into it: the left-over ones and the archive's top-level ones. */
  function ExtractedTopFiles(files: map<Path, Bytes>, dirs: set<Path>, target: Path, locked: set<Path>, a: Archive): set<Path> {
    Children(Cleared(files, dirs, target, locked).Keys, target) + Placed(target, TopLevel(a.files.Keys))
  }

  /** What ExtractZip may answer, given the target's subdirectories: any of them, or the target when there is none. */
  function ZipRoots(target: Path, subdirs: set<Path>): set<Path> {
    if subdirs == {} then {target} else subdirs
  }

  /** Placing below `target` adds no directory directly inside it but the placed top-level ones; the ancestors of `target` add none. */
  lemma PlacedChildren(left: set<Path>, target: Path, rels: set<Path>)
    ensures Children(left + Prefixes(target) + Placed(target, rels), target) == Children(left, target) + Placed(target, TopLevel(rels))
  {
    var lhs, rhs := Children(left + Prefixes(target) + Placed(target, rels), target), Children(left, target) + Placed(target, TopLevel(rels));
    forall d | d in lhs ensures d in rhs {
      if d !in left {
        var rel :| rel in rels && d == target + rel;
        assert |rel| == 1;
      }
    }
    forall d | d in rhs ensures d in lhs {
      if d !in left {
        var rel :| rel in TopLevel(rels) && d == target + rel;
        assert d[..|target|] == target;
      }
    }
  }

  /** Writing entries below `target` adds no file directly inside it but the top-level entries. */
  lemma OverlayChildren(files: map<Path, Bytes>, target: Path, entries: map<Path, Bytes>)
    ensures Children(Overlay(files, target, entries).Keys, target) == Children(files.Keys, target) + Placed(target, TopLevel(entries.Keys))
  {
    var lhs, rhs := Children(Overlay(files, target, entries).Keys, target), Children(files.Keys, target) + Placed(target, TopLevel(entries.Keys));
    forall p | p in lhs ensures p in rhs {
      OverlayAt(files, target, entries, p);
      if p !in files {
        assert p == target + p[|target|..];
      }
    }
    forall p | p in rhs ensures p in lhs {
      if p !in files {
        var rel :| rel in TopLevel(entries.Keys) && p == target + rel;
        assert p[..|target|] == target && p[|target|..] == rel;
        OverlayAt(files, target, entries, p);
      }
    }
  }

  /**
   * When nothing below the target is locked and the tree below it hangs from it, the clearing leaves
   * nothing directly inside it: the extraction alone decides the target's subdirectories and files.
   */
  lemma FreshExtraction(files: map<Path, Bytes>, dirs: set<Path>, target: Path, locked: set<Path>, a: Archive)
    requires forall p :: p in files && IsBelow(p, target) ==> p !in locked && target in dirs
    requires forall d :: d in dirs && IsBelow(d, target) ==> target in dirs
    ensures ExtractedSubdirs(files, dirs, target, locked, a) == Placed(target, TopLevel(ArchiveDirs(a)))
    ensures ExtractedTopFiles(files, dirs, target, locked, a) == Placed(target, TopLevel(a.files.Keys))
  {
    var survivors := set p | p in files && IsBelow(p, target) && p in locked;
    assert survivors == {};
    forall d | d in ClearedDirs(files, dirs, target, locked) ensures !IsChild(d, target) {
    }
    forall p | p in Cleared(files, dirs, target, locked) ensures !IsChild(p, target) {
    }
  }

  /** An archive whose only top-level directory is `name` extracts to a target whose content directory is `target/name`. */
  lemma SingleTopFolder(target: Path, a: Archive, name: string)
    requires TopLevel(ArchiveDirs(a)) == {[name]}
    ensures Placed(target, TopLevel(ArchiveDirs(a))) == {target + [name]}
    ensures ZipRoots(target, Placed(target, TopLevel(ArchiveDirs(a)))) == {target + [name]}
  {
  }

  /** What an archive decodes to, at paths relative to the extraction target. */
  datatype Archive = Archive(files: map<Path, Bytes>, dirs: set<Path>)

  /** The file-system state after `CopyDirectory(src, dst)`: every file below `src` at the same relative path below `dst`. */
  function Copied(files: map<Path, Bytes>, src: Path, dst: Path): map<Path, Bytes> {
    Overlay(files, dst, Relative(files, src))
  }

  /** Every file below the source ends up at its relative path below the destination, with its content. */
  lemma CopiedPlacesSource(files: map<Path, Bytes>, src: Path, dst: Path, p: Path)
    requires p in files && IsBelow(p, src)
    ensures dst + p[|src|..] in Copied(files, src, dst)
    ensures Copied(files, src, dst)[dst + p[|src|..]] == files[p]
  {
    var q := dst + p[|src|..];
    assert q[|dst|..] == p[|src|..];
    OverlayAt(files, dst, Relative(files, src), q);
  }

  /**
   * The copy only creates and overwrites: a file that is not the image of a source file keeps its
   * content, and every file after the copy existed before or lies below the destination.
   */
  lemma CopiedKeepsOthers(files: map<Path, Bytes>, src: Path, dst: Path, q: Path)
    ensures q in files && !(IsBelow(q, dst) && src + q[|dst|..] in files)
        ==> q in Copied(files, src, dst) && Copied(files, src, dst)[q] == files[q]
    ensures q in Copied(files, src, dst) ==> q in files || IsBelow(q, dst)
  {
    OverlayAt(files, dst, Relative(files, src), q);
  }

  /** A mutable file system: the files and directories that exist. */
  class FileSystem {
    var files: map<Path, Bytes>
    var dirs: set<Path>

    constructor (files: map<Path, Bytes>, dirs: set<Path>)
      ensures this.files == files && this.dirs == dirs
    {
      this.files := files;
      this.dirs := dirs;
    }

    /** `Directory.GetDirectories(root)` as a set: the immediate subdirectories. */
    function Subdirectories(root: Path): (r: set<Path>)
      reads this
      ensures forall d :: d in r <==> d in dirs && IsChild(d, root)
      ensures forall d :: d in r ==> IsBelow(d, root) && d[|root|..] == [d[|root|]]
    {
      set d | d in dirs && |d| == |root| + 1 && d[..|root|] == root
    }

    /** `Directory.GetFiles(root)` as a set: the files directly in `root`. */
    function FilesIn(root: Path): (r: set<Path>)
      reads this
      ensures forall p :: p in r <==> p in files && IsChild(p, root)
      ensures forall p :: p in r ==> IsBelow(p, root) && p[|root|..] == [FileName(p)]
    {
      set p | p in files && |p| == |root| + 1 && p[..|root|] == root
    }

    /** `Directory.CreateDirectory(d)`: `d` and its ancestors exist afterwards. */
    method CreateDirectory(d: Path)
      modifies this
      ensures files == old(files)
      ensures dirs == old(dirs) + Prefixes(d)
    {
      dirs := dirs + Prefixes(d);
    }

    /**
     * ForceDeleteDirectory: nothing happens when the directory does not exist; otherwise a recursive
     * delete, which goes on past the files it cannot remove (`locked`) and throws at the end; the
     * exception is swallowed. The directories that still hold a file stay.
     */
    method ForceDeleteDirectory(path: Path, locked: set<Path>)
      modifies this
      ensures files == Cleared(old(files), old(dirs), path, locked)
      ensures path !in old(dirs) ==> dirs == old(dirs)
      ensures dirs == ClearedDirs(old(files), old(dirs), path, locked)
      ensures path in old(dirs) ==> forall p :: p in files && IsBelow(p, path) ==> p in locked
      ensures path in old(dirs) && (forall p :: p in locked ==> !IsBelow(p, path)) ==> path !in dirs
      ensures forall p :: p in files ==> p in old(files) && files[p] == old(files)[p]
    {
      if path !in dirs {
        return;
      }
      var left := set p | p in files && IsBelow(p, path) && p in locked;
      files := map p | p in files && (!IsBelow(p, path) || p in locked) :: files[p];
      dirs := set d | d in dirs && (!IsAtOrBelow(d, path) || d in Ancestors(left));
    }

    /**
     * Writes the archive's entries below `target` one file at a time, in an order not known here,
     * after creating the target. Without `overwrite` the write stops at the first entry whose file
     * already exists; with it, at the first entry whose file exists and is `locked`. The entries
     * written before it (`written`) stay. On success every entry and every directory of the archive
     * exists.
     */
    method WriteArchive(target: Path, a: Archive, overwrite: bool, locked: set<Path>) returns (ok: bool, written: map<Path, Bytes>)
      modifies this
      ensures ok == if overwrite then Writable(old(files), target, a.files, locked) else Fits(old(files), target, a.files)
      ensures written.Keys <= a.files.Keys && forall rel :: rel in written ==> written[rel] == a.files[rel]
      ensures ok ==> written == a.files
      ensures files == Overlay(old(files), target, written)
      ensures ok ==> dirs == old(dirs) + Prefixes(target) + Placed(target, ArchiveDirs(a))
      ensures !ok ==> dirs == old(dirs) + Prefixes(target)
    {
      dirs := dirs + Prefixes(target);
      var fails := if overwrite then set rel | rel in a.files && target + rel in files && target + rel in locked :: target + rel
                   else set rel | rel in a.files && target + rel in files :: target + rel;
      ok, written := WriteEntries(target, a.files, fails);
      if !ok {
        return;
      }
      dirs := dirs + Placed(target, ArchiveDirs(a));
    }

    /**
     * ExtractZip: clears the target, extracts, and answers the first top-level subdirectory if there
     * is one, the target itself otherwise; None when the archive cannot be read or an entry collides
     * with a file the clearing left behind. The order of `Directory.GetDirectories` is not known, so
     * "first" is any subdirectory.
     */
    method ExtractZip(extractTo: Path, archive: Option<Archive>, locked: set<Path>) returns (root: Option<Path>)
      modifies this
      ensures root.Some? <==>
        archive.Some? && Fits(Cleared(old(files), old(dirs), extractTo, locked), extractTo, archive.value.files)
      ensures root.Some? ==> files == Overlay(Cleared(old(files), old(dirs), extractTo, locked), extractTo, archive.value.files)
      ensures archive.None? ==> files == Cleared(old(files), old(dirs), extractTo, locked)
      ensures root.Some? ==>
        dirs == ClearedDirs(old(files), old(dirs), extractTo, locked) + Prefixes(extractTo) + Placed(extractTo, ArchiveDirs(archive.value))
      ensures root.Some? ==> Subdirectories(extractTo) == ExtractedSubdirs(old(files), old(dirs), extractTo, locked, archive.value)
      ensures root.Some? ==> root.value in dirs && IsAtOrBelow(root.value, extractTo)
      ensures root.Some? ==> root.value in ZipRoots(extractTo, Subdirectories(extractTo))
      ensures forall p :: !IsAtOrBelow(p, extractTo) ==>
        (p in files <==> p in old(files)) && (p in files ==> files[p] == old(files)[p])
      ensures forall d :: d in old(dirs) && !IsAtOrBelow(d, extractTo) ==> d in dirs
    {
      ForceDeleteDirectory(extractTo, locked);
      if archive.None? {
        return None;
      }
      ghost var cleared, clearedDirs := files, dirs;
      var ok, written := WriteArchive(extractTo, archive.value, false, locked);
      forall p | !IsAtOrBelow(p, extractTo) ensures (p in files <==> p in cleared) && (p in files ==> files[p] == cleared[p]) {
        OverlayAt(cleared, extractTo, written, p);
      }
      if !ok {
        return None;
      }
      PlacedChildren(clearedDirs, extractTo, ArchiveDirs(archive.value));
      var subdirs := Subdirectories(extractTo);
      assert subdirs == Children(dirs, extractTo);
      if subdirs != {} {
        var first :| first in subdirs;
        root := Some(first);
      } else {
        root := Some(extractTo);
      }
    }

    /**
     * Extract7z: clears and re-creates the target, extracts with overwrite, and answers the sole
     * subdirectory only when the target holds exactly one subdirectory and no file; otherwise the
     * target. None when the archive cannot be read, or when an entry lands on a locked file the
     * clearing left (opening it for writing throws); the entries written before that stay.
     */
    method Extract7z(extractTo: Path, archive: Option<Archive>, locked: set<Path>) returns (root: Option<Path>)
      modifies this
      ensures root.Some? <==>
        archive.Some? && Writable(Cleared(old(files), old(dirs), extractTo, locked), extractTo, archive.value.files, locked)
      ensures archive.None? ==> files == Cleared(old(files), old(dirs), extractTo, locked)
      ensures root.Some? ==> files == Overlay(Cleared(old(files), old(dirs), extractTo, locked), extractTo, archive.value.files)
      ensures archive.Some? ==> forall p :: p in Cleared(old(files), old(dirs), extractTo, locked) ==> p in files
      ensures archive.Some? ==> forall p :: p in files ==>
        || (p in Cleared(old(files), old(dirs), extractTo, locked) && files[p] == Cleared(old(files), old(dirs), extractTo, locked)[p])
        || (IsEntryTarget(extractTo, archive.value.files, p) && files[p] == archive.value.files[p[|extractTo|..]])
      ensures extractTo in dirs
      ensures root.Some? ==>
        dirs == ClearedDirs(old(files), old(dirs), extractTo, locked) + Prefixes(extractTo) + Placed(extractTo, ArchiveDirs(archive.value))
      ensures root.Some? ==> Subdirectories(extractTo) == ExtractedSubdirs(old(files), old(dirs), extractTo, locked, archive.value)
      ensures root.Some? ==> FilesIn(extractTo) == ExtractedTopFiles(old(files), old(dirs), extractTo, locked, archive.value)
      ensures root.Some? ==>
        if |Subdirectories(extractTo)| == 1 && FilesIn(extractTo) == {}
        then root.value in Subdirectories(extractTo)
        else root.value == extractTo
    {
      ForceDeleteDirectory(extractTo, locked);
      ghost var cleared, clearedDirs := files, dirs;
      CreateDirectory(extractTo);
      if archive.None? {
        return None;
      }
      var ok, written := WriteArchive(extractTo, archive.value, true, locked);
      forall p | p in files
        ensures || (p in cleared && files[p] == cleared[p])
                || (IsEntryTarget(extractTo, archive.value.files, p) && files[p] == archive.value.files[p[|extractTo|..]])
      {
        OverlayAt(cleared, extractTo, written, p);
      }
      forall p | p in cleared ensures p in files {
        OverlayAt(cleared, extractTo, written, p);
      }
      if !ok {
        return None;
      }
      assert clearedDirs + Prefixes(extractTo) + Prefixes(extractTo) == clearedDirs + Prefixes(extractTo);
      PlacedChildren(clearedDirs, extractTo, ArchiveDirs(archive.value));
      OverlayChildren(cleared, extractTo, archive.value.files);
      var subdirs := Subdirectories(extractTo);
      assert subdirs == Children(dirs, extractTo);
      assert FilesIn(extractTo) == Children(files.Keys, extractTo);
      if |subdirs| == 1 && FilesIn(extractTo) == {} {
        var only :| only in subdirs;
        root := Some(only);
      } else {
        root := Some(extractTo);
      }
    }

    /**
     * Writes the entries below `root` one file at a time, in an order not known here, overwriting what
     * is there. A write to a path in `fails` throws and ends the writing; the entries written before it
     * (`written`) stay.
     */
    method WriteEntries(root: Path, entries: map<Path, Bytes>, fails: set<Path>) returns (ok: bool, written: map<Path, Bytes>)
      modifies this
      ensures ok == forall rel :: rel in entries ==> root + rel !in fails
      ensures written.Keys <= entries.Keys && forall rel :: rel in written ==> written[rel] == entries[rel]
      ensures ok ==> written == entries
      ensures files == Overlay(old(files), root, written)
      ensures dirs == old(dirs)
    {
      var todo := entries.Keys;
      ghost var start := files;
      written := map[];
      OverlayEmpty(start, root);
      while todo != {}
        invariant todo <= entries.Keys
        invariant written.Keys == entries.Keys - todo
        invariant forall rel :: rel in written ==> written[rel] == entries[rel] && root + rel !in fails
        invariant files == Overlay(start, root, written)
        invariant dirs == old(dirs)
        decreases todo
      {
        var rel :| rel in todo;
        if root + rel in fails {
          return false, written;
        }
        OverlayInsert(start, root, written, rel, entries[rel]);
        files := files[root + rel := entries[rel]];
        written := written[rel := entries[rel]];
        todo := todo - {rel};
      }
      assert written == entries;
      ok := true;
    }

    /**
     * CopyDirectory: false (DirectoryNotFoundException) when the source does not exist, with nothing
     * changed. Otherwise the destination is created and every file below the source is copied,
     * overwriting, to the same relative path below the destination. A copy onto a path in `fails`
     * throws and ends the copying (`copied` false), after the files copied so far (`written`, by
     * relative path); on success the source's subdirectories are created there too.
     */
    method CopyDirectory(sourceDir: Path, destinationDir: Path, fails: set<Path>)
      returns (found: bool, copied: bool, written: map<Path, Bytes>)
      modifies this
      ensures found == (sourceDir in old(dirs))
      ensures !found ==> !copied && files == old(files) && dirs == old(dirs)
      ensures copied == (found && forall rel :: rel in Relative(old(files), sourceDir) ==> destinationDir + rel !in fails)
      ensures found ==> written.Keys <= Relative(old(files), sourceDir).Keys
                        && forall rel :: rel in written ==> written[rel] == Relative(old(files), sourceDir)[rel]
      ensures found ==> files == Overlay(old(files), destinationDir, written)
      ensures copied ==> files == Copied(old(files), sourceDir, destinationDir)
      ensures copied ==> dirs == old(dirs) + Prefixes(destinationDir)
                              + set d | d in old(dirs) && IsBelow(d, sourceDir) :: destinationDir + d[|sourceDir|..]
      ensures found && !copied ==> dirs == old(dirs) + Prefixes(destinationDir)
    {
      written := map[];
      if sourceDir !in dirs {
        return false, false, written;
      }
      found := true;
      var subdirs := set d | d in dirs && IsBelow(d, sourceDir) :: destinationDir + d[|sourceDir|..];
      CreateDirectory(destinationDir);
      copied, written := WriteEntries(destinationDir, Relative(files, sourceDir), fails);
      if copied {
        dirs := dirs + subdirs;
      }
    }

    /**
     * FindProfiles: every file at any depth below `rootPath` whose name matches `*.json`, each once,
     * in listing order (not known, so any order); empty when the root does not exist.
     */
    method FindProfiles(rootPath: Path) returns (profiles: seq<Path>)
      ensures rootPath !in dirs ==> profiles == []
      ensures rootPath in dirs ==>
        forall p :: p in profiles <==> p in files && IsBelow(p, rootPath) && IsJsonName(FileName(p))
      ensures forall i, j :: 0 <= i < j < |profiles| ==> profiles[i] != profiles[j]
    {
      profiles := [];
      if rootPath !in dirs {
        return;
      }
      var rest := set p | p in files && IsBelow(p, rootPath) && IsJsonName(FileName(p));
      ghost var all := rest;
      while rest != {}
        invariant rest <= all
        invariant forall p :: p in profiles <==> p in all && p !in rest
        invariant forall i, j :: 0 <= i < j < |profiles| ==> profiles[i] != profiles[j]
        decreases rest
      {
        var p :| p in rest;
        profiles := profiles + [p];
        rest := rest - {p};
      }
    }
  }
}

=== FILE: fingerprint.dfy ===
/**
 * Content fingerprints of a profile file (ProfileSync.cs, GetFileHash and GetTimestamp).
 *
 * SHA-256 (FIPS 180-4) and the JSON accessor for
 * `characters.pmc.Hideout.sptUpdateLastRunTimestamp` (RFC 8259) are not modelled inside:
 * they are the two fields of a `Fingerprinter`, handed to the engine. What stays concrete is
 * the lower-case hex rendering of the digest, the empty hash of a missing file and the
 * fallback of every failed or empty read to timestamp 0.
 */
module Fingerprint {
  import opened Base

  /** C#'s `long`. */
  newtype int64 = x: int | -0x8000_0000_0000_0000 <= x < 0x8000_0000_0000_0000

  /** A SHA-256 digest: 32 bytes. */
  type Digest = d: seq<byte> | |d| == 32 witness seq(32, _ => 0 as byte)

  /**
   * The two functions the engine uses without looking inside:
   * `sha256` is the digest of the raw bytes; `timestampField` decodes the bytes as JSON and reads
   * `characters.pmc.Hideout.sptUpdateLastRunTimestamp` as a long, giving None when the text does not
   * parse, a step of the path is missing or the value is not a 64-bit integer.
   */
  datatype Fingerprinter = Fingerprinter(sha256: Bytes -> Digest, timestampField: Bytes -> Option<int64>)

  /** The lower-case hexadecimal digit for a value below 16. */
  function HexChar(n: nat): (c: char)
    requires n < 16
    ensures '0' <= c <= '9' || 'a' <= c <= 'f'
  {
    if n < 10 then ('0' as int + n) as char else ('a' as int + n - 10) as char
  }

  /** `BitConverter.ToString(...).Replace("-", "").ToLowerInvariant()`: two lower-case hex digits per byte. */
  function HexLower(d: seq<byte>): (r: string)
    ensures |r| == 2 * |d|
    ensures forall k :: 0 <= k < |r| ==> '0' <= r[k] <= '9' || 'a' <= r[k] <= 'f'
  {
    if d == [] then ""
    else [HexChar((d[0] >> 4) as int), HexChar((d[0] & 15) as int)] + HexLower(d[1..])
  }

  /** The hex digit of a value determines the value. */
  lemma HexCharInjective(m: nat, n: nat)
    requires m < 16 && n < 16 && HexChar(m) == HexChar(n)
    ensures m == n
  {
  }

  /** The two hex digits of a byte determine the byte. */
  lemma HexPairInjective(x: byte, y: byte)
    requires HexChar((x >> 4) as int) == HexChar((y >> 4) as int)
    requires HexChar((x & 15) as int) == HexChar((y & 15) as int)
    ensures x == y
  {
    HexCharInjective((x >> 4) as int, (y >> 4) as int);
    HexCharInjective((x & 15) as int, (y & 15) as int);
    assert x >> 4 == y >> 4 && x & 15 == y & 15;
    assert x == ((x >> 4) << 4) | (x & 15);
    assert y == ((y >> 4) << 4) | (y & 15);
  }

  /** Distinct digests render as distinct hex strings, so comparing hashes compares digests. */
  lemma {:induction false} HexLowerInjective(a: seq<byte>, b: seq<byte>)
    requires HexLower(a) == HexLower(b)
    ensures a == b
  {
    if a != [] {
      assert |b| == |a|;
      var ra, rb := HexLower(a), HexLower(b);
      assert ra[0] == rb[0] && ra[1] == rb[1];
      HexPairInjective(a[0], b[0]);
      assert ra[2..] == HexLower(a[1..]);
      assert rb[2..] == HexLower(b[1..]);
      HexLowerInjective(a[1..], b[1..]);
      assert a == [a[0]] + a[1..];
      assert b == [b[0]] + b[1..];
    }
  }

  /** GetFileHash: "" for a missing file, otherwise the hex rendering of its SHA-256 digest. */
  function GetFileHash(fp: Fingerprinter, file: Option<Bytes>): (h: string)
    ensures file.None? <==> h == ""
    ensures file.Some? ==> |h| == 64
  {
    match file
    case None => ""
    case Some(bytes) => HexLower(fp.sha256(bytes))
  }

  /**
   * Two hashes are equal exactly when both files are missing or both are present with equal
   * digests; in particular a missing file never matches a present one.
   */
  lemma HashEqualIffSameDigest(fp: Fingerprinter, a: Option<Bytes>, b: Option<Bytes>)
    ensures GetFileHash(fp, a) == GetFileHash(fp, b)
        <==> (a.None? && b.None?) || (a.Some? && b.Some? && fp.sha256(a.value) == fp.sha256(b.value))
  {
    if a.Some? && b.Some? && GetFileHash(fp, a) == GetFileHash(fp, b) {
      HexLowerInjective(fp.sha256(a.value), fp.sha256(b.value));
    }
  }

  /**
   * GetTimestamp: the progress timestamp of a profile's content. It never fails: empty content,
   * text that is not JSON, a missing step of the field path and a value of the wrong type all give 0.
   */
  function GetTimestamp(fp: Fingerprinter, content: Bytes): (ts: int64)
    ensures content == [] || fp.timestampField(content).None? ==> ts == 0
    ensures ts != 0 ==> content != [] && fp.timestampField(content) == Some(ts)
    ensures content != [] && fp.timestampField(content).Some? ==> ts == fp.timestampField(content).value
  {
    if content == [] then 0
    else fp.timestampField(content).GetOr(0)
  }

  /** The timestamp of a file that may be missing: a missing file counts as 0. */
  function TimestampOf(fp: Fingerprinter, file: Option<Bytes>): (ts: int64)
    ensures file.None? ==> ts == 0
    ensures file.Some? ==> ts == GetTimestamp(fp, file.value)
  {
    match file
    case None => 0
    case Some(bytes) => GetTimestamp(fp, bytes)
  }
}

=== FILE: game_launcher.dfy ===
/**
 * utils/game_launcher.py: how the launcher learns the server's address. Two regular expressions
 * pick `"port": <digits>` and `"ip": "<text>"` out of a configuration file's text, wherever they
 * occur; the Fika mod's config wins over the SPT (or older Aki) `http.json`; `0.0.0.0` means
 * "this machine".
 */
module GameLauncher {
  import opened Base
  import opened Text

  // ---------------------------------------------------------------------------------------------
  // The two patterns

  /** Python's `\s` on text: `str.isspace`, the .NET white space plus the four separators 0x1C-0x1F. */
  predicate IsPySpace(c: char) {
    IsWhiteSpace(c) || ('\U{1C}' <= c <= '\U{1F}')
  }

  /** The character classes the patterns repeat: `\s`, `\d` and `[^"]`. */
  datatype CharClass = Space | Digit | NotQuote

  predicate InClass(cls: CharClass, c: char) {
    match cls
    case Space => IsPySpace(c)
    case Digit => IsDigit(c)
    case NotQuote => c != '"'
  }

  /** Where a greedy repetition of `cls` that starts at `j` stops. */
  function RunEnd(text: string, j: nat, cls: CharClass): (k: nat)
    requires j <= |text|
    ensures j <= k <= |text|
    ensures forall m :: j <= m < k ==> InClass(cls, text[m])
    ensures k < |text| ==> !InClass(cls, text[k])
    decreases |text| - j
  {
    if j < |text| && InClass(cls, text[j]) then RunEnd(text, j + 1, cls) else j
  }

  /** The two fields, `"port"\s*:\s*(\d+)` and `"ip"\s*:\s*"([^"]+)"`. */
  datatype Field = PortField | IpField

  function Key(field: Field): string {
    match field
    case PortField => "\"port\""
    case IpField => "\"ip\""
  }

  /**
   * The captured group when the value part of the pattern matches at `b` (just after the
   * spaces that follow the colon). A maximal run that is followed by neither end nor quote cannot
   * be shortened into a match, so greedy matching without backtracking is exact here.
   */
  function ValueAt(field: Field, text: string, b: nat): (group: Option<string>)
    requires b <= |text|
    ensures group.Some? ==> group.value != []
    ensures group.Some? && field == PortField ==> forall k :: 0 <= k < |group.value| ==> IsDigit(group.value[k])
    ensures group.Some? && field == IpField ==> forall k :: 0 <= k < |group.value| ==> group.value[k] != '"'
  {
    match field
    case PortField =>
      var e := RunEnd(text, b, Digit);
      if e > b then Some(text[b..e]) else None
    case IpField =>
      if b < |text| && text[b] == '"' then
        var e := RunEnd(text, b + 1, NotQuote);
        if b + 1 < e < |text| then Some(text[b + 1..e]) else None
      else None
  }

  /** The captured group when the whole pattern matches starting exactly at `i`. */
  function MatchAt(field: Field, text: string, i: nat): (group: Option<string>)
    requires i <= |text|
    ensures group.Some? ==> group.value != []
    ensures group.Some? && field == PortField ==> forall k :: 0 <= k < |group.value| ==> IsDigit(group.value[k])
    ensures group.Some? && field == IpField ==> forall k :: 0 <= k < |group.value| ==> group.value[k] != '"'
  {
    var key := Key(field);
    if i + |key| <= |text| && text[i..i + |key|] == key then
      var a := RunEnd(text, i + |key|, Space);
      if a < |text| && text[a] == ':' then ValueAt(field, text, RunEnd(text, a + 1, Space)) else None
    else None
  }

  /** The outcome of trying the pattern at every position of the text, end included. */
  function Attempts(field: Field, text: string): (attempts: seq<Option<string>>)
    ensures |attempts| == |text| + 1
    ensures forall k :: 0 <= k <= |text| ==> attempts[k] == MatchAt(field, text, k)
  {
    seq(|text| + 1, k requires 0 <= k <= |text| => MatchAt(field, text, k))
  }

  /** `re.search` from attempt `i` on: the group of the leftmost successful attempt. */
  function Leftmost(attempts: seq<Option<string>>, i: nat): (group: Option<string>)
    requires i <= |attempts|
    ensures group.None? <==> forall k :: i <= k < |attempts| ==> attempts[k].None?
    ensures group.Some? ==> exists k :: i <= k < |attempts| && attempts[k] == group
                                        && forall m :: i <= m < k ==> attempts[m].None?
    decreases |attempts| - i
  {
    if i == |attempts| then
      None
    else if attempts[i].Some? then
      attempts[i]
    else
      var rest := Leftmost(attempts, i + 1);
      assert rest.Some? ==> exists k :: i <= k < |attempts| && attempts[k] == rest
                                        && forall m :: i <= m < k ==> attempts[m].None? by {
        if rest.Some? {
          var k :| i + 1 <= k < |attempts| && attempts[k] == rest
                   && forall m :: i + 1 <= m < k ==> attempts[m].None?;
          assert forall m :: i <= m < k ==> attempts[m].None?;
        }
      }
      rest
  }

  /** A search from `j` stops at the first successful attempt `i` when none between succeeds. */
  lemma {:induction false} LeftmostReachesFirst(attempts: seq<Option<string>>, j: nat, i: nat)
    requires j <= i < |attempts| && attempts[i].Some?
    requires forall m :: j <= m < i ==> attempts[m].None?
    ensures Leftmost(attempts, j) == attempts[i]
    decreases i - j
  {
    if j < i {
      LeftmostReachesFirst(attempts, j + 1, i);
    }
  }

  /** `re.search(pattern, text)`: the group of the leftmost match. */
  function Search(field: Field, text: string): (group: Option<string>)
    ensures group.Some? && field == PortField ==> forall k :: 0 <= k < |group.value| ==> IsDigit(group.value[k])
  {
    var attempts := Attempts(field, text);
    var group := Leftmost(attempts, 0);
    assert group.Some? ==> exists k :: 0 <= k <= |text| && MatchAt(field, text, k) == group;
    group
  }

  /** What `_extract_values_from_text` finds: each key present only when its pattern matched. */
  datatype ServerValues = ServerValues(port: Option<nat>, ip: Option<string>)

  /**
   * `_extract_values_from_text`: the port is the integer value of the digits of the leftmost port
   * match, the ip the text between quotes of the leftmost ip match.
   */
  function ExtractValues(text: string): ServerValues {
    var port := Search(PortField, text);
    var ip := Search(IpField, text);
    ServerValues(if port.Some? then Some(DigitsValue(port.value)) else None, ip)
  }

  // Matches and non-matches at a given position, for any surrounding text.

  /** A greedy run over a stretch of `cls` characters stops right after it when the next one is not in `cls`. */
  lemma RunEndOver(text: string, j: nat, run: string, cls: CharClass)
    requires j + |run| <= |text| && text[j..j + |run|] == run
    requires forall k :: 0 <= k < |run| ==> InClass(cls, run[k])
    requires j + |run| == |text| || !InClass(cls, text[j + |run|])
    ensures RunEnd(text, j, cls) == j + |run|
    decreases |run|
  {
    if run != [] {
      assert text[j] == run[0];
      assert text[j + 1..j + |run|] == run[1..];
      RunEndOver(text, j + 1, run[1..], cls);
    }
  }

  predicate AllSpace(s: string) {
    forall k :: 0 <= k < |s| ==> IsPySpace(s[k])
  }

  /** A slice equal to a concatenation splits into slices equal to its two parts. */
  lemma SliceSplit(text: string, i: nat, e: nat, x: string, y: string)
    requires i <= e <= |text| && text[i..e] == x + y
    ensures text[i..i + |x|] == x && text[i + |x|..e] == y
  {
    assert text[i..i + |x|] == text[i..e][..|x|];
    assert text[i + |x|..e] == text[i..e][|x|..];
  }

  /** Once the key, the spaces, the colon and the spaces are found, the match is the value's. */
  lemma MatchFromValue(field: Field, text: string, i: nat, a: nat, b: nat)
    requires i + |Key(field)| <= |text| && text[i..i + |Key(field)|] == Key(field)
    requires a < |text| && RunEnd(text, i + |Key(field)|, Space) == a && text[a] == ':'
    requires b <= |text| && RunEnd(text, a + 1, Space) == b
    ensures MatchAt(field, text, i) == ValueAt(field, text, b)
  {
  }

  /** The key at `i`, spaces, a colon at `a` and spaces up to `b` bring the match to the value at `b`. */
  lemma KeyAndColonAt(field: Field, text: string, i: nat, ws1: string, ws2: string, a: nat, b: nat)
    requires AllSpace(ws1) && AllSpace(ws2)
    requires a == i + |Key(field)| + |ws1| && b == a + 1 + |ws2| && b <= |text|
    requires text[i..i + |Key(field)|] == Key(field) && text[i + |Key(field)|..a] == ws1
    requires text[a] == ':' && text[a + 1..b] == ws2
    requires b == |text| || !IsPySpace(text[b])
    ensures MatchAt(field, text, i) == ValueAt(field, text, b)
  {
    RunEndOver(text, i + |Key(field)|, ws1, Space);
    RunEndOver(text, a + 1, ws2, Space);
    MatchFromValue(field, text, i, a, b);
  }

  /** The key, spaces, a colon and spaces at `i` bring the match to the value at `b`. */
  lemma KeyAndColon(field: Field, text: string, i: nat, ws1: string, ws2: string, b: nat)
    requires AllSpace(ws1) && AllSpace(ws2)
    requires b == i + |Key(field)| + |ws1| + 1 + |ws2| && b <= |text|
    requires text[i..b] == Key(field) + ws1 + ":" + ws2
    requires b == |text| || !IsPySpace(text[b])
    ensures MatchAt(field, text, i) == ValueAt(field, text, b)
  {
    var key := Key(field);
    var a := i + |key| + |ws1|;
    SliceSplit(text, i, b, key + ws1 + ":", ws2);
    SliceSplit(text, i, a + 1, key + ws1, ":");
    assert text[a] == text[a..a + 1][0];
    SliceSplit(text, i, a, key, ws1);
    KeyAndColonAt(field, text, i, ws1, ws2, a, b);
  }

  /** `"port"`, spaces, `:`, spaces and digits not followed by a digit: the digits are captured. */
  lemma PortMatched(text: string, i: nat, ws1: string, ws2: string, digits: string)
    requires AllSpace(ws1) && AllSpace(ws2) && digits != [] && forall k :: 0 <= k < |digits| ==> IsDigit(digits[k])
    requires i + |Key(PortField)| + |ws1| + 1 + |ws2| + |digits| <= |text|
    requires text[i..i + |Key(PortField)| + |ws1| + 1 + |ws2| + |digits|] == Key(PortField) + ws1 + ":" + ws2 + digits
    requires var e := i + |Key(PortField)| + |ws1| + 1 + |ws2| + |digits|; e == |text| || !IsDigit(text[e])
    ensures MatchAt(PortField, text, i) == Some(digits)
  {
    var b := i + |Key(PortField)| + |ws1| + 1 + |ws2|;
    SliceSplit(text, i, b + |digits|, Key(PortField) + ws1 + ":" + ws2, digits);
    assert text[b] == digits[0];
    KeyAndColon(PortField, text, i, ws1, ws2, b);
    PortValueAt(text, b, digits);
  }

  lemma PortValueAt(text: string, b: nat, digits: string)
    requires b + |digits| <= |text| && text[b..b + |digits|] == digits
    requires digits != [] && forall k :: 0 <= k < |digits| ==> IsDigit(digits[k])
    requires b + |digits| == |text| || !IsDigit(text[b + |digits|])
    ensures ValueAt(PortField, text, b) == Some(digits)
  {
    RunEndOver(text, b, digits, Digit);
  }

  lemma IpValueAt(text: string, b: nat, ip: string)
    requires b + 1 + |ip| < |text| && text[b] == '"' && text[b + 1..b + 1 + |ip|] == ip && text[b + 1 + |ip|] == '"'
    requires ip != [] && '"' !in ip
    ensures ValueAt(IpField, text, b) == Some(ip)
  {
    RunEndOver(text, b + 1, ip, NotQuote);
  }

  /** `"ip"`, spaces, `:`, spaces and a non-empty quoted text without quotes: the text is captured. */
  lemma IpMatched(text: string, i: nat, ws1: string, ws2: string, ip: string)
    requires AllSpace(ws1) && AllSpace(ws2) && ip != [] && '"' !in ip
    requires i + |Key(IpField)| + |ws1| + 1 + |ws2| + |ip| + 2 <= |text|
    requires text[i..i + |Key(IpField)| + |ws1| + 1 + |ws2| + |ip| + 2] == Key(IpField) + ws1 + ":" + ws2 + "\"" + ip + "\""
    ensures MatchAt(IpField, text, i) == Some(ip)
  {
    var head := Key(IpField) + ws1 + ":" + ws2;
    var b := i + |head|;
    var e := b + 1 + |ip|;
    SliceSplit(text, i, e + 1, head + "\"" + ip, "\"");
    SliceSplit(text, i, e, head + "\"", ip);
    SliceSplit(text, i, b + 1, head, "\"");
    assert text[b] == text[b..b + 1][0] == '"';
    assert text[e] == text[e..e + 1][0] == '"';
    KeyAndColon(IpField, text, i, ws1, ws2, b);
    IpValueAt(text, b, ip);
  }

  /** The search finds the match at `i` when no earlier position matches. */
  lemma SearchFindsFirst(field: Field, text: string, i: nat)
    requires i <= |text| && MatchAt(field, text, i).Some?
    requires forall m :: 0 <= m < i ==> MatchAt(field, text, m).None?
    ensures Search(field, text) == MatchAt(field, text, i)
  {
    LeftmostReachesFirst(Attempts(field, text), 0, i);
  }

  /** When the leftmost port match is at `i`, the port is the value of its digits. */
  lemma LeftmostPortWins(text: string, i: nat, ws1: string, ws2: string, digits: string)
    requires AllSpace(ws1) && AllSpace(ws2) && digits != [] && forall k :: 0 <= k < |digits| ==> IsDigit(digits[k])
    requires i + |Key(PortField)| + |ws1| + 1 + |ws2| + |digits| <= |text|
    requires text[i..i + |Key(PortField)| + |ws1| + 1 + |ws2| + |digits|] == Key(PortField) + ws1 + ":" + ws2 + digits
    requires var e := i + |Key(PortField)| + |ws1| + 1 + |ws2| + |digits|; e == |text| || !IsDigit(text[e])
    requires forall m :: 0 <= m < i ==> MatchAt(PortField, text, m).None?
    ensures ExtractValues(text).port == Some(DigitsValue(digits))
  {
    PortMatched(text, i, ws1, ws2, digits);
    SearchFindsFirst(PortField, text, i);
  }

  /** When the leftmost ip match is at `i`, the ip is the text between its quotes. */
  lemma LeftmostIpWins(text: string, i: nat, ws1: string, ws2: string, ip: string)
    requires AllSpace(ws1) && AllSpace(ws2) && ip != [] && '"' !in ip
    requires i + |Key(IpField)| + |ws1| + 1 + |ws2| + |ip| + 2 <= |text|
    requires text[i..i + |Key(IpField)| + |ws1| + 1 + |ws2| + |ip| + 2] == Key(IpField) + ws1 + ":" + ws2 + "\"" + ip + "\""
    requires forall m :: 0 <= m < i ==> MatchAt(IpField, text, m).None?
    ensures ExtractValues(text).ip == Some(ip)
  {
    IpMatched(text, i, ws1, ws2, ip);
    SearchFindsFirst(IpField, text, i);
  }

  /** Without any match of a pattern, its key is absent from the result. */
  lemma AbsentWithoutMatch(text: string)
    ensures (forall k :: 0 <= k <= |text| ==> MatchAt(PortField, text, k).None?) ==> ExtractValues(text).port.None?
    ensures (forall k :: 0 <= k <= |text| ==> MatchAt(IpField, text, k).None?) ==> ExtractValues(text).ip.None?
  {
  }

  /** `"ip": ""` does not match: the class `[^"]+` needs at least one character. */
  lemma EmptyIpNotMatched(text: string, i: nat, ws1: string, ws2: string)
    requires AllSpace(ws1) && AllSpace(ws2)
    requires i + |Key(IpField)| + |ws1| + 1 + |ws2| + 2 <= |text|
    requires text[i..i + |Key(IpField)| + |ws1| + 1 + |ws2| + 2] == Key(IpField) + ws1 + ":" + ws2 + "\"\""
    ensures MatchAt(IpField, text, i) == None
  {
    var b := i + |Key(IpField)| + |ws1| + 1 + |ws2|;
    var whole := text[i..b + 2];
    assert text[i..b] == whole[..b - i] == Key(IpField) + ws1 + ":" + ws2;
    assert text[b] == whole[b - i] == '"';
    assert text[b + 1] == whole[b - i + 1] == '"';
    KeyAndColon(IpField, text, i, ws1, ws2, b);
  }

  /** A port written as a string, `"port": "6969"`, does not match: the value must start with a digit. */
  lemma QuotedPortNotMatched(text: string, i: nat, ws1: string, ws2: string)
    requires AllSpace(ws1) && AllSpace(ws2)
    requires i + |Key(PortField)| + |ws1| + 1 + |ws2| + 1 <= |text|
    requires text[i..i + |Key(PortField)| + |ws1| + 1 + |ws2| + 1] == Key(PortField) + ws1 + ":" + ws2 + "\""
    ensures MatchAt(PortField, text, i) == None
  {
    var b := i + |Key(PortField)| + |ws1| + 1 + |ws2|;
    var whole := text[i..b + 1];
    assert text[i..b] == whole[..b - i] == Key(PortField) + ws1 + ":" + ws2;
    assert text[b] == whole[b - i] == '"';
    KeyAndColon(PortField, text, i, ws1, ws2, b);
  }

  /** Python's `int` ignores leading zeros: `"06969"` is 6969. */
  lemma {:induction false} LeadingZeroIgnored(digits: string)
    requires |digits| >= 1 && digits[0] == '0' && forall k :: 0 <= k < |digits| ==> '0' <= digits[k] <= '9'
    ensures DigitsValue(digits) == DigitsValue(digits[1..])
    decreases |digits|
  {
    if |digits| > 1 {
      var init := digits[..|digits| - 1];
      assert init[1..] == digits[1..][..|digits[1..]| - 1];
      LeadingZeroIgnored(init);
    }
  }

  /** `str(n)`: the shortest decimal writing of `n`. */
  function Decimal(n: nat): (s: string)
    ensures s != [] && forall k :: 0 <= k < |s| ==> IsDigit(s[k])
    decreases n
  {
    (if n < 10 then [] else Decimal(n / 10)) + [('0' as int + n % 10) as char]
  }

  /** Every port written in decimal reads back as itself. */
  lemma {:induction false} DecimalRoundTrip(n: nat)
    ensures DigitsValue(Decimal(n)) == n
    decreases n
  {
    var s := Decimal(n);
    if n < 10 {
      assert s == [('0' as int + n) as char];
    } else {
      DecimalRoundTrip(n / 10);
      assert s[..|s| - 1] == Decimal(n / 10);
    }
  }

  // ---------------------------------------------------------------------------------------------
  // The server address

  /** The default address: this machine, SPT's port 6969. */
  const DefaultIp: string := "127.0.0.1"
  const DefaultPort: nat := 6969
  /** The wildcard address a server binds to; a client must not dial it. */
  const AnyAddress: string := "0.0.0.0"

  /** The ip as stored: the wildcard address becomes the loopback address, anything else is kept. */
  function NormalizeIp(raw: string): (ip: string)
    ensures raw == AnyAddress ==> ip == DefaultIp
    ensures raw != AnyAddress ==> ip == raw
    ensures ip != AnyAddress
  {
    if raw == AnyAddress then DefaultIp else raw
  }

  lemma NormalizeIpIdempotent(raw: string)
    ensures NormalizeIp(NormalizeIp(raw)) == NormalizeIp(raw)
  {
  }

  /** The server address the launcher waits for. */
  datatype Endpoint = Endpoint(ip: string, port: nat)

  /** The fields a configuration file provided replace the current ones; the others stay. */
  function Applied(current: Endpoint, values: ServerValues): (e: Endpoint)
    ensures e.port == if values.port.Some? then values.port.value else current.port
    ensures e.ip == if values.ip.Some? then NormalizeIp(values.ip.value) else current.ip
  {
    Endpoint(if values.ip.Some? then NormalizeIp(values.ip.value) else current.ip,
             if values.port.Some? then values.port.value else current.port)
  }

  /** Applying values never stores the wildcard address unless it was already there. */
  lemma AppliedNeverWildcard(current: Endpoint, values: ServerValues)
    requires current.ip != AnyAddress
    ensures Applied(current, values).ip != AnyAddress
  {
  }

  /** A configuration file: missing, present but failing to open or read, or its text. */
  datatype ConfigFile = Missing | Unreadable | Readable(text: string)

  /** Which configuration the address came from, as the log line says. */
  datatype ConfigOrigin = FikaConfig | SptConfig(index: nat) | DefaultSettings

  /** The first readable file of a list, if any. */
  function FirstReadable(files: seq<ConfigFile>): (index: Option<nat>)
    ensures index.Some? ==> index.value < |files| && files[index.value].Readable?
                            && forall j :: 0 <= j < index.value ==> !files[j].Readable?
    ensures index.None? ==> forall j :: 0 <= j < |files| ==> !files[j].Readable?
  {
    if files == [] then None
    else if files[0].Readable? then Some(0)
    else
      var rest := FirstReadable(files[1..]);
      assert forall j :: 1 <= j < |files| ==> files[j] == files[1..][j - 1];
      if rest.Some? then Some(rest.value + 1) else None
  }

  class GameLauncher {
    var targetIp: string
    var port: nat

    /** The defaults, before any configuration file is read. */
    constructor ()
      ensures targetIp == DefaultIp && port == DefaultPort
    {
      targetIp := DefaultIp;
      port := DefaultPort;
    }

    function Current(): Endpoint
      reads this
    {
      Endpoint(targetIp, port)
    }

    /** Stores what one configuration file provided. */
    method ApplyValues(values: ServerValues)
      modifies this
      ensures Current() == Applied(old(Current()), values)
    {
      if values.port.Some? {
        port := values.port.value;
      }
      if values.ip.Some? {
        var raw := values.ip.value;
        targetIp := NormalizeIp(raw);
      }
    }

    /**
     * `_load_server_config`: a readable Fika config is final, even when it provides nothing;
     * otherwise the `http.json` candidates (SPT_Data, then Aki_Data) are tried in order and the
     * first readable one is final; a file that is missing or fails to read is skipped. With none,
     * the address is left as it was.
     */
    method LoadServerConfig(fika: ConfigFile, httpConfigs: seq<ConfigFile>) returns (origin: ConfigOrigin)
      modifies this
      ensures fika.Readable? ==> origin == FikaConfig && Current() == Applied(old(Current()), ExtractValues(fika.text))
      ensures !fika.Readable? ==>
        match FirstReadable(httpConfigs)
        case Some(k) => origin == SptConfig(k) && Current() == Applied(old(Current()), ExtractValues(httpConfigs[k].text))
        case None => origin == DefaultSettings && Current() == old(Current())
    {
      if fika.Readable? {
        ApplyValues(ExtractValues(fika.text));
        return FikaConfig;
      }
      var i := 0;
      while i < |httpConfigs|
        invariant 0 <= i <= |httpConfigs|
        invariant forall j :: 0 <= j < i ==> !httpConfigs[j].Readable?
        invariant Current() == old(Current())
      {
        if httpConfigs[i].Readable? {
          ApplyValues(ExtractValues(httpConfigs[i].text));
          FirstReadableAt(httpConfigs, i);
          return SptConfig(i);
        }
        i := i + 1;
      }
      return DefaultSettings;
    }
  }

  /** The first readable file is the one a front-to-back scan stops at. */
  lemma {:induction false} FirstReadableAt(files: seq<ConfigFile>, i: nat)
    requires i < |files| && files[i].Readable? && forall j :: 0 <= j < i ==> !files[j].Readable?
    ensures FirstReadable(files) == Some(i)
  {
    if i > 0 {
      assert !files[0].Readable?;
      assert files[1..][i - 1] == files[i];
      assert forall j :: 0 <= j < i - 1 ==> files[1..][j] == files[j + 1];
      FirstReadableAt(files[1..], i - 1);
    }
  }
}

=== FILE: github_client.dfy ===
/**
 * `GitHubClient.ExtractRepoInfo`: the owner and repository named by a repository URL
 * (GitHubClient.cs:43-49). The HTTP operations of the client are not part of this module.
 */
module GitHubClient {
  import opened Base
  import opened Text

  /** The cleaning of line 45: surrounding white space, then every trailing `/`, then every `.git`. */
  function CleanUrl(url: string): (clean: string)
    ensures |clean| <= |url|
  {
    var trimmed := TrimEnd(Trim(url), '/');
    RemoveShrinks(trimmed, ".git", '/');
    Replace(trimmed, ".git", "")
  }

  /** Appending a part to a joined list adds the separator and the part. */
  lemma {:induction false} JoinSnoc(parts: seq<string>, c: char, last: string)
    requires |parts| >= 1
    ensures Join(parts + [last], c) == Join(parts, c) + [c] + last
    decreases |parts|
  {
    if |parts| > 1 {
      assert (parts + [last])[1..] == parts[1..] + [last];
      JoinSnoc(parts[1..], c, last);
    }
  }

  /**
   * The joined parts end with the last two parts around one separator, and that suffix is the
   * whole string or follows another separator.
   */
  lemma LastTwoParts(parts: seq<string>, c: char)
    requires |parts| >= 2
    ensures EndsWith(Join(parts, c), parts[|parts| - 2] + [c] + parts[|parts| - 1])
    ensures var s, tail := Join(parts, c), parts[|parts| - 2] + [c] + parts[|parts| - 1];
            |s| == |tail| || s[|s| - |tail| - 1] == c
  {
    var n := |parts|;
    var a, b := parts[n - 2], parts[n - 1];
    assert parts == parts[..n - 1] + [b];
    JoinSnoc(parts[..n - 1], c, b);
    if n == 2 {
      assert Join(parts[..n - 1], c) == a;
      assert Join(parts, c) == a + [c] + b;
    } else {
      assert parts[..n - 1] == parts[..n - 2] + [a];
      JoinSnoc(parts[..n - 2], c, a);
      var head := Join(parts[..n - 2], c) + [c];
      assert Join(parts, c) == head + (a + [c] + b);
    }
  }

  /**
   * ExtractRepoInfo: the second-to-last and last `/`-separated parts of the cleaned URL. It fails,
   * with the URL as the message argument, exactly when the cleaned URL has no `/` at all. Empty
   * parts are not rejected.
   */
  function ExtractRepoInfo(url: string): (r: Result<(string, string), string>)
    ensures r.Success? <==> '/' in CleanUrl(url)
    ensures r.Failure? ==> r.error == url
    ensures r.Success? ==> '/' !in r.value.0 && '/' !in r.value.1
    ensures r.Success? ==> EndsWith(CleanUrl(url), r.value.0 + "/" + r.value.1)
    ensures r.Success? ==>
              var clean, tail := CleanUrl(url), r.value.0 + "/" + r.value.1;
              |clean| == |tail| || clean[|clean| - |tail| - 1] == '/'
  {
    var clean := CleanUrl(url);
    var parts := Split(clean, '/');
    SplitSingleIffNoSeparator(clean, '/');
    if |parts| >= 2 then
      LastTwoParts(parts, '/');
      Success((parts[|parts| - 2], parts[|parts| - 1]))
    else
      Failure(url)
  }

  /** The form of repository URL the configuration prompt accepts. */
  const WebPrefix: string := "https://github.com/"

  /** `s` when `present`, nothing otherwise: an optional `.git` or trailing slash. */
  function Opt(present: bool, s: string): (r: string)
    ensures r == (if present then s else [])
  {
    if present then s else []
  }

  // Each property below is proved in steps: the trimming, the `.git` removal and the split are
  // shown apart, for any prefix of the web prefix's shape, then put together.

  /** Once the cleaned URL is known, the result is the last two parts of its split. */
  lemma ExtractFromCleanParts(url: string, clean: string)
    requires CleanUrl(url) == clean && |Split(clean, '/')| >= 2
    ensures var parts := Split(clean, '/');
            ExtractRepoInfo(url) == Success((parts[|parts| - 2], parts[|parts| - 1]))
  {
    var parts := Split(clean, '/');
    var owner, repo := parts[|parts| - 2], parts[|parts| - 1];
    assert Split(CleanUrl(url), '/') == parts;
    assert ExtractRepoInfo(url) == Success((owner, repo));
  }

  lemma CleanUrlOf(url: string, trimmed: string, clean: string)
    requires TrimEnd(Trim(url), '/') == trimmed && Replace(trimmed, ".git", "") == clean
    ensures CleanUrl(url) == clean
  {
  }

  /** Three parts without separators, joined by it, split back into themselves. */
  lemma SplitThree(a: string, b: string, c: string)
    requires '/' !in a && '/' !in b && '/' !in c
    ensures Split(a + ['/'] + (b + ['/'] + c), '/') == [a, b, c]
  {
    SplitConcat(b, c, '/');
    SplitConcat(a, b + ['/'] + c, '/');
    SplitWhole(a, '/');
    SplitWhole(b, '/');
    SplitWhole(c, '/');
  }

  /** Whatever comes before, the last two parts are the owner and the repository. */
  lemma SplitUnderPrefix(pre: string, owner: string, repo: string)
    requires pre != [] && pre[|pre| - 1] == '/' && '/' !in owner && '/' !in repo
    ensures var parts := Split(pre + owner + "/" + repo, '/');
            |parts| >= 2 && parts[|parts| - 2] == owner && parts[|parts| - 1] == repo
  {
    var head := pre[..|pre| - 1];
    assert pre + owner + "/" + repo == head + ['/'] + (owner + ['/'] + repo);
    SplitConcat(head, owner + ['/'] + repo, '/');
    SplitConcat(owner, repo, '/');
    SplitWhole(owner, '/');
    SplitWhole(repo, '/');
  }

  /** A string that neither starts nor ends with white space, nor ends with `/`, is not trimmed at all. */
  lemma Untrimmed(u: string)
    requires u != [] && !IsWhiteSpace(u[0]) && !IsWhiteSpace(u[|u| - 1]) && u[|u| - 1] != '/'
    ensures TrimEnd(Trim(u), '/') == u
  {
    TrimUntouched(u);
  }

  /** Removing one trailing slash and then all the rest is removing all of them. */
  lemma TrimEndSlash(s: string, slash: bool)
    requires s != [] && s[|s| - 1] != '/'
    ensures TrimEnd(s + Opt(slash, "/"), '/') == s
  {
    var t := s + Opt(slash, "/");
    if slash {
      assert t[..|t| - 1] == s;
    } else {
      assert t == s;
    }
  }

  /** A URL with an optional trailing slash trims to the URL without it. */
  lemma UrlTrimmed(u: string, slash: bool)
    requires u != [] && !IsWhiteSpace(u[0]) && !IsWhiteSpace(u[|u| - 1]) && u[|u| - 1] != '/'
    ensures TrimEnd(Trim(u + Opt(slash, "/")), '/') == u
  {
    var w := u + Opt(slash, "/");
    assert w[0] == u[0] && w[|w| - 1] == (if slash then '/' else u[|u| - 1]);
    TrimUntouched(w);
    TrimEndSlash(u, slash);
  }

  /** Dot-free text cannot start a `.git`: it is copied as it is. */
  lemma ReplaceDotFree(t: string, rest: string)
    requires '.' !in t
    ensures Replace(t + rest, ".git", "") == t + Replace(rest, ".git", "")
  {
    ReplacePlainPrefix(t, rest, ".git", "");
  }

  /** A dot followed by dot-free text not starting with `g` is copied, and the scan goes on after it. */
  lemma ReplaceDotThen(b: string, rest: string)
    requires '.' !in b && b != [] && b[0] != 'g'
    ensures Replace(['.'] + b + rest, ".git", "") == ['.'] + b + Replace(rest, ".git", "")
  {
    var s := ['.'] + b + rest;
    if |s| >= 4 {
      assert s[..4][1] == b[0];
    }
    ReplaceMismatch(s, ".git", "");
    assert s[1..] == b + rest;
    ReplaceDotFree(b, rest);
  }

  /** The shape of the web prefix: `a`, a dot that does not start `.git`, then `b` ending in `/`. */
  predicate DottedPrefix(a: string, b: string) {
    a != [] && !IsWhiteSpace(a[0]) && '.' !in a && '.' !in b && b != [] && b[0] != 'g' && b[|b| - 1] == '/'
  }

  lemma WebPrefixIsDotted()
    ensures DottedPrefix("https://github", "com/")
    ensures WebPrefix == "https://github" + ['.'] + "com/"
  {
  }

  /** `.git` cannot occur in a dotted prefix nor start inside it. */
  lemma ReplaceAfterDottedPrefix(a: string, b: string, rest: string)
    requires DottedPrefix(a, b)
    ensures Replace(a + ['.'] + b + rest, ".git", "") == a + ['.'] + b + Replace(rest, ".git", "")
  {
    var s := ['.'] + b + rest;
    assert a + ['.'] + b + rest == a + s;
    ReplaceDotFree(a, s);
    ReplaceDotThen(b, rest);
    assert a + (['.'] + b + Replace(rest, ".git", "")) == a + ['.'] + b + Replace(rest, ".git", "");
  }

  /** An optional `.git` is removed entirely. */
  lemma GitRemoved(git: bool)
    ensures Replace(Opt(git, ".git"), ".git", "") == []
  {
    if git {
      ReplaceOccurrence(".git", [], []);
      assert ".git" + [] == ".git";
    }
  }

  /** Under a dotted prefix, a dot-free path keeps all its text and loses the `.git` after it. */
  lemma GitRemovedAfterPath(a: string, b: string, t: string, git: bool)
    requires DottedPrefix(a, b) && '.' !in t
    ensures Replace(a + ['.'] + b + t + Opt(git, ".git"), ".git", "") == a + ['.'] + b + t
  {
    var pre := a + ['.'] + b;
    var g := Opt(git, ".git");
    assert pre + t + g == pre + (t + g);
    ReplaceAfterDottedPrefix(a, b, t + g);
    ReplaceDotFree(t, g);
    GitRemoved(git);
    assert pre + (t + []) == pre + t;
  }

  /** Under a dotted prefix, a dot-free path loses exactly the `.git` suffix and the slash. */
  lemma RoundTripCleaned(a: string, b: string, t: string, git: bool, slash: bool)
    requires DottedPrefix(a, b) && '.' !in t && t != [] && !IsWhiteSpace(t[|t| - 1]) && t[|t| - 1] != '/'
    ensures CleanUrl(a + ['.'] + b + t + Opt(git, ".git") + Opt(slash, "/")) == a + ['.'] + b + t
  {
    var u := a + ['.'] + b + t + Opt(git, ".git");
    assert u[0] == a[0];
    assert u[|u| - 1] == (if git then 't' else t[|t| - 1]);
    UrlTrimmed(u, slash);
    GitRemovedAfterPath(a, b, t, git);
    CleanUrlOf(u + Opt(slash, "/"), u, a + ['.'] + b + t);
  }

  /** A URL that cleans to a prefix ending in `/`, the owner, `/` and the name, names them. */
  lemma ExtractNamed(url: string, pre: string, owner: string, repo: string)
    requires pre != [] && pre[|pre| - 1] == '/' && '/' !in owner && '/' !in repo
    requires CleanUrl(url) == pre + owner + "/" + repo
    ensures ExtractRepoInfo(url) == Success((owner, repo))
  {
    var clean := pre + owner + "/" + repo;
    SplitUnderPrefix(pre, owner, repo);
    ExtractFromCleanParts(url, clean);
    var parts := Split(clean, '/');
    assert parts[|parts| - 2] == owner && parts[|parts| - 1] == repo;
  }

  lemma ExtractRoundTripUnder(a: string, b: string, owner: string, repo: string, git: bool, slash: bool)
    requires DottedPrefix(a, b) && '/' !in owner && '/' !in repo && '.' !in owner && '.' !in repo
    requires repo != [] && !IsWhiteSpace(repo[|repo| - 1])
    ensures ExtractRepoInfo(a + ['.'] + b + (owner + "/" + repo) + Opt(git, ".git") + Opt(slash, "/"))
         == Success((owner, repo))
  {
    var pre := a + ['.'] + b;
    var t := owner + "/" + repo;
    assert '.' !in t && t[|t| - 1] == repo[|repo| - 1];
    RoundTripCleaned(a, b, t, git, slash);
    assert pre + t == pre + owner + "/" + repo;
    ExtractNamed(pre + t + Opt(git, ".git") + Opt(slash, "/"), pre, owner, repo);
  }

  /**
   * The web URL of a repository, with or without `.git` and a trailing slash, names that
   * repository's owner and name, provided neither contains a dot (which is where `.git` removal
   * could bite).
   */
  lemma ExtractRoundTrip(owner: string, repo: string, git: bool, slash: bool)
    requires '/' !in owner && '/' !in repo && '.' !in owner && '.' !in repo
    requires repo != [] && !IsWhiteSpace(repo[|repo| - 1])
    ensures ExtractRepoInfo(WebPrefix + (owner + "/" + repo) + Opt(git, ".git") + Opt(slash, "/"))
         == Success((owner, repo))
  {
    WebPrefixIsDotted();
    ExtractRoundTripUnder("https://github", "com/", owner, repo, git, slash);
  }

  /** An empty segment is not rejected: `a//r` names owner "" and repository "r". */
  lemma EmptySegmentAccepted(head: string, repo: string)
    requires '/' !in head && '.' !in head && '/' !in repo && '.' !in repo
    requires head != [] && repo != [] && !IsWhiteSpace(head[0]) && !IsWhiteSpace(repo[|repo| - 1])
    ensures ExtractRepoInfo(head + "//" + repo) == Success(([], repo))
  {
    var u := head + "//" + repo;
    EmptySegmentCleaned(head, repo);
    var tail: string := [] + ['/'] + repo;
    assert tail == ['/'] + repo;
    assert u == head + ['/'] + tail;
    ExtractThreeParts(u, head, [], repo);
  }

  /** A URL that cleans to three parts without separators names the last two. */
  lemma ExtractThreeParts(url: string, a: string, b: string, c: string)
    requires '/' !in a && '/' !in b && '/' !in c
    requires CleanUrl(url) == a + ['/'] + (b + ['/'] + c)
    ensures ExtractRepoInfo(url) == Success((b, c))
  {
    SplitThree(a, b, c);
    ExtractFromCleanParts(url, CleanUrl(url));
  }

  lemma EmptySegmentCleaned(head: string, repo: string)
    requires '/' !in head && '.' !in head && '/' !in repo && '.' !in repo
    requires head != [] && repo != [] && !IsWhiteSpace(head[0]) && !IsWhiteSpace(repo[|repo| - 1])
    ensures CleanUrl(head + "//" + repo) == head + "//" + repo
  {
    var u := head + "//" + repo;
    assert u[0] == head[0] && u[|u| - 1] == repo[|repo| - 1];
    Untrimmed(u);
    assert '.' !in u;
    ReplaceDotFree(u, []);
    assert u + [] == u;
    CleanUrlOf(u, u, u);
  }

  /**
   * Slashes are trimmed before `.git` is removed, so removing `.git` can expose a trailing slash
   * that stays: `o/r/.git` names owner "r" and an empty repository.
   */
  lemma GitRemovalExposesSlash(owner: string, repo: string)
    requires '/' !in owner && '.' !in owner && '/' !in repo && '.' !in repo
    requires owner != [] && !IsWhiteSpace(owner[0])
    ensures ExtractRepoInfo(owner + "/" + repo + "/.git") == Success((repo, []))
  {
    var u := owner + "/" + repo + "/.git";
    var head := owner + "/" + repo + "/";
    ExposedSlashCleaned(owner, repo);
    assert head == owner + ['/'] + (repo + ['/'] + []);
    SplitThree(owner, repo, []);
    ExtractFromCleanParts(u, head);
  }

  lemma ExposedSlashCleaned(owner: string, repo: string)
    requires '/' !in owner && '.' !in owner && '/' !in repo && '.' !in repo
    requires owner != [] && !IsWhiteSpace(owner[0])
    ensures CleanUrl(owner + "/" + repo + "/.git") == owner + "/" + repo + "/"
  {
    var head := owner + "/" + repo + "/";
    var u := head + ".git";
    assert owner + "/" + repo + "/.git" == u;
    assert u[0] == owner[0] && u[|u| - 1] == 't';
    Untrimmed(u);
    assert '.' !in head;
    ReplaceDotFree(head, ".git");
    ReplaceOccurrence(".git", [], []);
    assert head + [] == head;
    CleanUrlOf(u, u, head);
  }

  /** Without any `/` there is no owner: `repo.git` makes the extraction fail. */
  lemma NoSlashFails(name: string)
    requires '/' !in name && '.' !in name && name != [] && !IsWhiteSpace(name[0])
    ensures ExtractRepoInfo(name + ".git") == Failure(name + ".git")
  {
    var u := name + ".git";
    assert u[0] == name[0] && u[|u| - 1] == 't';
    Untrimmed(u);
    ReplaceDotFree(name, ".git");
    ReplaceOccurrence(".git", [], []);
    assert name + [] == name;
    CleanUrlOf(u, u, name);
  }

  lemma PagesSuffixReplaced()
    ensures Replace(".github.io", ".git", "") == "hub.io"
  {
    assert ".github.io" == ".git" + ("hub" + ".io");
    ReplaceOccurrence(".git", "hub" + ".io", []);
    ReplaceDotFree("hub", ".io");
    assert Replace(".io", ".git", "") == ".io";
  }

  lemma PagesRepositoryCleaned(a: string, b: string, t: string)
    requires DottedPrefix(a, b) && '.' !in t
    ensures CleanUrl(a + ['.'] + b + t + ".github.io") == a + ['.'] + b + (t + "hub.io")
  {
    var pre := a + ['.'] + b;
    var u := pre + t + ".github.io";
    assert u[0] == a[0] && u[|u| - 1] == 'o';
    UrlTrimmed(u, false);
    assert u + Opt(false, "/") == u;
    assert u == pre + (t + ".github.io");
    ReplaceAfterDottedPrefix(a, b, t + ".github.io");
    ReplaceDotFree(t, ".github.io");
    PagesSuffixReplaced();
    CleanUrlOf(u, u, pre + (t + "hub.io"));
  }

  /**
   * As written, every `.git` is removed, not only a suffix: a repository named like a GitHub Pages
   * site, `<name>.github.io`, is read as `<name>hub.io`.
   */
  lemma PagesRepositoryMangled(owner: string, name: string)
    requires '/' !in owner && '.' !in owner && '/' !in name && '.' !in name
    ensures ExtractRepoInfo(WebPrefix + (owner + "/" + name) + ".github.io")
         == Success((owner, name + "hub.io"))
  {
    WebPrefixIsDotted();
    var pre := WebPrefix;
    var t := owner + "/" + name;
    assert '.' !in t;
    PagesRepositoryCleaned("https://github", "com/", t);
    assert '/' !in name + "hub.io";
    assert pre + (t + "hub.io") == pre + owner + "/" + (name + "hub.io");
    ExtractNamed(pre + t + ".github.io", pre, owner, name + "hub.io");
  }

  // ---------------------------------------------------------------------------------------------
  // The evidently intended cleaning: only a trailing `.git` is removed.

  function CleanUrlSuffixOnly(url: string): (clean: string)
    ensures |clean| <= |url|
    ensures var trimmed := TrimEnd(Trim(url), '/');
            if EndsWith(trimmed, ".git") then trimmed == clean + ".git" else clean == trimmed
  {
    var trimmed := TrimEnd(Trim(url), '/');
    if EndsWith(trimmed, ".git") then trimmed[..|trimmed| - 4] else trimmed
  }

  /** ExtractRepoInfo with only a `.git` suffix removed; otherwise as the original. */
  function ExtractRepoInfoSuffixOnly(url: string): (r: Result<(string, string), string>)
    ensures r.Success? <==> '/' in CleanUrlSuffixOnly(url)
    ensures r.Failure? ==> r.error == url
    ensures r.Success? ==> '/' !in r.value.0 && '/' !in r.value.1
    ensures r.Success? ==> EndsWith(CleanUrlSuffixOnly(url), r.value.0 + "/" + r.value.1)
  {
    var clean := CleanUrlSuffixOnly(url);
    var parts := Split(clean, '/');
    SplitSingleIffNoSeparator(clean, '/');
    if |parts| >= 2 then
      LastTwoParts(parts, '/');
      Success((parts[|parts| - 2], parts[|parts| - 1]))
    else
      Failure(url)
  }

  lemma ExtractSuffixOnlyFromCleanParts(url: string, clean: string)
    requires CleanUrlSuffixOnly(url) == clean && |Split(clean, '/')| >= 2
    ensures var parts := Split(clean, '/');
            ExtractRepoInfoSuffixOnly(url) == Success((parts[|parts| - 2], parts[|parts| - 1]))
  {
    var parts := Split(clean, '/');
    var owner, repo := parts[|parts| - 2], parts[|parts| - 1];
    assert Split(CleanUrlSuffixOnly(url), '/') == parts;
    assert ExtractRepoInfoSuffixOnly(url) == Success((owner, repo));
  }

  lemma ExtractSuffixOnlyNamed(url: string, pre: string, owner: string, repo: string)
    requires pre != [] && pre[|pre| - 1] == '/' && '/' !in owner && '/' !in repo
    requires CleanUrlSuffixOnly(url) == pre + owner + "/" + repo
    ensures ExtractRepoInfoSuffixOnly(url) == Success((owner, repo))
  {
    var clean := pre + owner + "/" + repo;
    SplitUnderPrefix(pre, owner, repo);
    ExtractSuffixOnlyFromCleanParts(url, clean);
    var parts := Split(clean, '/');
    assert parts[|parts| - 2] == owner && parts[|parts| - 1] == repo;
  }

  /** A name without `/` that does not end in `.git` gives a path that does not end in `.git` either. */
  lemma NoGitSuffix(head: string, repo: string)
    requires '/' !in repo && !EndsWith(repo, ".git")
    ensures !EndsWith(head + "/" + repo, ".git")
  {
    var u := head + "/" + repo;
    if |u| >= 4 {
      if |repo| >= 4 {
        assert u[|u| - 4..] == repo[|repo| - 4..];
      } else {
        assert u[|u| - 4..][3 - |repo|] == '/';
      }
    }
  }

  /** Under any prefix, only a real `.git` suffix is taken off. */
  lemma SuffixOnlyCleaned(pre: string, t: string, git: bool, slash: bool)
    requires pre != [] && !IsWhiteSpace(pre[0]) && !EndsWith(pre + t, ".git")
    requires t != [] && !IsWhiteSpace(t[|t| - 1]) && t[|t| - 1] != '/'
    ensures CleanUrlSuffixOnly(pre + t + Opt(git, ".git") + Opt(slash, "/")) == pre + t
  {
    var u := pre + t + Opt(git, ".git");
    assert u[0] == pre[0];
    assert u[|u| - 1] == (if git then 't' else t[|t| - 1]);
    UrlTrimmed(u, slash);
    if git {
      assert u[|u| - 4..] == ".git";
      assert u[..|u| - 4] == pre + t;
    } else {
      assert u == pre + t;
    }
  }

  /**
   * With only the suffix removed, the web URL of any repository, with or without `.git` and a
   * trailing slash, names that repository's owner and name, dots included.
   */
  lemma ExtractSuffixOnlyRoundTrip(owner: string, repo: string, git: bool, slash: bool)
    requires '/' !in owner && '/' !in repo && !EndsWith(repo, ".git")
    requires repo != [] && !IsWhiteSpace(repo[|repo| - 1])
    ensures ExtractRepoInfoSuffixOnly(WebPrefix + (owner + "/" + repo) + Opt(git, ".git") + Opt(slash, "/"))
         == Success((owner, repo))
  {
    var pre := WebPrefix;
    var t := owner + "/" + repo;
    assert pre[0] == 'h' && pre[|pre| - 1] == '/';
    assert t[|t| - 1] == repo[|repo| - 1];
    NoGitSuffix(pre + owner, repo);
    assert pre + owner + "/" + repo == pre + t;
    SuffixOnlyCleaned(pre, t, git, slash);
    ExtractSuffixOnlyNamed(pre + t + Opt(git, ".git") + Opt(slash, "/"), pre, owner, repo);
  }

  /** The repository that the original mangles keeps its name. */
  lemma PagesRepositoryKept(owner: string, name: string)
    requires '/' !in owner && '/' !in name
    ensures ExtractRepoInfoSuffixOnly(WebPrefix + (owner + "/" + name) + ".github.io")
         == Success((owner, name + ".github.io"))
  {
    var repo := name + ".github.io";
    assert repo[|repo| - 4..] == "b.io";
    assert repo[|repo| - 1] == 'o';
    assert '/' !in repo;
    assert WebPrefix + (owner + "/" + name) + ".github.io" == WebPrefix + (owner + "/" + repo) + Opt(false, ".git") + Opt(false, "/");
    ExtractSuffixOnlyRoundTrip(owner, repo, false, false);
  }
}

=== FILE: localization.dfy ===
/**
 * The user-interface translator `Loc` (Localization.cs): three string tables, the choice of the
 * current table from the UI culture, and `Tr`, a lookup with fallbacks followed by composite
 * formatting that never throws.
 *
 * Only the entries of the synchronisation report tables (and `Result_Error`) are kept as data;
 * the other entries are lookups of the same kind. Arguments are modelled by their `ToString()` text.
 */
module Localization {
  import opened Base
  import Text

  datatype Language = English | Russian | Ukrainian

  type Table = map<string, string>

  /** `_en`: the English table, the fallback of every other one. */
  function EnglishTable(): Table {
    map[
      "Result_Error" := "[red]Error: {0}[/]",
      "Sync_Report_Title" := "Synchronization Report",
      "Table_File" := "File",
      "Table_Status" := "Status",
      "Table_Action" := "Action",
      "Status_Synced" := "[green]Synced[/]",
      "Status_LocalNewer" := "[blue]Local Newer[/]",
      "Status_NewLocal" := "[green]New Local[/]",
      "Status_Update" := "[yellow]Update[/]",
      "Action_Pass" := "[gray]-[/]",
      "Action_WillUpload" := "[yellow]Will Upload Later[/]",
      "Action_Downloaded" := "[green]Downloaded[/]",
      "Sync_Profile_Title" := "Profile",
      "Sync_Reason_Title" := "Reasone",
      "Sync_Result_Title" := "Result",
      "Reason_NewProgress" := "[green]New Progress[/]",
      "Reason_Pending" := "[blue]Pending Sync[/]",
      "Result_Conflict" := "[red]Conflict[/]",
      "Result_RemoteNewer" := "Remote is newer now",
      "Result_Sent" := "[green]Sent[/]"
    ]
  }

  /** `_ru`: note that it has no `Action_Pass`. */
  function RussianTable(): Table {
    map[
      "Result_Error" := "Ошибка: {0}",
      "Table_File" := "Файл",
      "Table_Status" := "Статус",
      "Table_Action" := "Действие",
      "Status_Synced" := "[green]Актуальный[/]",
      "Status_LocalNewer" := "[blue]Локальный новее[/]",
      "Status_NewLocal" := "[green]Новый локальный[/]",
      "Status_Update" := "[yellow]Обновить[/]",
      "Action_WillUpload" := "[yellow]Будет отправлен[/]",
      "Action_Downloaded" := "[green]Загружен[/]",
      "Sync_Report_Title" := "Отчет синхронизации",
      "Sync_Profile_Title" := "Профиль",
      "Sync_Reason_Title" := "Причина",
      "Sync_Result_Title" := "Результат",
      "Reason_NewProgress" := "[green]Новый прогресс[/]",
      "Reason_Pending" := "[blue]Отложенная синхронизация[/]",
      "Result_Conflict" := "[red]Конфликт[/]",
      "Result_RemoteNewer" := "В облаке новее",
      "Result_Sent" := "[green]Отправлен[/]"
    ]
  }

  /** `_uk`: like the Russian table, it has no `Action_Pass`. */
  function UkrainianTable(): Table {
    map[
      "Result_Error" := "[red]Помилка: {0}[/]",
      "Table_File" := "Файл",
      "Table_Status" := "Статус",
      "Table_Action" := "Дія",
      "Status_Synced" := "[green]Актуальний[/]",
      "Status_LocalNewer" := "[blue]Локальний новіший[/]",
      "Status_NewLocal" := "[green]Новий локальний[/]",
      "Status_Update" := "[yellow]Оновити[/]",
      "Action_WillUpload" := "[yellow]Буде надіслано[/]",
      "Action_Downloaded" := "[green]Завантажено[/]",
      "Sync_Report_Title" := "Звіт синхронізації",
      "Sync_Profile_Title" := "Профіль",
      "Sync_Reason_Title" := "Причина",
      "Sync_Result_Title" := "Результат",
      "Reason_NewProgress" := "[green]Новий прогрес[/]",
      "Reason_Pending" := "[blue]Відкладена синхронізація[/]",
      "Result_Conflict" := "[red]Конфлікт[/]",
      "Result_RemoteNewer" := "У хмарі новіше",
      "Result_Sent" := "[green]Надіслано[/]"
    ]
  }

  function TableOf(lang: Language): Table {
    match lang
    case English => EnglishTable()
    case Russian => RussianTable()
    case Ukrainian => UkrainianTable()
  }

  /**
   * The static constructor's culture switch on the lower-cased two-letter ISO language name:
   * Russian for "ru" and for Belarusian "be", Ukrainian for "uk", English for every other culture.
   */
  function SelectLanguage(twoLetterName: string): (lang: Language)
    ensures lang == Russian <==> Text.ToLowerAscii(twoLetterName) in {"ru", "be"}
    ensures lang == Ukrainian <==> Text.ToLowerAscii(twoLetterName) == "uk"
    ensures lang == English <==> Text.ToLowerAscii(twoLetterName) !in {"ru", "be", "uk"}
  {
    var culture := Text.ToLowerAscii(twoLetterName);
    if culture == "ru" || culture == "be" then Russian
    else if culture == "uk" then Ukrainian
    else English
  }

  /** The culture switch ignores letter case: "RU", "Ru" and "ru" choose the same table. */
  lemma SelectLanguageIgnoresCase()
    ensures SelectLanguage("RU") == SelectLanguage("Ru") == SelectLanguage("ru") == Russian
    ensures SelectLanguage("BE") == Russian
    ensures SelectLanguage("UK") == Ukrainian
    ensures SelectLanguage("en") == SelectLanguage("") == English
  {
    assert Text.ToLowerAscii("en") == "en";
    assert Text.ToLowerAscii("") == "";
    assert Text.ToLowerAscii("RU") == "ru";
    assert Text.ToLowerAscii("Ru") == "ru";
    assert Text.ToLowerAscii("BE") == "be";
    assert Text.ToLowerAscii("UK") == "uk";
  }

  // ---------------------------------------------------------------------------------------------
  // Composite formatting: `string.Format(template, args)` for format items `{n}` and the escapes
  // `{{` and `}}`. A malformed item or an index past the arguments is a FormatException: None.

  /** The length of the run of decimal digits at the start of `s`. */
  function DigitRun(s: string): (n: nat)
    ensures n <= |s|
    ensures forall k :: 0 <= k < n ==> '0' <= s[k] <= '9'
    ensures n < |s| ==> !('0' <= s[n] <= '9')
    decreases |s|
  {
    if s != [] && '0' <= s[0] <= '9' then 1 + DigitRun(s[1..]) else 0
  }

  function Prepend(s: string, rest: Option<string>): (r: Option<string>)
    ensures r.Some? <==> rest.Some?
    ensures r.Some? ==> r.value == s + rest.value
  {
    match rest
    case None => None
    case Some(t) => Some(s + t)
  }

  /** A template neither of whose characters is a brace. */
  predicate BraceFree(s: string) {
    '{' !in s && '}' !in s
  }

  function Format(template: string, args: seq<string>): (r: Option<string>)
    decreases |template|
  {
    if template == [] then Some("")
    else if template[0] == '{' then
      if |template| >= 2 && template[1] == '{' then Prepend("{", Format(template[2..], args))
      else
        var n := DigitRun(template[1..]);
        if n == 0 || 1 + n == |template| || template[1 + n] != '}' then None
        else
          var index := Text.DigitsValue(template[1..1 + n]);
          if index < |args| then Prepend(args[index], Format(template[2 + n..], args)) else None
    else if template[0] == '}' then
      if |template| >= 2 && template[1] == '}' then Prepend("}", Format(template[2..], args)) else None
    else Prepend([template[0]], Format(template[1..], args))
  }

  /** Text without braces is copied through formatting unchanged, in front of whatever follows. */
  lemma {:induction false} FormatBraceFreePrefix(p: string, rest: string, args: seq<string>)
    requires BraceFree(p)
    ensures Format(p + rest, args) == Prepend(p, Format(rest, args))
    decreases |p|
  {
    if p != [] {
      assert p[0] in p;
      assert BraceFree(p[1..]) by {
        assert forall c :: c in p[1..] ==> c in p;
      }
      var t := p + rest;
      assert t[0] == p[0] && t[1..] == p[1..] + rest;
      assert Format(t, args) == Prepend([p[0]], Format(p[1..] + rest, args));
      FormatBraceFreePrefix(p[1..], rest, args);
      if Format(rest, args).Some? {
        var r := Format(rest, args).value;
        assert [p[0]] + (p[1..] + r) == p + r;
      }
    } else {
      assert p + rest == rest;
      if Format(rest, args).Some? {
        assert p + Format(rest, args).value == Format(rest, args).value;
      }
    }
  }

  /** A template without braces formats to itself, whatever the arguments. */
  lemma FormatBraceFree(t: string, args: seq<string>)
    requires BraceFree(t)
    ensures Format(t, args) == Some(t)
  {
    FormatBraceFreePrefix(t, "", args);
    assert t + "" == t;
  }

  /**
   * A one-digit format item `{i}` is replaced by argument `i` when there is one; when there is
   * not, the whole format fails.
   */
  lemma FormatItem(i: nat, rest: string, args: seq<string>)
    requires i < 10
    ensures i < |args| ==> Format(['{', ('0' as int + i) as char, '}'] + rest, args) == Prepend(args[i], Format(rest, args))
    ensures i >= |args| ==> Format(['{', ('0' as int + i) as char, '}'] + rest, args) == None
  {
    var t := ['{', ('0' as int + i) as char, '}'] + rest;
    assert t[1..][0] == t[1];
    assert DigitRun(t[1..][1..]) == 0;
    assert DigitRun(t[1..]) == 1;
    assert t[1..2] == [t[1]];
    assert Text.DigitsValue(t[1..2]) == i by {
      assert [t[1]][..0] == [];
    }
    assert t[3..] == rest;
  }

  /** `{{` and `}}` stand for a single brace; a lone brace is malformed. */
  lemma FormatEscapes(args: seq<string>)
    ensures Format("{{", args) == Some("{")
    ensures Format("}}", args) == Some("}")
    ensures Format("{", args) == None
    ensures Format("}", args) == None
  {
    var open, close := "{{", "}}";
    assert open[0] == '{' == open[1] && open[2..] == [];
    assert close[0] == '}' == close[1] && close[2..] == [];
    assert Format([], args) == Some([]);
    assert Format(open, args) == Prepend("{", Format([], args));
    assert Format(close, args) == Prepend("}", Format([], args));
    assert "{" + [] == "{" && "}" + [] == "}";
  }

  // ---------------------------------------------------------------------------------------------

  /**
   * The translator: `current` is `_currentStrings`, fixed by the static constructor and only read
   * afterwards, which a value of this immutable datatype is; `english` is `_en`.
   */
  datatype Translator = Translator(current: Table, english: Table)
  {
    /** The template of a key: the current table's entry, else the English entry, else the key itself. */
    function Template(key: string): (t: string)
      ensures key in current ==> t == current[key]
      ensures key !in current && key in english ==> t == english[key]
      ensures key !in current && key !in english ==> t == key
    {
      if key in current then current[key]
      else if key in english then english[key]
      else key
    }

    /**
     * `Loc.Tr`: the template itself when no arguments are given; otherwise the formatted template,
     * or the unformatted template when formatting fails.
     */
    function Tr(key: string, args: seq<string>): string
    {
      if |args| == 0 then Template(key)
      else
        match Format(Template(key), args)
        case Some(s) => s
        case None => Template(key)
    }
  }

  /** The static constructor: the table of the selected language, with English behind it. */
  function StaticInit(twoLetterName: string): (loc: Translator)
    ensures loc.current == TableOf(SelectLanguage(twoLetterName))
    ensures loc.english == EnglishTable()
  {
    Translator(TableOf(SelectLanguage(twoLetterName)), EnglishTable())
  }

  /**
   * Tr never fails: it returns the template when there are no arguments (placeholders included),
   * the formatted text when formatting succeeds, and the template again when it does not; a
   * template without braces comes back unchanged whatever the arguments.
   */
  lemma TrOutcome(loc: Translator, key: string, args: seq<string>)
    ensures args == [] ==> loc.Tr(key, args) == loc.Template(key)
    ensures args != [] && Format(loc.Template(key), args).Some? ==> loc.Tr(key, args) == Format(loc.Template(key), args).value
    ensures args != [] && Format(loc.Template(key), args).None? ==> loc.Tr(key, args) == loc.Template(key)
    ensures BraceFree(loc.Template(key)) ==> loc.Tr(key, args) == loc.Template(key)
  {
    if BraceFree(loc.Template(key)) {
      FormatBraceFree(loc.Template(key), args);
    }
  }

  /** A key that neither the current nor the English table has is shown as the key itself. */
  lemma UnknownKeyShowsItself(loc: Translator, key: string, args: seq<string>)
    requires key !in loc.current && key !in loc.english && BraceFree(key)
    ensures loc.Tr(key, args) == key
  {
    TrOutcome(loc, key, args);
  }

  /** A template with one item `{0}` shows the argument in its place. */
  lemma TrFillsItem(loc: Translator, key: string, p: string, s: string, arg: string)
    requires BraceFree(p) && BraceFree(s)
    requires loc.Template(key) == p + "{0}" + s
    ensures loc.Tr(key, [arg]) == p + arg + s
  {
    var item := ['{', '0', '}'] + s;
    assert loc.Template(key) == p + item;
    FormatItem(0, s, [arg]);
    FormatBraceFree(s, [arg]);
    assert Format(item, [arg]) == Some(arg + s);
    FormatBraceFreePrefix(p, item, [arg]);
    assert p + (arg + s) == p + arg + s;
    TrOutcome(loc, key, [arg]);
  }

  /** A template with items `{0}` and `{1}` given one argument fails to format: the raw template is shown. */
  lemma TrMissingArgument(loc: Translator, key: string, p: string, q: string, s: string, arg: string)
    requires BraceFree(p) && BraceFree(q) && BraceFree(s)
    requires loc.Template(key) == p + "{0}" + q + "{1}" + s
    ensures loc.Tr(key, [arg]) == loc.Template(key)
  {
    var rest := q + (['{', '1', '}'] + s);
    assert p + "{0}" + q + "{1}" + s == p + (['{', '0', '}'] + rest);
    FormatItem(1, s, [arg]);
    FormatBraceFreePrefix(q, ['{', '1', '}'] + s, [arg]);
    FormatItem(0, rest, [arg]);
    FormatBraceFreePrefix(p, ['{', '0', '}'] + rest, [arg]);
  }

  lemma RussianLacksActionPass()
    ensures "Action_Pass" !in RussianTable()
  {
  }

  lemma UkrainianLacksActionPass()
    ensures "Action_Pass" !in UkrainianTable()
  {
  }

  /** `Action_Pass`, which the Russian and Ukrainian tables lack, shows the English text in every culture. */
  lemma ActionPassFallsBackToEnglish(twoLetterName: string)
    ensures StaticInit(twoLetterName).Tr("Action_Pass", []) == "[gray]-[/]"
  {
    RussianLacksActionPass();
    UkrainianLacksActionPass();
  }
}

=== FILE: profile_sync.dfy ===
/**
 * The synchronisation engine (ProfileSync.cs) as a class over the file system of file_manager.dfy:
 * the pending-upload set, the session-start snapshot and the backups it keeps are fields its methods
 * update, and each pass is a loop proved equal to the fold of sync_rules.dfy that specifies it.
 * The local profiles are the files directly inside the configured profile directory.
 */
module ProfileSync {
  import opened Base
  import opened Fingerprint
  import opened FileManager
  import opened SyncRules

  /** The files directly inside `dir`, by name. */
  function ProfilesIn(files: map<Path, Bytes>, dir: Path): map<string, Bytes> {
    assert forall p :: IsChild(p, dir) ==> p == dir + [p[|dir|]];
    map p | p in files && IsChild(p, dir) :: p[|dir|] := files[p]
  }

  /** The profile named `n` is the file `dir + [n]`. */
  lemma ProfilesInAt(files: map<Path, Bytes>, dir: Path, n: string)
    ensures n in ProfilesIn(files, dir) <==> dir + [n] in files
    ensures n in ProfilesIn(files, dir) ==> ProfilesIn(files, dir)[n] == files[dir + [n]]
  {
    var p := dir + [n];
    assert IsChild(p, dir) && p[|dir|] == n;
    forall q | q in files && IsChild(q, dir) && q[|dir|] == n ensures q == p {
      assert q == q[..|dir|] + [q[|dir|]];
    }
  }

  /** Two file systems that agree on every entry directly inside `dir` have the same profiles. */
  lemma ProfilesInAgree(f1: map<Path, Bytes>, f2: map<Path, Bytes>, dir: Path)
    requires forall p :: IsChild(p, dir) ==> (p in f1 <==> p in f2) && (p in f1 ==> f1[p] == f2[p])
    ensures ProfilesIn(f1, dir) == ProfilesIn(f2, dir)
  {
    forall n ensures (n in ProfilesIn(f1, dir) <==> n in ProfilesIn(f2, dir))
      && (n in ProfilesIn(f1, dir) ==> ProfilesIn(f1, dir)[n] == ProfilesIn(f2, dir)[n])
    {
      ProfilesInAt(f1, dir, n);
      ProfilesInAt(f2, dir, n);
      assert IsChild(dir + [n], dir);
    }
  }

  /** Writing the file `dir + [n]` writes the profile `n`. */
  lemma ProfilesInWrite(files: map<Path, Bytes>, dir: Path, n: string, content: Bytes)
    ensures ProfilesIn(files[dir + [n] := content], dir) == ProfilesIn(files, dir)[n := content]
  {
    var files' := files[dir + [n] := content];
    forall m ensures (m in ProfilesIn(files', dir) <==> m in ProfilesIn(files, dir)[n := content])
      && (m in ProfilesIn(files', dir) ==> ProfilesIn(files', dir)[m] == ProfilesIn(files, dir)[n := content][m])
    {
      ProfilesInAt(files', dir, m);
      ProfilesInAt(files, dir, m);
      if m != n {
        assert (dir + [m])[|dir|] != (dir + [n])[|dir|];
      }
    }
  }

  /**
   * `Directory.GetFiles(dir, "*.json")`: the names of the `*.json` files directly inside `dir`, each
   * once, in listing order (not known, so any order).
   */
  method ListJsonFiles(fs: FileSystem, dir: Path) returns (names: seq<string>)
    ensures IsListingOf(names, JsonNames(ProfilesIn(fs.files, dir)))
  {
    names := [];
    var rest := set p | p in fs.files && IsChild(p, dir) && IsJsonName(p[|dir|]);
    ghost var all := rest;
    while rest != {}
      invariant rest <= all
      invariant forall n :: n in names <==> dir + [n] in all && dir + [n] !in rest
      invariant forall i, j :: 0 <= i < j < |names| ==> names[i] != names[j]
      decreases rest
    {
      var p :| p in rest;
      assert p == dir + [p[|dir|]];
      names := names + [p[|dir|]];
      rest := rest - {p};
    }
    forall n ensures n in names <==> n in JsonNames(ProfilesIn(fs.files, dir)) {
      ProfilesInAt(fs.files, dir, n);
      assert IsChild(dir + [n], dir) && (dir + [n])[|dir|] == n;
    }
  }

  /**
   * The files the extraction of the download starts from: the archive saved as `temp/repo.zip` once
   * `temp` exists, with `temp/extracted` cleared, but for its `locked` files, when it is a directory.
   */
  function ExtractionBase(files: map<Path, Bytes>, dirs: set<Path>, temp: Path, zip: Bytes, locked: set<Path>): map<Path, Bytes> {
    Cleared(files[temp + ["repo.zip"] := zip], dirs + Prefixes(temp), temp + ["extracted"], locked)
  }

  /**
   * Where the content directory of the extraction may lie: any top-level directory of `temp/extracted`
   * after the extraction, the left-over ones and the archive's, or `temp/extracted` when there is none.
   */
  function ContentDirs(files: map<Path, Bytes>, dirs: set<Path>, temp: Path, zip: Bytes, locked: set<Path>, a: Archive): set<Path> {
    ZipRoots(temp + ["extracted"], ExtractedSubdirs(files[temp + ["repo.zip"] := zip], dirs + Prefixes(temp), temp + ["extracted"], locked, a))
  }

  /**
   * A repository archive with a single top-level folder `name` (the shape of a repository download),
   * extracted where nothing below `temp/extracted` is locked or left dangling, has
   * `temp/extracted/name` as its only possible content directory.
   */
  lemma SingleFolderContent(files: map<Path, Bytes>, dirs: set<Path>, temp: Path, zip: Bytes, locked: set<Path>,
                            a: Archive, name: string)
    requires TopLevel(ArchiveDirs(a)) == {[name]}
    requires forall p :: p in files && IsBelow(p, temp + ["extracted"]) ==> p !in locked && temp + ["extracted"] in dirs
    requires forall d :: d in dirs && IsBelow(d, temp + ["extracted"]) ==> temp + ["extracted"] in dirs
    ensures ContentDirs(files, dirs, temp, zip, locked, a) == {temp + ["extracted", name]}
  {
    var extracted := temp + ["extracted"];
    var files', dirs' := files[temp + ["repo.zip"] := zip], dirs + Prefixes(temp);
    assert !IsBelow(temp + ["repo.zip"], extracted) by {
      assert (temp + ["repo.zip"])[|temp|] != extracted[|temp|];
    }
    FreshExtraction(files', dirs', extracted, locked, a);
    SingleTopFolder(extracted, a, name);
    assert extracted + [name] == temp + ["extracted", name];
  }

  /**
   * Every file below `temp/extracted` after the extraction that the clearing could have removed, and so
   * every such remote profile, is an entry of the downloaded archive with its content.
   */
  lemma ExtractedFromArchive(files: map<Path, Bytes>, dirs: set<Path>, temp: Path, zip: Bytes, locked: set<Path>,
                             a: Archive, p: Path)
    requires temp + ["extracted"] in dirs + Prefixes(temp)
    requires p in Overlay(ExtractionBase(files, dirs, temp, zip, locked), temp + ["extracted"], a.files)
    requires IsBelow(p, temp + ["extracted"]) && p !in locked
    ensures p[|temp| + 1..] in a.files
    ensures Overlay(ExtractionBase(files, dirs, temp, zip, locked), temp + ["extracted"], a.files)[p] == a.files[p[|temp| + 1..]]
  {
    ClearedOverlayBelow(files[temp + ["repo.zip"] := zip], dirs + Prefixes(temp), temp + ["extracted"], locked, a.files, p);
  }

  /** The paths of the remote files. */
  function RemotePaths(remote: seq<RemoteFile>): set<Path> {
    set f | f in remote :: f.path
  }

  /** The remote files the startup pass reads: each listed path with the content it has. */
  function RemoteFilesOf(files: map<Path, Bytes>, paths: seq<Path>): (r: seq<RemoteFile>)
    requires forall k :: 0 <= k < |paths| ==> paths[k] != [] && paths[k] in files
    ensures |r| == |paths|
    ensures forall k :: 0 <= k < |paths| ==> r[k].path == paths[k] && r[k].content == files[paths[k]]
  {
    seq(|paths|, k requires 0 <= k < |paths| => RemoteFile(paths[k], files[paths[k]]))
  }

  /**
   * `remote` is exactly the `*.json` files at any depth below `root` in `files`, each with its content.
   */
  ghost predicate ListsProfilesBelow(files: map<Path, Bytes>, root: Path, remote: seq<RemoteFile>) {
    && (forall f :: f in remote ==> f.path in files && f.content == files[f.path])
    && (forall p :: p in files && IsBelow(p, root) && IsJsonName(FileName(p)) <==> p in RemotePaths(remote))
  }

  /** Reading distinct `*.json` paths gives distinct remote files with `*.json` names. */
  lemma RemoteFilesOfNames(files: map<Path, Bytes>, paths: seq<Path>)
    requires forall k :: 0 <= k < |paths| ==> paths[k] != [] && paths[k] in files && IsJsonName(FileName(paths[k]))
    requires forall i, j :: 0 <= i < j < |paths| ==> paths[i] != paths[j]
    ensures forall f :: f in RemoteFilesOf(files, paths) ==> IsJsonName(BaseName(f))
    ensures forall i, j :: 0 <= i < j < |paths| ==> RemoteFilesOf(files, paths)[i].path != RemoteFilesOf(files, paths)[j].path
  {
  }

  /** Reading the files a directory search listed gives the files below the searched directory. */
  lemma RemoteFilesOfListing(files: map<Path, Bytes>, root: Path, paths: seq<Path>)
    requires forall p :: p in paths <==> p in files && IsBelow(p, root) && IsJsonName(FileName(p))
    ensures forall k :: 0 <= k < |paths| ==> paths[k] != [] && paths[k] in files
    ensures ListsProfilesBelow(files, root, RemoteFilesOf(files, paths))
  {
    assert forall k :: 0 <= k < |paths| ==> paths[k] in paths;
    var remote := RemoteFilesOf(files, paths);
    forall p ensures p in RemotePaths(remote) <==> p in paths {
      if p in paths {
        var k :| 0 <= k < |paths| && paths[k] == p;
        assert remote[k] in remote;
      }
    }
  }

  class ProfileSync {
    const fs: FileSystem
    const fp: Fingerprinter
    /** The application directory; `temp` and `backups` live inside it. */
    const baseDir: Path
    /** The game's profile directory (Config.GameProfilesPath). */
    const profilesDir: Path
    /** Names whose local copy must be uploaded at shutdown once the remote is checked. */
    var pendingUploads: set<string>
    /** The timestamp of every local profile when the game was launched. */
    var sessionStartTimestamps: map<string, int64>
    /** What CreateBackup has saved below `baseDir/backups`, oldest first. */
    var backups: seq<Backup>

    constructor(fs: FileSystem, fp: Fingerprinter, baseDir: Path, profilesDir: Path)
      ensures this.fs == fs && this.fp == fp && this.baseDir == baseDir && this.profilesDir == profilesDir
      ensures pendingUploads == {} && sessionStartTimestamps == map[] && backups == []
    {
      this.fs := fs;
      this.fp := fp;
      this.baseDir := baseDir;
      this.profilesDir := profilesDir;
      pendingUploads := {};
      sessionStartTimestamps := map[];
      backups := [];
    }

    /** The local profiles. */
    function Profiles(): map<string, Bytes>
      reads fs
    {
      ProfilesIn(fs.files, profilesDir)
    }

    /**
     * ApplyUpdate with CreateBackup (ProfileSync.cs:197-211, 255-265): an existing local file is
     * backed up first, a failed backup is ignored, then the remote file is copied over the local one;
     * a failed copy changes nothing.
     */
    method ApplyUpdate(source: FilePath, name: string, faults: WriteFaults)
      requires source in fs.files
      modifies this, fs
      ensures var dest := profilesDir + [name];
        backups == old(backups) + (if dest in old(fs.files) && source !in faults.backupFails then [Backup(name, old(fs.files)[dest])] else [])
      ensures var dest := profilesDir + [name];
        fs.files == if source in faults.copyFails then old(fs.files) else old(fs.files)[dest := old(fs.files)[source]]
      ensures fs.dirs == old(fs.dirs)
      ensures pendingUploads == old(pendingUploads) && sessionStartTimestamps == old(sessionStartTimestamps)
    {
      var dest := profilesDir + [name];
      if dest in fs.files && source !in faults.backupFails {
        backups := backups + [Backup(name, fs.files[dest])];
      }
      if source !in faults.copyFails {
        fs.files := fs.files[dest := fs.files[source]];
      }
    }

    /**
     * One remote file of the startup pass (ProfileSync.cs:145-179): reads the remote and the local
     * copy, compares their hashes and then their timestamps, and marks the name pending or applies the
     * update. `s` is the pass's state so far; the profiles, the pending set and the backups end as
     * `StartupStep` says, and `status` is the row it appends.
     */
    method ProcessRemoteFile(remotePath: FilePath, faults: WriteFaults, ghost s: StartupState)
      returns (name: string, status: StartupStatus)
      requires remotePath in fs.files && !IsChild(remotePath, profilesDir)
      requires s.profiles == Profiles() && s.pending == pendingUploads && s.backups == backups
      modifies this, fs
      ensures var r := StartupStep(fp, s, RemoteFile(remotePath, old(fs.files)[remotePath]), faults);
        && name == FileName(remotePath)
        && Profiles() == r.profiles && pendingUploads == r.pending && backups == r.backups
        && r.rows == s.rows + [StartupRow(name, status)] && r.processed == s.processed + {name}
        && r.updated == if status == Updated then s.updated + 1 else s.updated
      ensures forall p :: !IsChild(p, profilesDir) ==> (p in fs.files <==> p in old(fs.files)) && (p in fs.files ==> fs.files[p] == old(fs.files)[p])
      ensures fs.dirs == old(fs.dirs) && sessionStartTimestamps == old(sessionStartTimestamps)
    {
      name := FileName(remotePath);
      var localPath := profilesDir + [name];
      var remoteContent := fs.files[remotePath];
      var remoteTs := GetTimestamp(fp, remoteContent);
      var localFile: Option<Bytes> := if localPath in fs.files then Some(fs.files[localPath]) else None;
      var localTs := TimestampOf(fp, localFile);
      var localHash := GetFileHash(fp, localFile);
      var remoteHash := GetFileHash(fp, Some(remoteContent));
      ProfilesInAt(fs.files, profilesDir, name);
      assert localFile == Lookup(s.profiles, name);
      ClassifyAsInSource(fp, localFile, remoteContent);
      if localHash == remoteHash {
        status := Synced;
      } else if localTs > remoteTs {
        pendingUploads := pendingUploads + {name};
        status := LocalNewer;
      } else {
        ghost var before := fs.files;
        ApplyUpdate(remotePath, name, faults);
        if remotePath !in faults.copyFails {
          ProfilesInWrite(before, profilesDir, name, remoteContent);
        }
        status := Updated;
      }
    }

    /**
     * The loop over the remote files (ProfileSync.cs:143-180), in the given order, from the state
     * `start`: the profiles, the pending set and the backups end as `RemotePass` says, and
     * `processed`, `rows` and `updated` are its own.
     */
    method ProcessRemoteFiles(remoteFiles: seq<Path>, faults: WriteFaults, ghost start: StartupState)
      returns (processed: set<string>, rows: seq<StartupRow>, updated: nat)
      requires forall k :: 0 <= k < |remoteFiles| ==> remoteFiles[k] != [] && remoteFiles[k] in fs.files
      requires forall k :: 0 <= k < |remoteFiles| ==> !IsChild(remoteFiles[k], profilesDir)
      requires start == StartupStart(Profiles(), pendingUploads, backups)
      modifies this, fs
      ensures var r := RemotePass(fp, start, RemoteFilesOf(old(fs.files), remoteFiles), faults);
        Profiles() == r.profiles && pendingUploads == r.pending && backups == r.backups
        && processed == r.processed && rows == r.rows && updated == r.updated
      ensures forall p :: !IsChild(p, profilesDir) ==> (p in fs.files <==> p in old(fs.files)) && (p in fs.files ==> fs.files[p] == old(fs.files)[p])
      ensures fs.dirs == old(fs.dirs) && sessionStartTimestamps == old(sessionStartTimestamps)
    {
      ghost var files0 := fs.files;
      ghost var remote := RemoteFilesOf(fs.files, remoteFiles);
      processed, rows, updated := {}, [], 0;
      for i := 0 to |remoteFiles|
        invariant var s := RemotePass(fp, start, remote[..i], faults);
          Profiles() == s.profiles && pendingUploads == s.pending && backups == s.backups
          && processed == s.processed && rows == s.rows && updated == s.updated
        invariant forall p :: !IsChild(p, profilesDir) ==> (p in fs.files <==> p in files0) && (p in fs.files ==> fs.files[p] == files0[p])
        invariant fs.dirs == old(fs.dirs) && sessionStartTimestamps == old(sessionStartTimestamps)
      {
        ghost var s := RemotePass(fp, start, remote[..i], faults);
        RemotePassSnoc(fp, start, remote, faults, i);
        assert remote[i] == RemoteFile(remoteFiles[i], fs.files[remoteFiles[i]]);
        var name, status := ProcessRemoteFile(remoteFiles[i], faults, s);
        processed := processed + {name};
        rows := rows + [StartupRow(name, status)];
        if status == Updated {
          updated := updated + 1;
        }
      }
      assert remote[..|remoteFiles|] == remote;
    }

    /**
     * The loop over the local listing (ProfileSync.cs:182-191): every listed name the remote loop did
     * not process becomes pending with a NewLocal row, as `LocalPass` from `s` says.
     */
    method MarkNewLocalFiles(listing: seq<string>, processed: set<string>, rows: seq<StartupRow>, ghost s: StartupState)
      returns (rows': seq<StartupRow>)
      requires s.pending == pendingUploads && s.processed == processed && s.rows == rows
      modifies this
      ensures pendingUploads == LocalPass(s, listing).pending && rows' == LocalPass(s, listing).rows
      ensures backups == old(backups) && sessionStartTimestamps == old(sessionStartTimestamps)
    {
      rows' := rows;
      for j := 0 to |listing|
        invariant var r := LocalPass(s, listing[..j]);
          pendingUploads == r.pending && rows' == r.rows && r.processed == processed
        invariant backups == old(backups) && sessionStartTimestamps == old(sessionStartTimestamps)
      {
        assert listing[..j + 1][..j] == listing[..j];
        var name := listing[j];
        if name !in processed {
          pendingUploads := pendingUploads + {name};
          rows' := rows' + [StartupRow(name, NewLocal)];
        }
      }
      assert listing[..|listing|] == listing;
    }

    /**
     * ProcessDownloadedFiles (ProfileSync.cs:134-195): creates the profile directory when missing, then
     * runs the startup pass over the remote files in the given order and over the local listing. The
     * profiles, the pending set and the backups end as the fold `Startup` says, the rows and the
     * `updated` counter are its report, and no file other than a profile is written.
     */
    method ProcessDownloadedFiles(remoteFiles: seq<Path>, faults: WriteFaults)
      returns (rows: seq<StartupRow>, updated: nat, listing: seq<string>)
      requires forall k :: 0 <= k < |remoteFiles| ==> remoteFiles[k] != [] && remoteFiles[k] in fs.files
      requires forall k :: 0 <= k < |remoteFiles| ==> !IsChild(remoteFiles[k], profilesDir)
      modifies this, fs
      ensures var r := Startup(fp, StartupStart(old(Profiles()), old(pendingUploads), old(backups)),
                               RemoteFilesOf(old(fs.files), remoteFiles), faults, listing);
        Profiles() == r.profiles && pendingUploads == r.pending && backups == r.backups
        && rows == r.rows && updated == r.updated
      ensures IsListingOf(listing, JsonNames(Profiles()))
      ensures forall p :: !IsChild(p, profilesDir) ==> (p in fs.files <==> p in old(fs.files)) && (p in fs.files ==> fs.files[p] == old(fs.files)[p])
      ensures fs.dirs == if profilesDir in old(fs.dirs) then old(fs.dirs) else old(fs.dirs) + Prefixes(profilesDir)
      ensures sessionStartTimestamps == old(sessionStartTimestamps)
    {
      if profilesDir !in fs.dirs {
        fs.CreateDirectory(profilesDir);
      }
      ghost var start := StartupStart(Profiles(), pendingUploads, backups);
      var processed;
      processed, rows, updated := ProcessRemoteFiles(remoteFiles, faults, start);
      ghost var afterRemote := RemotePass(fp, start, RemoteFilesOf(old(fs.files), remoteFiles), faults);
      listing := ListJsonFiles(fs, profilesDir);
      rows := MarkNewLocalFiles(listing, processed, rows, afterRemote);
      LocalPassEffect(afterRemote, listing);
    }

    /**
     * CaptureSessionStartSnapshot (ProfileSync.cs:53-62): the snapshot is replaced by the timestamps
     * of the local `*.json` files, or emptied when the profile directory does not exist.
     */
    method CaptureSessionStartSnapshot()
      modifies this
      ensures sessionStartTimestamps == SessionSnapshot(fp, profilesDir in fs.dirs, Profiles())
      ensures pendingUploads == old(pendingUploads) && backups == old(backups)
    {
      sessionStartTimestamps := map[];
      if profilesDir !in fs.dirs {
        return;
      }
      var names := ListJsonFiles(fs, profilesDir);
      ghost var profiles := Profiles();
      for i := 0 to |names|
        invariant forall n :: n in sessionStartTimestamps <==> n in names[..i]
        invariant forall n :: n in sessionStartTimestamps ==> n in profiles && sessionStartTimestamps[n] == GetTimestamp(fp, profiles[n])
        invariant pendingUploads == old(pendingUploads) && backups == old(backups)
      {
        var name := names[i];
        assert names[..i + 1] == names[..i] + [name];
        assert name in names;
        ProfilesInAt(fs.files, profilesDir, name);
        var content := fs.files[profilesDir + [name]];
        sessionStartTimestamps := sessionStartTimestamps[name := GetTimestamp(fp, content)];
      }
      assert names[..|names|] == names;
      ghost var expected := SessionSnapshot(fp, true, profiles);
      forall n ensures (n in sessionStartTimestamps <==> n in expected)
        && (n in expected ==> sessionStartTimestamps[n] == expected[n])
      {
        assert n in names <==> n in JsonNames(profiles);
      }
      assert sessionStartTimestamps == expected;
    }

    /**
     * IsSafeToUploadPending (ProfileSync.cs:213-234): reads `profiles/<name>` from the remote store
     * and applies the rule of SyncRules.IsSafeToUploadPending to what it returns.
     */
    method IsSafeToUploadPending(store: RemoteStore, fileName: string, localTs: int64) returns (safe: bool)
      ensures safe <==> store.readRaw(RemotePath(fileName)).None?
                        || localTs > GetTimestamp(fp, store.readRaw(RemotePath(fileName)).value)
    {
      var remoteBytes := store.readRaw(RemotePath(fileName));
      safe := SyncRules.IsSafeToUploadPending(fp, remoteBytes, localTs);
    }

    /**
     * PerformShutdownSync (ProfileSync.cs:65-132): nothing when the profile directory does not exist;
     * otherwise the shutdown pass over the local listing, which changes no local state. The rows, the
     * remote I/O in order, `sentCount` and `hasActivity` are those of the fold `ShutdownPass`.
     */
    method PerformShutdownSync(store: RemoteStore) returns (dirFound: bool, log: ShutdownLog, listing: seq<string>)
      ensures dirFound == (profilesDir in fs.dirs)
      ensures !dirFound ==> log == ShutdownLog([], [], 0, false) && listing == []
      ensures dirFound ==> IsListingOf(listing, JsonNames(Profiles()))
      ensures forall n :: n in listing ==> n in Profiles()
      ensures log == ShutdownPass(fp, store, Profiles(), sessionStartTimestamps, pendingUploads, listing)
    {
      log, listing := ShutdownLog([], [], 0, false), [];
      dirFound := profilesDir in fs.dirs;
      if !dirFound {
        return;
      }
      listing := ListJsonFiles(fs, profilesDir);
      ghost var profiles := Profiles();
      assert forall n :: n in listing ==> n in profiles;
      for i := 0 to |listing|
        invariant log == ShutdownPass(fp, store, Profiles(), sessionStartTimestamps, pendingUploads, listing[..i])
      {
        assert listing[..i + 1][..i] == listing[..i];
        log := ShutdownFile(store, listing[i], log);
      }
      assert listing[..|listing|] == listing;
    }

    /** One file of the shutdown loop (ProfileSync.cs:84-127), as `ShutdownStep` says. */
    method ShutdownFile(store: RemoteStore, fileName: string, log0: ShutdownLog) returns (log: ShutdownLog)
      requires fileName in Profiles()
      ensures log == ShutdownStep(fp, store, Profiles(), sessionStartTimestamps, pendingUploads, log0, fileName)
    {
      log := log0;
      ProfilesInAt(fs.files, profilesDir, fileName);
      var content := fs.files[profilesDir + [fileName]];
      var currentTs := GetTimestamp(fp, content);
      var startTs := if fileName in sessionStartTimestamps then sessionStartTimestamps[fileName] else 0;
      var shouldUpload, reason := false, NewProgress;
      if currentTs > startTs {
        shouldUpload := true;
      } else if fileName in pendingUploads {
        log := log.(io := log.io + [ReadRaw(RemotePath(fileName))]);
        var safe := IsSafeToUploadPending(store, fileName, currentTs);
        if safe {
          shouldUpload, reason := true, PendingSync;
        } else {
          log := log.(rows := log.rows + [ShutdownRow(fileName, ConflictRemoteNewer)]);
          return;
        }
      }
      if shouldUpload {
        var repoPath := RemotePath(fileName);
        var accepted := store.accepts(repoPath, content);
        log := log.(hasActivity := true, io := log.io + [Upload(repoPath, content)]);
        if accepted {
          log := log.(rows := log.rows + [ShutdownRow(fileName, Sent(reason))], sent := log.sent + 1);
        } else {
          log := log.(rows := log.rows + [ShutdownRow(fileName, Failed(reason))]);
        }
      }
    }

    /**
     * The download's file and the extraction (ProfileSync.cs:25-33): the archive is saved as
     * `temp/repo.zip` and extracted to `temp/extracted`; the content directory, or None when the
     * extraction fails. Nothing outside `temp` changes.
     */
    method ExtractDownload(temp: Path, zip: Bytes, archive: Option<Archive>, extractLocked: set<Path>)
      returns (contentDir: Option<Path>)
      modifies fs
      ensures contentDir.Some? <==>
        archive.Some? && Fits(ExtractionBase(old(fs.files), old(fs.dirs), temp, zip, extractLocked), temp + ["extracted"], archive.value.files)
      ensures contentDir.Some? ==>
        archive.Some? && fs.files == Overlay(ExtractionBase(old(fs.files), old(fs.dirs), temp, zip, extractLocked), temp + ["extracted"], archive.value.files)
      ensures contentDir.Some? ==> contentDir.value in fs.dirs && IsAtOrBelow(contentDir.value, temp + ["extracted"])
      ensures contentDir.Some? ==> archive.Some? && contentDir.value in ContentDirs(old(fs.files), old(fs.dirs), temp, zip, extractLocked, archive.value)
      ensures forall p :: !IsAtOrBelow(p, temp) ==> (p in fs.files <==> p in old(fs.files)) && (p in fs.files ==> fs.files[p] == old(fs.files)[p])
      ensures temp in fs.dirs
    {
      var tempZip := temp + ["repo.zip"];
      var extractPath := temp + ["extracted"];
      fs.CreateDirectory(temp);
      fs.files := fs.files[tempZip := zip];
      contentDir := fs.ExtractZip(extractPath, archive, extractLocked);
      forall p | !IsAtOrBelow(p, temp) ensures (p in fs.files <==> p in old(fs.files)) && (p in fs.files ==> fs.files[p] == old(fs.files)[p]) {
        assert p != tempZip;
        if IsAtOrBelow(p, extractPath) {
          AtOrBelowTrans(p, extractPath, temp);
        }
      }
    }

    /**
     * The remote profiles (ProfileSync.cs:25-38): the download is extracted and the `*.json` files at
     * any depth below the content directory are listed, each read with the content the extraction gave
     * it; no profiles when the extraction fails. Nothing outside `temp` changes, so neither do the
     * local profiles.
     */
    method FetchRemoteProfiles(temp: Path, zip: Bytes, archive: Option<Archive>, extractLocked: set<Path>)
      returns (contentDir: Option<Path>, remotePaths: seq<Path>, remote: seq<RemoteFile>)
      requires ChildrenOutside(profilesDir, temp)
      modifies fs
      ensures contentDir.Some? <==>
        archive.Some? && Fits(ExtractionBase(old(fs.files), old(fs.dirs), temp, zip, extractLocked), temp + ["extracted"], archive.value.files)
      ensures contentDir.Some? ==> IsAtOrBelow(contentDir.value, temp + ["extracted"])
      ensures contentDir.Some? ==> archive.Some? && contentDir.value in ContentDirs(old(fs.files), old(fs.dirs), temp, zip, extractLocked, archive.value)
      ensures contentDir.Some? ==>
        archive.Some? && ListsProfilesBelow(Overlay(ExtractionBase(old(fs.files), old(fs.dirs), temp, zip, extractLocked),
                                                    temp + ["extracted"], archive.value.files), contentDir.value, remote)
      ensures contentDir.None? ==> remotePaths == []
      ensures forall k :: 0 <= k < |remotePaths| ==> remotePaths[k] != [] && remotePaths[k] in fs.files
      ensures forall k :: 0 <= k < |remotePaths| ==> !IsChild(remotePaths[k], profilesDir) && IsJsonName(FileName(remotePaths[k]))
      ensures forall i, j :: 0 <= i < j < |remotePaths| ==> remotePaths[i] != remotePaths[j]
      ensures remote == RemoteFilesOf(fs.files, remotePaths)
      ensures forall f :: f in remote ==> IsJsonName(BaseName(f))
      ensures forall i, j :: 0 <= i < j < |remote| ==> remote[i].path != remote[j].path
      ensures forall p :: !IsAtOrBelow(p, temp) ==> (p in fs.files <==> p in old(fs.files)) && (p in fs.files ==> fs.files[p] == old(fs.files)[p])
      ensures Profiles() == old(Profiles())
      ensures temp in fs.dirs
    {
      contentDir := ExtractDownload(temp, zip, archive, extractLocked);
      remotePaths := [];
      if contentDir.Some? {
        remotePaths := fs.FindProfiles(contentDir.value);
        forall k | 0 <= k < |remotePaths| ensures IsBelow(remotePaths[k], temp) {
          assert remotePaths[k] in remotePaths;
          AtOrBelowTrans(remotePaths[k], contentDir.value, temp + ["extracted"]);
          AtOrBelowTrans(remotePaths[k], temp + ["extracted"], temp);
        }
        RemoteFilesOfListing(fs.files, contentDir.value, remotePaths);
      }
      forall k | 0 <= k < |remotePaths| ensures !IsChild(remotePaths[k], profilesDir) {
        if IsChild(remotePaths[k], profilesDir) {
          ChildOutside(remotePaths[k], profilesDir, temp);
        }
      }
      forall p | IsChild(p, profilesDir) ensures (p in fs.files <==> p in old(fs.files)) && (p in fs.files ==> fs.files[p] == old(fs.files)[p]) {
        ChildOutside(p, profilesDir, temp);
      }
      ProfilesInAgree(fs.files, old(fs.files), profilesDir);
      remote := RemoteFilesOf(fs.files, remotePaths);
      RemoteFilesOfNames(fs.files, remotePaths);
    }

    /**
     * The downloaded branch of PerformStartupSync (ProfileSync.cs:25-46): the remote profiles of the
     * extraction go through ProcessDownloadedFiles.
     */
    method SyncDownload(zip: Bytes, archive: Option<Archive>, extractLocked: set<Path>, faults: WriteFaults)
      returns (contentDir: Option<Path>, remote: seq<RemoteFile>, rows: seq<StartupRow>, updated: nat, listing: seq<string>)
      requires ChildrenOutside(profilesDir, baseDir + ["temp"])
      modifies this, fs
      ensures var r := Startup(fp, StartupStart(old(Profiles()), old(pendingUploads), old(backups)), remote, faults, listing);
        Profiles() == r.profiles && pendingUploads == r.pending && backups == r.backups && rows == r.rows && updated == r.updated
      ensures IsListingOf(listing, JsonNames(Profiles()))
      ensures contentDir.Some? <==>
        archive.Some? && Fits(ExtractionBase(old(fs.files), old(fs.dirs), baseDir + ["temp"], zip, extractLocked),
                              baseDir + ["temp"] + ["extracted"], archive.value.files)
      ensures contentDir.Some? ==>
        archive.Some? && IsAtOrBelow(contentDir.value, baseDir + ["temp"] + ["extracted"]) &&
        ListsProfilesBelow(Overlay(ExtractionBase(old(fs.files), old(fs.dirs), baseDir + ["temp"], zip, extractLocked),
                                   baseDir + ["temp"] + ["extracted"], archive.value.files), contentDir.value, remote)
      ensures contentDir.Some? ==>
        archive.Some? && contentDir.value in ContentDirs(old(fs.files), old(fs.dirs), baseDir + ["temp"], zip, extractLocked, archive.value)
      ensures contentDir.None? ==> remote == []
      ensures forall f :: f in remote ==> IsJsonName(BaseName(f))
      ensures forall i, j :: 0 <= i < j < |remote| ==> remote[i].path != remote[j].path
      ensures sessionStartTimestamps == old(sessionStartTimestamps)
      ensures baseDir + ["temp"] in fs.dirs
    {
      var remotePaths;
      contentDir, remotePaths, remote := FetchRemoteProfiles(baseDir + ["temp"], zip, archive, extractLocked);
      rows, updated, listing := ProcessDownloadedFiles(remotePaths, faults);
    }

    /**
     * The `finally` of PerformStartupSync (ProfileSync.cs:46-49): `baseDir/temp` is deleted, but for
     * its locked files. The local profiles, outside `temp`, are unchanged.
     */
    method DeleteTemp(tempLocked: set<Path>)
      requires ChildrenOutside(profilesDir, baseDir + ["temp"])
      modifies fs
      ensures (forall p :: p in tempLocked ==> !IsBelow(p, baseDir + ["temp"])) ==> baseDir + ["temp"] !in fs.dirs
      ensures baseDir + ["temp"] in old(fs.dirs) ==>
        forall p :: p in fs.files && IsBelow(p, baseDir + ["temp"]) ==> p in tempLocked
      ensures baseDir + ["temp"] !in old(fs.dirs) ==> fs.files == old(fs.files) && fs.dirs == old(fs.dirs)
      ensures Profiles() == old(Profiles())
    {
      var temp := baseDir + ["temp"];
      fs.ForceDeleteDirectory(temp, tempLocked);
      forall p | IsChild(p, profilesDir) ensures (p in fs.files <==> p in old(fs.files)) && (p in fs.files ==> fs.files[p] == old(fs.files)[p]) {
        ChildOutside(p, profilesDir, temp);
      }
      ProfilesInAgree(fs.files, old(fs.files), profilesDir);
    }

    /**
     * PerformStartupSync (ProfileSync.cs:23-51): downloads the repository archive; a failed download
     * ends the sync with an error before anything local changes. Otherwise the archive is extracted and
     * the `*.json` files below its content directory go through ProcessDownloadedFiles, each with the
     * content the extraction gave it; a failed extraction counts as a remote with no profiles. In every
     * case `baseDir/temp` is deleted at the end, but for its locked files. The profile directory lies
     * outside `temp`, as the detected game paths do.
     */
    method PerformStartupSync(downloaded: bool, zip: Bytes, archive: Option<Archive>, extractLocked: set<Path>,
                              tempLocked: set<Path>, faults: WriteFaults)
      returns (ok: bool, contentDir: Option<Path>, remote: seq<RemoteFile>, rows: seq<StartupRow>, updated: nat,
               listing: seq<string>)
      requires ChildrenOutside(profilesDir, baseDir + ["temp"])
      modifies this, fs
      ensures ok == downloaded
      ensures !ok ==> Profiles() == old(Profiles()) && pendingUploads == old(pendingUploads) && backups == old(backups)
      ensures !ok ==> contentDir.None? && rows == [] && updated == 0 && remote == [] && listing == []
      ensures ok ==> var r := Startup(fp, StartupStart(old(Profiles()), old(pendingUploads), old(backups)), remote, faults, listing);
        Profiles() == r.profiles && pendingUploads == r.pending && backups == r.backups && rows == r.rows && updated == r.updated
      ensures ok ==> IsListingOf(listing, JsonNames(Profiles()))
      ensures ok ==> (contentDir.Some? <==>
        archive.Some? && Fits(ExtractionBase(old(fs.files), old(fs.dirs), baseDir + ["temp"], zip, extractLocked),
                              baseDir + ["temp"] + ["extracted"], archive.value.files))
      ensures contentDir.Some? ==>
        archive.Some? && IsAtOrBelow(contentDir.value, baseDir + ["temp"] + ["extracted"]) &&
        ListsProfilesBelow(Overlay(ExtractionBase(old(fs.files), old(fs.dirs), baseDir + ["temp"], zip, extractLocked),
                                   baseDir + ["temp"] + ["extracted"], archive.value.files), contentDir.value, remote)
      ensures contentDir.Some? ==>
        archive.Some? && contentDir.value in ContentDirs(old(fs.files), old(fs.dirs), baseDir + ["temp"], zip, extractLocked, archive.value)
      ensures contentDir.None? ==> remote == []
      ensures forall f :: f in remote ==> IsJsonName(BaseName(f))
      ensures forall i, j :: 0 <= i < j < |remote| ==> remote[i].path != remote[j].path
      ensures (forall p :: p in tempLocked ==> !IsBelow(p, baseDir + ["temp"])) ==> baseDir + ["temp"] !in fs.dirs
      ensures ok || baseDir + ["temp"] in old(fs.dirs) ==>
        forall p :: p in fs.files && IsBelow(p, baseDir + ["temp"]) ==> p in tempLocked
      ensures sessionStartTimestamps == old(sessionStartTimestamps)
    {
      var temp := baseDir + ["temp"];
      ok, contentDir, remote, rows, updated, listing := downloaded, None, [], [], 0, [];
      if downloaded {
        contentDir, remote, rows, updated, listing := SyncDownload(zip, archive, extractLocked, faults);
      }
      DeleteTemp(tempLocked);
    }
  }
}

=== FILE: sync_rules.dfy ===
/**
 * The decision rules of the profile synchronisation engine (ProfileSync.cs), as functions of
 * values: the per-file decision of the startup pass, the startup pass as a fold over the remote
 * files and the local listing, the session-start snapshot, and the per-file decision and fold of the
 * shutdown pass. The class in profile_sync.dfy runs the same passes as loops over mutable state and
 * is proved equal to these folds; the lemmas here state what the passes promise.
 */
module SyncRules {
  import opened Base
  import opened Fingerprint
  import FileManager

  /** A path of the extracted remote snapshot: never the root itself. */
  type FilePath = p: FileManager.Path | p != [] witness [""]

  /** One profile found in the extracted remote snapshot. */
  datatype RemoteFile = RemoteFile(path: FilePath, content: Bytes)

  /** `Path.GetFileName` of a remote path: the name the local copy has. */
  function BaseName(f: RemoteFile): string {
    FileManager.FileName(f.path)
  }

  /** The outcome of the startup pass for one file, as its report row shows it. */
  datatype StartupStatus = Synced | LocalNewer | Updated | NewLocal

  datatype StartupRow = StartupRow(name: string, status: StartupStatus)

  /** A backup: the bytes a profile had just before it was overwritten. */
  datatype Backup = Backup(name: string, content: Bytes)

  /**
   * What the startup pass reads and writes: the local profiles by name, the pending-upload set, the
   * backups taken so far, and the pass's own `processedFiles`, report rows and `updated` counter.
   */
  datatype StartupState = StartupState(
    profiles: map<string, Bytes>,
    pending: set<string>,
    backups: seq<Backup>,
    processed: set<string>,
    rows: seq<StartupRow>,
    updated: nat)

  /** The environment's answers for the writes of the startup pass, by remote path. */
  datatype WriteFaults = WriteFaults(backupFails: set<FilePath>, copyFails: set<FilePath>)

  function Lookup(m: map<string, Bytes>, name: string): Option<Bytes> {
    if name in m then Some(m[name]) else None
  }

  /** The `*.json` files of a profile directory. */
  function JsonNames(profiles: map<string, Bytes>): set<string> {
    set n | n in profiles && FileManager.IsJsonName(n)
  }

  /** `names` in some listing order: every name once. */
  ghost predicate IsListingOf(listing: seq<string>, names: set<string>) {
    (forall i, j :: 0 <= i < j < |listing| ==> listing[i] != listing[j])
    && (forall n :: n in listing <==> n in names)
  }

  // ---------------------------------------------------------------- startup pass

  /** A local copy exists and has the remote file's SHA-256 digest. */
  predicate SameContent(fp: Fingerprinter, local: Option<Bytes>, remote: Bytes) {
    local.Some? && fp.sha256(local.value) == fp.sha256(remote)
  }

  /**
   * The decision for one remote file: Synced when the local copy has the remote's digest, whatever
   * the timestamps; otherwise a strictly newer local timestamp means LocalNewer, and anything else
   * Updated (a missing local file has timestamp 0).
   */
  function Classify(fp: Fingerprinter, local: Option<Bytes>, remote: Bytes): StartupStatus {
    if SameContent(fp, local, remote) then Synced
    else if TimestampOf(fp, local) > GetTimestamp(fp, remote) then LocalNewer
    else Updated
  }

  /**
   * The decision is the one ProfileSync.cs:152-179 takes by comparing hex hash strings, with "" as the
   * hash and 0 as the timestamp of a missing local file.
   */
  lemma ClassifyAsInSource(fp: Fingerprinter, local: Option<Bytes>, remote: Bytes)
    ensures Classify(fp, local, remote)
      == if GetFileHash(fp, local) == GetFileHash(fp, Some(remote)) then Synced
         else if TimestampOf(fp, local) > GetTimestamp(fp, remote) then LocalNewer
         else Updated
  {
    HashEqualIffSameDigest(fp, local, Some(remote));
  }

  /**
   * There is no separate branch for a missing local file: it is Updated (downloaded), except when the
   * remote timestamp is negative, where it is LocalNewer and nothing is downloaded.
   */
  lemma ClassifyMissingLocal(fp: Fingerprinter, remote: Bytes)
    ensures Classify(fp, None, remote) == if GetTimestamp(fp, remote) < 0 then LocalNewer else Updated
  {
  }

  /**
   * One remote file (ProfileSync.cs:143-180), with ApplyUpdate (197-211) and CreateBackup
   * (255-265): the backup happens only when a local file exists and may fail silently; a failed copy
   * leaves the local file as it was, and the file is still reported and counted as Updated.
   */
  function StartupStep(fp: Fingerprinter, st: StartupState, f: RemoteFile, faults: WriteFaults): StartupState {
    var name := BaseName(f);
    var local := Lookup(st.profiles, name);
    var status := Classify(fp, local, f.content);
    StartupState(
      if status == Updated && f.path !in faults.copyFails then st.profiles[name := f.content] else st.profiles,
      if status == LocalNewer then st.pending + {name} else st.pending,
      if status == Updated && local.Some? && f.path !in faults.backupFails then st.backups + [Backup(name, local.value)] else st.backups,
      st.processed + {name},
      st.rows + [StartupRow(name, status)],
      if status == Updated then st.updated + 1 else st.updated)
  }

  /**
   * What one remote file does, in terms of content: when the local copy has the remote's digest
   * nothing is written and pending is unchanged; when the digests differ and the local timestamp is
   * strictly greater the local bytes stay and the name becomes pending; otherwise the existing local
   * bytes are backed up (unless the backup fails) and replaced by the remote bytes (unless the copy
   * fails), and pending is unchanged.
   */
  lemma StartupStepEffect(fp: Fingerprinter, st: StartupState, f: RemoteFile, faults: WriteFaults)
    ensures var r := StartupStep(fp, st, f, faults);
      var name, local := BaseName(f), Lookup(st.profiles, BaseName(f));
      var same := SameContent(fp, local, f.content);
      && r.processed == st.processed + {name}
      && (same ==> r.profiles == st.profiles && r.pending == st.pending && r.backups == st.backups)
      && (!same && TimestampOf(fp, local) > GetTimestamp(fp, f.content) ==>
            r.profiles == st.profiles && r.pending == st.pending + {name} && r.backups == st.backups)
      && (!same && TimestampOf(fp, local) <= GetTimestamp(fp, f.content) ==>
            && r.pending == st.pending
            && r.profiles == (if f.path in faults.copyFails then st.profiles else st.profiles[name := f.content])
            && r.backups == st.backups + (if local.Some? && f.path !in faults.backupFails then [Backup(name, local.value)] else []))
  {
  }

  /** The remote files in order (ProfileSync.cs:143-180). */
  function RemotePass(fp: Fingerprinter, st: StartupState, files: seq<RemoteFile>, faults: WriteFaults): StartupState
    decreases |files|
  {
    if files == [] then st
    else StartupStep(fp, RemotePass(fp, st, files[..|files| - 1], faults), files[|files| - 1], faults)
  }

  /** One more remote file is one more step of the pass. */
  lemma RemotePassSnoc(fp: Fingerprinter, st: StartupState, files: seq<RemoteFile>, faults: WriteFaults, i: nat)
    requires i < |files|
    ensures RemotePass(fp, st, files[..i + 1], faults) == StartupStep(fp, RemotePass(fp, st, files[..i], faults), files[i], faults)
  {
    assert files[..i + 1][..i] == files[..i];
  }

  /** The local names the remote files map to, in order. */
  function RemoteNames(files: seq<RemoteFile>): (names: seq<string>)
    ensures |names| == |files|
  {
    seq(|files|, k requires 0 <= k < |files| => BaseName(files[k]))
  }

  /** The remote pass appends one row per remote file, named after it and never NewLocal. */
  lemma {:induction false} RemotePassRows(fp: Fingerprinter, st: StartupState, files: seq<RemoteFile>, faults: WriteFaults)
    ensures var r := RemotePass(fp, st, files, faults);
      && |r.rows| == |st.rows| + |files| && r.rows[..|st.rows|] == st.rows
      && (forall k :: 0 <= k < |files| ==>
            r.rows[|st.rows| + k].name == BaseName(files[k]) && r.rows[|st.rows| + k].status != NewLocal)
    decreases |files|
  {
    if files != [] {
      var m := |files| - 1;
      RemotePassRows(fp, st, files[..m], faults);
      var s := RemotePass(fp, st, files[..m], faults);
      var r := StartupStep(fp, s, files[m], faults);
      assert r.rows == s.rows + [r.rows[|s.rows|]];
      forall k | 0 <= k < m
        ensures r.rows[|st.rows| + k] == s.rows[|st.rows| + k] && files[..m][k] == files[k]
      {
      }
    }
  }

  /**
   * The row of the k-th remote file carries its classification against the local profiles as the
   * earlier remote files left them.
   */
  lemma {:induction false} RemotePassRowAt(fp: Fingerprinter, st: StartupState, files: seq<RemoteFile>, faults: WriteFaults, k: nat)
    requires k < |files|
    ensures |st.rows| + k < |RemotePass(fp, st, files, faults).rows|
    ensures RemotePass(fp, st, files, faults).rows[|st.rows| + k]
      == StartupRow(BaseName(files[k]), Classify(fp, Lookup(RemotePass(fp, st, files[..k], faults).profiles, BaseName(files[k])), files[k].content))
    decreases |files|
  {
    RemotePassRows(fp, st, files, faults);
    var m := |files| - 1;
    if k < m {
      RemotePassRowAt(fp, st, files[..m], faults, k);
      RemotePassRows(fp, st, files[..m], faults);
      assert files[..m][..k] == files[..k] && files[..m][k] == files[k];
      var s := RemotePass(fp, st, files[..m], faults);
      var r := StartupStep(fp, s, files[m], faults);
      assert r.rows == s.rows + [r.rows[|s.rows|]];
    }
  }

  /** Remote files with other names leave what a name has alone: its bytes, its pending status, whether it was processed. */
  lemma {:induction false} RemotePassFrame(fp: Fingerprinter, st: StartupState, files: seq<RemoteFile>, faults: WriteFaults, n: string)
    requires n !in RemoteNames(files)
    ensures var r := RemotePass(fp, st, files, faults);
      Lookup(r.profiles, n) == Lookup(st.profiles, n) && (n in r.pending <==> n in st.pending)
      && (n in r.processed <==> n in st.processed)
    decreases |files|
  {
    if files != [] {
      var m := |files| - 1;
      assert RemoteNames(files) == RemoteNames(files[..m]) + [BaseName(files[m])];
      RemotePassFrame(fp, st, files[..m], faults, n);
    }
  }

  /** The remote pass processes exactly the names of the remote files. */
  lemma {:induction false} RemotePassProcessed(fp: Fingerprinter, st: StartupState, files: seq<RemoteFile>, faults: WriteFaults)
    ensures RemotePass(fp, st, files, faults).processed == st.processed + set n | n in RemoteNames(files)
    decreases |files|
  {
    if files != [] {
      var m := |files| - 1;
      assert RemoteNames(files) == RemoteNames(files[..m]) + [BaseName(files[m])];
      RemotePassProcessed(fp, st, files[..m], faults);
    }
  }

  /**
   * Pending only grows in the remote pass, and what it gains is exactly the names of its
   * LocalNewer rows.
   */
  lemma {:induction false} RemotePassPending(fp: Fingerprinter, st: StartupState, files: seq<RemoteFile>, faults: WriteFaults)
    ensures |st.rows| <= |RemotePass(fp, st, files, faults).rows|
    ensures var r := RemotePass(fp, st, files, faults);
      forall n :: n in r.pending <==> n in st.pending || StartupRow(n, LocalNewer) in r.rows[|st.rows|..]
    decreases |files|
  {
    if files != [] {
      var m := |files| - 1;
      RemotePassPending(fp, st, files[..m], faults);
      RemotePassRows(fp, st, files[..m], faults);
      var s := RemotePass(fp, st, files[..m], faults);
      var r := StartupStep(fp, s, files[m], faults);
      assert r.rows[|st.rows|..] == s.rows[|st.rows|..] + [r.rows[|r.rows| - 1]];
    }
  }

  /** The local `*.json` files in listing order whose name matched no remote file become NewLocal and pending (ProfileSync.cs:182-191). */
  function LocalPass(st: StartupState, listing: seq<string>): StartupState
    decreases |listing|
  {
    if listing == [] then st
    else
      var s := LocalPass(st, listing[..|listing| - 1]);
      var name := listing[|listing| - 1];
      if name in s.processed then s
      else s.(pending := s.pending + {name}, rows := s.rows + [StartupRow(name, NewLocal)])
  }

  /** The local pass adds exactly the listed names the remote pass did not process, each as one NewLocal row. */
  lemma {:induction false} LocalPassEffect(st: StartupState, listing: seq<string>)
    ensures var r := LocalPass(st, listing);
      && r.profiles == st.profiles && r.backups == st.backups && r.processed == st.processed && r.updated == st.updated
      && |r.rows| >= |st.rows| && r.rows[..|st.rows|] == st.rows
      && (forall n :: n in r.pending <==> n in st.pending || (n in listing && n !in st.processed))
      && (forall row :: row in r.rows[|st.rows|..] <==> row.status == NewLocal && row.name in listing && row.name !in st.processed)
    decreases |listing|
  {
    if listing != [] {
      var m := |listing| - 1;
      LocalPassEffect(st, listing[..m]);
      var s := LocalPass(st, listing[..m]);
      assert listing == listing[..m] + [listing[m]];
      if listing[m] !in s.processed {
        var r := LocalPass(st, listing);
        assert r.rows[|st.rows|..] == s.rows[|st.rows|..] + [StartupRow(listing[m], NewLocal)];
      }
    }
  }

  /**
   * ProcessDownloadedFiles as a function: the remote pass, then the local pass over the listing of the
   * profile directory as the remote pass left it.
   */
  function Startup(fp: Fingerprinter, st: StartupState, files: seq<RemoteFile>, faults: WriteFaults, listing: seq<string>): StartupState {
    LocalPass(RemotePass(fp, st, files, faults), listing)
  }

  /** The state a startup pass starts from: the pass's own set, rows and counter are fresh. */
  function StartupStart(profiles: map<string, Bytes>, pending: set<string>, backups: seq<Backup>): StartupState {
    StartupState(profiles, pending, backups, {}, [], 0)
  }

  /**
   * Pending only grows, and a name is pending after the startup pass exactly when it was before, or
   * it has a LocalNewer row, or a NewLocal row; a NewLocal row is given to exactly the listed local
   * files whose name no remote file had.
   */
  lemma StartupPending(fp: Fingerprinter, profiles: map<string, Bytes>, pending: set<string>, backups: seq<Backup>,
                       files: seq<RemoteFile>, faults: WriteFaults, listing: seq<string>)
    ensures var r := Startup(fp, StartupStart(profiles, pending, backups), files, faults, listing);
      && pending <= r.pending
      && (forall n :: n in r.pending <==> n in pending || StartupRow(n, LocalNewer) in r.rows || StartupRow(n, NewLocal) in r.rows)
      && (forall n :: StartupRow(n, NewLocal) in r.rows <==> n in listing && n !in RemoteNames(files))
  {
    var st := StartupStart(profiles, pending, backups);
    RemotePassPending(fp, st, files, faults);
    RemotePassRows(fp, st, files, faults);
    RemotePassProcessed(fp, st, files, faults);
    var s := RemotePass(fp, st, files, faults);
    assert s.rows[|st.rows|..] == s.rows;
    LocalPassEffect(s, listing);
    var r := LocalPass(s, listing);
    assert r.rows == s.rows + r.rows[|s.rows|..];
    forall k | 0 <= k < |s.rows| ensures s.rows[k].status != NewLocal {
      assert s.rows[|st.rows| + k].name == BaseName(files[k]);
    }
    forall n ensures n in s.processed <==> n in RemoteNames(files) {
    }
    forall n ensures StartupRow(n, LocalNewer) in r.rows <==> StartupRow(n, LocalNewer) in s.rows {
    }
    forall n ensures StartupRow(n, NewLocal) in r.rows <==> StartupRow(n, NewLocal) in r.rows[|s.rows|..] {
    }
  }

  /**
   * A local profile whose name no remote file has keeps its presence and its bytes through the
   * startup pass.
   */
  lemma StartupLeavesUnmatched(fp: Fingerprinter, st: StartupState, files: seq<RemoteFile>, faults: WriteFaults,
                               listing: seq<string>, n: string)
    requires n !in RemoteNames(files)
    ensures Lookup(Startup(fp, st, files, faults, listing).profiles, n) == Lookup(st.profiles, n)
  {
    RemotePassFrame(fp, st, files, faults, n);
    LocalPassEffect(RemotePass(fp, st, files, faults), listing);
  }
  // ---------------------------------------------------------------- session-start snapshot

  /**
   * CaptureSessionStartSnapshot as a function (ProfileSync.cs:53-62): empty when the profile
   * directory does not exist; otherwise every local `*.json` name mapped to its timestamp.
   */
  function SessionSnapshot(fp: Fingerprinter, dirExists: bool, profiles: map<string, Bytes>): (snap: map<string, int64>)
    ensures forall n :: n in snap <==> dirExists && n in profiles && FileManager.IsJsonName(n)
    ensures forall n :: n in snap ==> snap[n] == GetTimestamp(fp, profiles[n])
  {
    if dirExists then map n | n in JsonNames(profiles) :: GetTimestamp(fp, profiles[n]) else map[]
  }

  /** The recorded start timestamp, 0 for a name not present at capture time (ProfileSync.cs:91). */
  function StartTimestamp(snap: map<string, int64>, name: string): int64 {
    if name in snap then snap[name] else 0
  }

  // ---------------------------------------------------------------- shutdown pass

  /** Why a file is uploaded at shutdown. */
  datatype Reason = NewProgress | PendingSync

  /** One row of the shutdown report: an upload that succeeded or failed, or a conflict. */
  datatype ShutdownOutcome = Sent(reason: Reason) | Failed(reason: Reason) | ConflictRemoteNewer

  datatype ShutdownRow = ShutdownRow(name: string, outcome: ShutdownOutcome)

  /** The remote store's I/O the shutdown pass performs, in order. */
  datatype Request = ReadRaw(path: string) | Upload(path: string, content: Bytes)

  /**
   * The remote store as the shutdown pass sees it: `readRaw` is DownloadFileContent, None both for a
   * missing file and for any failure (GitHubClient.cs:121-127); `accepts` is whether UploadFile succeeds.
   */
  datatype RemoteStore = RemoteStore(readRaw: string -> Option<Bytes>, accepts: (string, Bytes) -> bool)

  /** The repository path of a profile, used for the re-check and the upload alike. */
  function RemotePath(name: string): string {
    "profiles/" + name
  }

  lemma RemotePathInjective(a: string, b: string)
    requires RemotePath(a) == RemotePath(b)
    ensures a == b
  {
    assert a == RemotePath(a)[9..];
  }

  /**
   * IsSafeToUploadPending (ProfileSync.cs:213-234) given what the remote read returned: no remote
   * copy means safe; otherwise the local timestamp must be strictly greater than the remote one.
   */
  function IsSafeToUploadPending(fp: Fingerprinter, remote: Option<Bytes>, localTs: int64): (safe: bool)
    ensures remote.None? ==> safe
    ensures remote.Some? ==> (safe <==> localTs > GetTimestamp(fp, remote.value))
  {
    match remote
    case None => true
    case Some(bytes) => localTs > GetTimestamp(fp, bytes)
  }

  /** What the shutdown pass has produced so far: rows, remote I/O, `sentCount` and `hasActivity`. */
  datatype ShutdownLog = ShutdownLog(rows: seq<ShutdownRow>, io: seq<Request>, sent: nat, hasActivity: bool)

  /** Uploading one file and recording the row (ProfileSync.cs:112-127). */
  function UploadStep(store: RemoteStore, log: ShutdownLog, name: string, content: Bytes, reason: Reason): ShutdownLog {
    var path := RemotePath(name);
    var ok := store.accepts(path, content);
    ShutdownLog(
      log.rows + [ShutdownRow(name, if ok then Sent(reason) else Failed(reason))],
      log.io + [Upload(path, content)],
      if ok then log.sent + 1 else log.sent,
      true)
  }

  /**
   * One local file of the shutdown pass (ProfileSync.cs:84-127): uploaded as New Progress when its
   * timestamp is greater than at session start; otherwise, when pending, re-checked against the remote
   * copy and uploaded as Pending if safe or reported as a conflict if not; otherwise nothing.
   */
  function ShutdownStep(fp: Fingerprinter, store: RemoteStore, profiles: map<string, Bytes>, snap: map<string, int64>,
                        pending: set<string>, log: ShutdownLog, name: string): ShutdownLog
    requires name in profiles
  {
    var content := profiles[name];
    var currentTs := GetTimestamp(fp, content);
    if currentTs > StartTimestamp(snap, name) then UploadStep(store, log, name, content, NewProgress)
    else if name in pending then
      var path := RemotePath(name);
      var log' := log.(io := log.io + [ReadRaw(path)]);
      if IsSafeToUploadPending(fp, store.readRaw(path), currentTs) then UploadStep(store, log', name, content, PendingSync)
      else log'.(rows := log.rows + [ShutdownRow(name, ConflictRemoteNewer)])
    else log
  }

  /** The shutdown pass over the local `*.json` files in listing order. */
  function ShutdownPass(fp: Fingerprinter, store: RemoteStore, profiles: map<string, Bytes>, snap: map<string, int64>,
                        pending: set<string>, listing: seq<string>): ShutdownLog
    requires forall n :: n in listing ==> n in profiles
    decreases |listing|
  {
    if listing == [] then ShutdownLog([], [], 0, false)
    else ShutdownStep(fp, store, profiles, snap, pending, ShutdownPass(fp, store, profiles, snap, pending, listing[..|listing| - 1]), listing[|listing| - 1])
  }

  /**
   * The decision for one file, in full: it is uploaded as New Progress iff its timestamp advanced past
   * the start value; otherwise the remote is read iff it is pending, and then it is uploaded as Pending
   * iff the re-check passes, and otherwise reported as a conflict that is not activity; a file that
   * neither advanced nor is pending gives no row and no I/O.
   */
  lemma ShutdownStepEffect(fp: Fingerprinter, store: RemoteStore, profiles: map<string, Bytes>, snap: map<string, int64>,
                           pending: set<string>, log: ShutdownLog, name: string)
    requires name in profiles
    ensures var r := ShutdownStep(fp, store, profiles, snap, pending, log, name);
      var ts := GetTimestamp(fp, profiles[name]);
      var advanced := ts > StartTimestamp(snap, name);
      var remote := store.readRaw(RemotePath(name));
      var safe := remote.None? || ts > GetTimestamp(fp, remote.value);
      var path := RemotePath(name);
      && (advanced ==> r == UploadStep(store, log, name, profiles[name], NewProgress))
      && (!advanced && name in pending && safe ==>
            r == UploadStep(store, log.(io := log.io + [ReadRaw(path)]), name, profiles[name], PendingSync))
      && (!advanced && name in pending && !safe ==>
            r == ShutdownLog(log.rows + [ShutdownRow(name, ConflictRemoteNewer)], log.io + [ReadRaw(path)], log.sent, log.hasActivity))
      && (!advanced && name !in pending ==> r == log)
  {
  }

  /** `hasActivity` holds exactly when some upload was attempted; a conflict alone is no activity. */
  lemma {:induction false} ShutdownActivity(fp: Fingerprinter, store: RemoteStore, profiles: map<string, Bytes>,
                                            snap: map<string, int64>, pending: set<string>, listing: seq<string>)
    requires forall n :: n in listing ==> n in profiles
    ensures var r := ShutdownPass(fp, store, profiles, snap, pending, listing);
      r.hasActivity <==> exists k :: 0 <= k < |r.io| && r.io[k].Upload?
    decreases |listing|
  {
    if listing != [] {
      var m := |listing| - 1;
      ShutdownActivity(fp, store, profiles, snap, pending, listing[..m]);
      var s := ShutdownPass(fp, store, profiles, snap, pending, listing[..m]);
      var r := ShutdownStep(fp, store, profiles, snap, pending, s, listing[m]);
      assert r.io[..|s.io|] == s.io;
      if s.hasActivity {
        var k :| 0 <= k < |s.io| && s.io[k].Upload?;
        assert r.io[k] == s.io[k];
      }
      if r.hasActivity && !s.hasActivity {
        assert r.io[|r.io| - 1].Upload?;
      }
    }
  }

  /**
   * Every upload sends a listed file's current local bytes to `profiles/<name>`, and every remote read
   * is the re-check of a listed pending file that did not advance.
   */
  lemma {:induction false} ShutdownRequests(fp: Fingerprinter, store: RemoteStore, profiles: map<string, Bytes>,
                                            snap: map<string, int64>, pending: set<string>, listing: seq<string>)
    requires forall n :: n in listing ==> n in profiles
    ensures var r := ShutdownPass(fp, store, profiles, snap, pending, listing);
      forall q :: q in r.io ==>
        exists n :: (n in listing && q.path == RemotePath(n)
                     && (q.Upload? ==> q.content == profiles[n])
                     && (q.ReadRaw? ==> n in pending && GetTimestamp(fp, profiles[n]) <= StartTimestamp(snap, n)))
    decreases |listing|
  {
    if listing != [] {
      var m := |listing| - 1;
      ShutdownRequests(fp, store, profiles, snap, pending, listing[..m]);
    }
  }

  /**
   * A listed file that did not advance and is not pending produces no row and no remote I/O
   * (the listing names each file once).
   */
  lemma {:induction false} ShutdownQuiet(fp: Fingerprinter, store: RemoteStore, profiles: map<string, Bytes>,
                                         snap: map<string, int64>, pending: set<string>, listing: seq<string>, n: string)
    requires forall x :: x in listing ==> x in profiles
    requires forall i, j :: 0 <= i < j < |listing| ==> listing[i] != listing[j]
    requires n in listing ==> GetTimestamp(fp, profiles[n]) <= StartTimestamp(snap, n) && n !in pending
    ensures var r := ShutdownPass(fp, store, profiles, snap, pending, listing);
      (forall row :: row in r.rows ==> row.name != n) && (forall q :: q in r.io ==> q.path != RemotePath(n))
    decreases |listing|
  {
    if listing != [] {
      var m := |listing| - 1;
      ShutdownQuiet(fp, store, profiles, snap, pending, listing[..m], n);
      var s := ShutdownPass(fp, store, profiles, snap, pending, listing[..m]);
      if listing[m] != n {
        forall q | q in ShutdownStep(fp, store, profiles, snap, pending, s, listing[m]).io && q !in s.io
          ensures q.path != RemotePath(n)
        {
          if q.path == RemotePath(n) {
            RemotePathInjective(listing[m], n);
          }
        }
      }
    }
  }

  // ---------------------------------------------------------------- the lifecycle

  /**
   * A file Updated at startup and left untouched during the session causes no shutdown action, when
   * the snapshot is captured after the startup pass (Program.cs:50, 69): it is the only remote file
   * with its name, it was not pending before, and the shutdown pass sees the same bytes for it as the
   * startup pass left (other files may have changed). Then it is not pending, and the shutdown pass
   * gives it no row and does no remote I/O for it.
   */
  lemma UpdatedAndUntouchedIsQuiet(
    fp: Fingerprinter, store: RemoteStore,
    profiles: map<string, Bytes>, pending: set<string>, backups: seq<Backup>,
    files: seq<RemoteFile>, faults: WriteFaults, listing: seq<string>,
    later: map<string, Bytes>, laterListing: seq<string>, i: nat)
    requires i < |files|
    requires forall k :: 0 <= k < |files| && k != i ==> BaseName(files[k]) != BaseName(files[i])
    requires BaseName(files[i]) !in pending
    requires Classify(fp, Lookup(profiles, BaseName(files[i])), files[i].content) == Updated
    requires IsListingOf(laterListing, JsonNames(later))
    requires var r := Startup(fp, StartupStart(profiles, pending, backups), files, faults, listing);
      Lookup(later, BaseName(files[i])) == Lookup(r.profiles, BaseName(files[i]))
    ensures var r := Startup(fp, StartupStart(profiles, pending, backups), files, faults, listing);
      var log := ShutdownPass(fp, store, later, SessionSnapshot(fp, true, r.profiles), r.pending, laterListing);
      && BaseName(files[i]) !in r.pending
      && (forall row :: row in log.rows ==> row.name != BaseName(files[i]))
      && (forall q :: q in log.io ==> q.path != RemotePath(BaseName(files[i])))
  {
    var n := BaseName(files[i]);
    var st := StartupStart(profiles, pending, backups);
    assert RemoteNames(files[..i]) == RemoteNames(files)[..i];
    RemotePassFrame(fp, st, files[..i], faults, n);
    assert files[..i + 1][..i] == files[..i];
    RemotePassSuffixKeeps(fp, st, files, faults, n, i + 1);
    assert files[..|files|] == files;
    var mid := RemotePass(fp, st, files, faults);
    LocalPassEffect(mid, listing);
    var r := Startup(fp, st, files, faults, listing);
    var snap := SessionSnapshot(fp, true, r.profiles);
    if n in laterListing {
      assert n in JsonNames(later);
      assert Lookup(later, n) == Lookup(r.profiles, n);
    }
    ShutdownQuiet(fp, store, later, snap, r.pending, laterListing, n);
  }

  /** After the only occurrence of a name, the later remote files keep it processed and out of pending. */
  lemma {:induction false} RemotePassSuffixKeeps(fp: Fingerprinter, st: StartupState, files: seq<RemoteFile>, faults: WriteFaults,
                                                 n: string, j: nat)
    requires j <= |files|
    requires forall k :: j <= k < |files| ==> BaseName(files[k]) != n
    requires var s := RemotePass(fp, st, files[..j], faults); n !in s.pending && n in s.processed
    ensures var r := RemotePass(fp, st, files, faults); n !in r.pending && n in r.processed
    decreases |files| - j
  {
    if j < |files| {
      assert files[..j + 1][..j] == files[..j];
      RemotePassSuffixKeeps(fp, st, files, faults, n, j + 1);
    } else {
      assert files[..j] == files;
    }
  }
}

=== FILE: text.dfy ===
/**
 * The .NET string operations the core relies on, written out over `seq<char>`:
 * `char.IsWhiteSpace`, `string.IsNullOrWhiteSpace`, `Trim`, `TrimEnd(char)`,
 * ordinal `Replace`, `Split(char)`, and `StartsWith` as a character-by-character
 * prefix test (the .NET `StartsWith(string)` compares under the current culture).
 */
module Text {

  /** `char.IsWhiteSpace`: the Unicode separator characters and the C0/C1 controls .NET treats as white space. */
  predicate IsWhiteSpace(c: char) {
    ('\U{9}' <= c <= '\U{D}') || c == ' ' || c == '\U{85}' || c == '\U{A0}' || c == '\U{1680}'
    || ('\U{2000}' <= c <= '\U{200A}') || c == '\U{2028}' || c == '\U{2029}' || c == '\U{202F}'
    || c == '\U{205F}' || c == '\U{3000}'
  }

  /** `string.IsNullOrWhiteSpace` on a non-null string: empty or white space only. */
  predicate IsBlank(s: string) {
    forall i :: 0 <= i < |s| ==> IsWhiteSpace(s[i])
  }

  predicate StartsWith(s: string, prefix: string) {
    |prefix| <= |s| && s[..|prefix|] == prefix
  }

  predicate EndsWith(s: string, suffix: string) {
    |suffix| <= |s| && s[|s| - |suffix|..] == suffix
  }

  /** Leading white space removed: the longest suffix of `s` that does not start with white space. */
  function TrimStart(s: string): (r: string)
    ensures |r| <= |s| && r == s[|s| - |r|..]
    ensures r == [] || !IsWhiteSpace(r[0])
    ensures forall k :: 0 <= k < |s| - |r| ==> IsWhiteSpace(s[k])
    decreases |s|
  {
    if s != [] && IsWhiteSpace(s[0]) then TrimStart(s[1..]) else s
  }

  /** Trailing white space removed: the longest prefix of `s` that does not end with white space. */
  function TrimEndWhiteSpace(s: string): (r: string)
    ensures |r| <= |s| && r == s[..|r|]
    ensures r == [] || !IsWhiteSpace(r[|r| - 1])
    ensures forall k :: |r| <= k < |s| ==> IsWhiteSpace(s[k])
    decreases |s|
  {
    if s != [] && IsWhiteSpace(s[|s| - 1]) then TrimEndWhiteSpace(s[..|s| - 1]) else s
  }

  /** `string.Trim()`. */
  function Trim(s: string): (r: string)
    ensures r == [] || (!IsWhiteSpace(r[0]) && !IsWhiteSpace(r[|r| - 1]))
  {
    TrimEndWhiteSpace(TrimStart(s))
  }

  /** `string.TrimEnd(c)`: every trailing `c` removed. */
  function TrimEnd(s: string, c: char): (r: string)
    ensures |r| <= |s| && r == s[..|r|]
    ensures r == [] || r[|r| - 1] != c
    ensures forall k :: |r| <= k < |s| ==> s[k] == c
    decreases |s|
  {
    if s != [] && s[|s| - 1] == c then TrimEnd(s[..|s| - 1], c) else s
  }

  /** `pattern` occurs in `s` at position `i`. */
  predicate OccursAt(s: string, pattern: string, i: nat) {
    i + |pattern| <= |s| && s[i..i + |pattern|] == pattern
  }

  /** Ordinal `string.Replace(pattern, replacement)`: non-overlapping occurrences, scanned left to right. */
  function Replace(s: string, pattern: string, replacement: string): (r: string)
    requires pattern != []
    decreases |s|
  {
    if |s| < |pattern| then s
    else if s[..|pattern|] == pattern then replacement + Replace(s[|pattern|..], pattern, replacement)
    else [s[0]] + Replace(s[1..], pattern, replacement)
  }

  /** A string in which the pattern does not occur is left as it is by `Replace`. */
  lemma {:induction false} ReplaceWithoutOccurrence(s: string, pattern: string, replacement: string)
    requires pattern != []
    requires forall i: nat :: !OccursAt(s, pattern, i)
    ensures Replace(s, pattern, replacement) == s
    decreases |s|
  {
    if |s| >= |pattern| {
      assert !OccursAt(s, pattern, 0);
      forall i: nat ensures !OccursAt(s[1..], pattern, i) {
        assert !OccursAt(s, pattern, i + 1);
      }
      ReplaceWithoutOccurrence(s[1..], pattern, replacement);
    }
  }

  /** Removing a pattern never lengthens a string, and every character it keeps is one of the input's. */
  lemma {:induction false} RemoveShrinks(s: string, pattern: string, c: char)
    requires pattern != []
    ensures |Replace(s, pattern, "")| <= |s|
    ensures c in Replace(s, pattern, "") ==> c in s
    decreases |s|
  {
    if |s| < |pattern| {
    } else if s[..|pattern|] == pattern {
      RemoveShrinks(s[|pattern|..], pattern, c);
    } else {
      RemoveShrinks(s[1..], pattern, c);
    }
  }

  /** Text that cannot start an occurrence (it lacks the pattern's first character) is copied as it is. */
  lemma {:induction false} ReplacePlainPrefix(p: string, rest: string, pattern: string, replacement: string)
    requires pattern != [] && pattern[0] !in p
    ensures Replace(p + rest, pattern, replacement) == p + Replace(rest, pattern, replacement)
    decreases |p|
  {
    if p == [] {
      assert p + rest == rest;
    } else {
      var s := p + rest;
      assert s[0] == p[0] && s[1..] == p[1..] + rest;
      if |s| >= |pattern| {
        assert s[..|pattern|][0] == p[0];
      }
      assert pattern[0] !in p[1..] by {
        assert forall c :: c in p[1..] ==> c in p;
      }
      ReplacePlainPrefix(p[1..], rest, pattern, replacement);
      assert [p[0]] + (p[1..] + Replace(rest, pattern, replacement)) == p + Replace(rest, pattern, replacement);
    }
  }

  /** An occurrence at the front is replaced and the scan resumes after it. */
  lemma ReplaceOccurrence(pattern: string, rest: string, replacement: string)
    requires pattern != []
    ensures Replace(pattern + rest, pattern, replacement) == replacement + Replace(rest, pattern, replacement)
  {
    var s := pattern + rest;
    assert s[..|pattern|] == pattern && s[|pattern|..] == rest;
  }

  /** A front that is not an occurrence keeps its first character. */
  lemma ReplaceMismatch(s: string, pattern: string, replacement: string)
    requires pattern != [] && s != [] && !OccursAt(s, pattern, 0)
    ensures Replace(s, pattern, replacement) == [s[0]] + Replace(s[1..], pattern, replacement)
  {
  }

  /** `Split` of two strings joined by the separator is the split of each, one after the other. */
  lemma {:induction false} SplitConcat(x: string, y: string, c: char)
    ensures Split(x + [c] + y, c) == Split(x, c) + Split(y, c)
    decreases |x|
  {
    var s := x + [c] + y;
    if x == [] {
      assert s[0] == c && s[1..] == y;
    } else {
      assert s[0] == x[0] && s[1..] == x[1..] + [c] + y;
      SplitConcat(x[1..], y, c);
    }
  }

  /** A string without the separator splits into itself alone. */
  lemma SplitWhole(s: string, c: char)
    requires c !in s
    ensures Split(s, c) == [s]
  {
    SplitSingleIffNoSeparator(s, c);
  }

  /** `Trim` leaves a string alone when it neither starts nor ends with white space. */
  lemma TrimUntouched(s: string)
    requires s != [] && !IsWhiteSpace(s[0]) && !IsWhiteSpace(s[|s| - 1])
    ensures Trim(s) == s
  {
    assert TrimStart(s) == s;
  }

  /** `string.Split(c)`: the maximal runs between separators, empty runs included; never an empty list. */
  function Split(s: string, c: char): (parts: seq<string>)
    ensures |parts| >= 1
    ensures forall k :: 0 <= k < |parts| ==> c !in parts[k]
    ensures Join(parts, c) == s
    decreases |s|
  {
    if s == [] then [[]]
    else
      var rest := Split(s[1..], c);
      if s[0] == c then [[]] + rest
      else [[s[0]] + rest[0]] + rest[1..]
  }

  /** The parts put back together with the separator between them. */
  function Join(parts: seq<string>, c: char): string
    requires |parts| >= 1
    decreases |parts|
  {
    if |parts| == 1 then parts[0] else parts[0] + [c] + Join(parts[1..], c)
  }

  /** `Split` yields a single part exactly when the separator does not occur. */
  lemma {:induction false} SplitSingleIffNoSeparator(s: string, c: char)
    ensures |Split(s, c)| == 1 <==> c !in s
    decreases |s|
  {
    if s != [] {
      SplitSingleIffNoSeparator(s[1..], c);
      assert s == [s[0]] + s[1..];
    }
  }

  /** ASCII lower-casing, as applied to two-letter ISO language names. */
  function ToLowerAscii(s: string): string {
    seq(|s|, k requires 0 <= k < |s| => if 'A' <= s[k] <= 'Z' then s[k] - 'A' + 'a' else s[k])
  }

  predicate IsDigit(c: char) {
    '0' <= c <= '9'
  }

  /** The decimal value of a run of ASCII digits, as `int.Parse` and Python's `int` read it. */
  function DigitsValue(s: string): nat
    requires forall k :: 0 <= k < |s| ==> IsDigit(s[k])
    decreases |s|
  {
    if s == [] then 0 else assert IsDigit(s[|s| - 1]); 10 * DigitsValue(s[..|s| - 1]) + (s[|s| - 1] as int - '0' as int)
  }
}
